=== FILE: README.md ===
# Marines Dashboard core, modelled in Dafny

The Marines Dashboard turns a roster spreadsheet, exported as CSV, into a
per-Marine record. Each record has a name, MOS, a platoon / squad / team path
and a 4 × 5 matrix of rubric scores. The dashboard then aggregates, ranks,
groups and filters these records for display. Every step of that pipeline in
`app.js` is a pure function over strings, sequences and small numbers, and this
project models each of them as a Dafny function and proves what it promises.

Modules, one per component of the pipeline:

| module | models |
|---|---|
| `Options` | `null`-or-value results (`Option`) |
| `Text` | ECMAScript `trim`, `\s+` collapsing, `toLowerCase`/`toUpperCase`, `includes`, digit strings |
| `Order` | `localeCompare` as code-point lexicographic order; a stable insertion sort by key |
| `Seqs` | `Array.prototype.filter`, the keys and buckets of a `Map` filled in roster order |
| `Fields` | a parsed CSV row as an ordered key/value list; `getField` |
| `Csv` | `normalizeHeader`, the `parseCSV` state machine and the row builder |
| `Score` | `clamp`, `avg`, `Math.round`, `parseFloat` over decimal numerals, `toIntMaybe` |
| `Rubrics` | `RUBRIC_KEYS`, `AREA_KEYS`, `AREA_LABELS`, `PREFIX_BY_RUBRIC`, the area synonym titles and letter columns |
| `AreaValue` | `monthIndexFromWord`, `parseTitleHeader`, the four tiers of `getAreaValueFromRow`, `getAreaNotesFromRow`, `getAreaMetaFromRow` |
| `Record` | `normalizeMOS`, `KNOWN_RANKS`, `parseMarineName`, `makeEmptyRubric`, `rowToMarine` |
| `Aggregate` | `rubricOverall`, `calcMarineOverall`, `overallForMarine`, `summarizeGroup`, the ranking of `teamPanelData`, `nameKey` |
| `Grouping` | `groupRoster` with `pltOrder`, and `squadOrder`, `teamOrder` |
| `Filters` | `applyFilter`, `withinNav` and the hierarchy scope |
| `Display` | `escapeXml`, `sanitizeId`, `pickNonEmpty`, `isTruthy`, `statusClass`, `pltDisplayLabel`, `mosCategory` |

Modelling choices:
- A row is a `seq<(string, string)>` with unique keys in first-occurrence header order.
- When a header repeats, its key keeps its first position but takes the value of the last column with that header, as `obj[h] = …` does.
- Scores are `real`, so arithmetic on them is exact. `Math.round(x)` is `(x + 0.5).Floor`.
- Whitespace for `trim` and `\s` is the exact ECMAScript WhiteSpace and LineTerminator set.

Four behaviours of the code that a reader might not expect. The model follows the code:
- **Tier 2 of area resolution.** The 4-digit token of a title header `<Word> <4 digits> <text>` is compared with the rubric's MOS codes (app.js:1255). It is not a year.
- **Sorting in `groupRoster`.** Only the platoon level and the Marines inside each team are sorted (app.js:122-130). Squads and teams keep the order in which the roster first names them.
- **`normalizeMOS` length.** It keeps every digit of a value that is not a decimal numeral. Of a decimal numeral it keeps the digits of the integer part, without leading zeros (app.js:1591-1594), so "0621.5" gives "0621" and "00012345" gives "12345". Either way a code may be longer than 4 digits (app.js:1595-1598): it is "" or at least 4 digits, not exactly 4.
- **`statusClass` trimming.** It does not trim (app.js:393), so a status of only spaces is `s-ok`, not `s-unknown`.

## Model

| member | source | states |
|---|---|---|
| Csv.NormalizeHeader | app.js:1116-1121 | a normalised header has no leading or trailing whitespace, no run of two whitespace characters, and no U+FEFF or U+00A0 |
| Csv.NormalizeHeaderOfNormal | app.js:1116-1121 | a header that is already trimmed, collapsed and free of BOM/NBSP comes back unchanged |
| Csv.NormalizeHeaderIdempotent | app.js:1116-1121 | normalising a header twice is normalising it once |
| Csv.Tokenize | app.js:1156-1178 | no record the tokenizer emits is empty or a single empty field: blank lines are skipped |
| Csv.LexOpenQuote | app.js:1166 | outside quotes a `"` switches to quoted mode and adds nothing to the field, even in the middle of a field |
| Csv.LexComma | app.js:1167 | outside quotes a comma ends the field and starts an empty one in the same record |
| Csv.LexNewline | app.js:1168-1173 | outside quotes a newline ends the record and appends it to the output |
| Csv.TokenizeEncodeTable | app.js:1159-1178 | any table of non-blank records, written with every field quoted and inner quotes doubled, tokenizes back to itself: `""` reads as `"` and commas and newlines inside quotes are literal |
| Csv.TokenizeIgnoresCR | app.js:1175 | for text without quotes, carriage returns do not change the records |
| Csv.PutGet | app.js:1187 | after setting a key, reading it gives the new value and every other key reads as before |
| Csv.BuildRow | app.js:1186-1187 | a built row's keys are the distinct headers in order of first appearance, each once |
| Csv.BuildRowGet | app.js:1187 | the value of a header is the trimmed cell at the last column carrying it, or "" when the record is too short; columns past the header count are ignored |
| Csv.BuildRowMissing | app.js:1187 | a name that is not a header has no entry |
| Csv.Kept | app.js:1183-1185 | the records kept are exactly the ones with a non-blank cell, in input order |
| Csv.ParseCSV | app.js:1156-1191 | no records gives no rows; otherwise one row per kept data record, in order, built against the normalised first record, each with unique keys |
| Fields.Hit | app.js:1195-1197 | a candidate hits only with a non-blank value stored under the exact name or under a key equal to it once trimmed and lower-cased; a non-blank value under the exact name always wins |
| Fields.HitLoose | app.js:1196-1197 | when the exact name gives nothing, only the first key equal to the name once trimmed and lower-cased is consulted: it hits when it is not the empty key and its cell is not blank, and otherwise nothing hits, whatever later such keys hold |
| Fields.GetField | app.js:1193-1200 | the result is "" exactly when no candidate hits; otherwise it is the value of the earliest candidate that hits, a non-blank value of the row |
| Fields.GetFieldAppend | app.js:1194-1198 | with two candidate lists one after the other, the second is consulted only when the first gives "" |
| Fields.GetFieldSingle | app.js:1194-1199 | with one candidate, the result is that candidate's hit or "" |
| Fields.GetFieldMiss | app.js:1199 | when every key matching a candidate holds a blank value, the result is "" |
| Score.Clamp | app.js:96 | the result lies in the bounds, equals the input inside them, and is the nearer bound outside them |
| Score.Round | app.js:360 | the rounded value is within one half of the input, halves going up |
| Score.Avg | app.js:97 | the mean of nothing is 0; otherwise the mean times the count is the sum |
| Score.AvgWithin | app.js:97 | the mean of values inside bounds is inside those bounds |
| Score.AvgConst | app.js:97 | the mean of equal values is that value |
| Score.Clean | app.js:1207 | the cleaned text has no `%` and no `,` |
| Score.ParseFloatDefined | app.js:1208 | `parseFloat` yields a number exactly when, after leading whitespace and one sign, the text starts with a digit or with `.` and a digit |
| Score.ParseFloatDigits | app.js:1208 | a digit string followed by a non-numeric tail parses to the digits' value |
| Score.ParseFloatDecimal | app.js:1208 | `w.f` parses to whole part plus fraction |
| Score.ParseFloatNegate | app.js:1208 | a leading minus negates the parsed value |
| Score.ScoreOf | app.js:1211-1216 | a value in [0, 1] without `%` is scaled by 100; a value above 1, or any value from a cell with `%`, is clamped to [0, 100]; the result is in [0, 100] |
| Score.ScoreOfClamped | app.js:1211-1215 | every value that is not an unmarked fraction of 1, negative values included, is only clamped to [0, 100], so a negative value becomes 0 |
| Score.ToIntMaybe | app.js:1202-1217 | blank input gives null, and every non-null result is in [0, 100] |
| Score.ToIntMaybeWhole | app.js:1202-1217 | a whole number p gives p, except that "1" gives 100 and anything over 100 gives 100 |
| Score.ToIntMaybePercent | app.js:1202-1217 | "p%" gives p, capped at 100; the percent sign switches off the ×100 scaling |
| Score.ToIntMaybeFraction | app.js:1202-1217 | "0.f" gives 100 × 0.f, so "0.85" gives 85 |
| Score.ToIntMaybeNegative | app.js:1208-1216 | a negative whole number such as "-5" gives 0 |
| Score.ToIntMaybeNonNumeric | app.js:1204-1209 | a cell whose cleaned text (trimmed, `%` and `,` removed, trimmed again) is empty or starts with neither a digit, `.` nor a sign gives null, so `abc%` is null |
| Rubrics.MosCodes | app.js:1240 | the rubric's MOS codes are 4-digit strings |
| Rubrics.DigitTokensPair | app.js:1240 | the digit tokens of `aaaa-bbbb` are the two codes in order |
| Rubrics.MosCodesRadio | app.js:1240 | rubric 0621-0629 has MOS codes 0621 and 0629 |
| Rubrics.MosCodesSatcom | app.js:1240 | rubric 0627-0629 has MOS codes 0627 and 0629 |
| Rubrics.MosCodesNetwork | app.js:1240 | rubric 0631-0639 has MOS codes 0631 and 0639 |
| Rubrics.MosCodesData | app.js:1240 | rubric 0671-0679 has MOS codes 0671 and 0679 |
| AreaValue.MonthOfTable | app.js:1123-1136 | a month number is non-zero only for a month name, its abbreviation or `sept`, and then it is that month's number |
| AreaValue.MonthOfName | app.js:1123-1136 | each full month name maps to its month number |
| AreaValue.MonthOfAbbrev | app.js:1123-1136 | each three-letter abbreviation maps to its month number |
| AreaValue.MonthIndexOfLetters | app.js:1138-1141 | a month word is looked up lower-cased, so its case does not matter |
| AreaValue.MatchTitle | app.js:1145-1153 | a match splits the header into a letter word, exactly 4 digits and non-empty text, separated by single spaces, with the month looked up from the word |
| AreaValue.MatchTitleParts | app.js:1145-1153 | every header of that shape matches, with those parts |
| AreaValue.ParseTitleHeader | app.js:1143-1154 | a parsed title comes from the normalised header and has the parts above |
| AreaValue.ParseTitleHeaderOf | app.js:1143-1154 | a clean `<word> <4 digits> <text>` header parses to exactly those parts |
| AreaValue.AlnumNorm | app.js:1257-1261 | the normalised text holds only lower-case letters, digits and single inner spaces |
| AreaValue.AlnumNormIdempotent | app.js:1257-1261 | normalising the text twice is normalising it once |
| AreaValue.CompositeKeys | app.js:1221-1232 | the 40 composite keys run through the 5 upper-cased prefixes, each with 8 spellings, in authored order |
| AreaValue.Tier1First | app.js:1234-1238 | tier 1 gives nothing exactly when no composite key yields a score; otherwise it gives the score of the first key that does |
| AreaValue.TitleCandidateWhen | app.js:1252-1266 | a header is a tier-2 candidate exactly when it parses, its 4 digits are a MOS code of the rubric, its text contains a synonym of the area, and its value is a score |
| AreaValue.BestIndex | app.js:1268-1270 | the chosen candidate has the greatest month, and every earlier candidate has a strictly smaller month: ties go to the first |
| AreaValue.Tier2Best | app.js:1250-1272 | tier 2 gives nothing exactly when no header is a candidate; otherwise it gives the score of the first candidate with the greatest month |
| AreaValue.LooseCandidateWhen | app.js:1275-1283 | a header counts in tier 3 exactly when its normalised form contains a MOS code and an area synonym and its value is a score |
| AreaValue.Tier3First | app.js:1274-1284 | tier 3 gives the score of the first header that counts, or nothing |
| AreaValue.Tier4Letter | app.js:1287-1292 | tier 4 gives a score exactly when the area's letter column is present and holds a score, and then gives that score |
| AreaValue.GetAreaValueFromRow | app.js:1219-1295 | the value is in [0, 100]; it is the score of the first tier that gives one, and 0 when no tier does |
| AreaValue.AreaValueOfEmptyRow | app.js:1294 | an empty row gives 0 for every rubric and area |
| AreaValue.AreaValueOfFirstKey | app.js:1234-1237 | a whole number under the first composite key decides the value |
| AreaValue.AreaValueOfTier1 | app.js:1234-1238 | when tier 1 gives a score, the later tiers are not consulted |
| AreaValue.NoteKeys | app.js:1298-1308 | the 30 note keys run through the 5 prefixes, each with notes, comment and evidence in both cases |
| AreaValue.GetAreaNotesFromRow | app.js:1297-1310 | the notes are "" exactly when no note key hits; otherwise they are a non-blank value of the row |
| AreaValue.MetaKeys | app.js:1314-1322 | the meta keys run through the 5 prefixes, each with the suffix as given and upper-cased |
| AreaValue.AreaMetaPrecedence | app.js:1323-1326 | the last-evaluation date prefers `lastEval`, then `last`, then `date`; the evaluator prefers `evaluator`, then `who` |
| Record.NormalizeMOS | app.js:1586-1599 | the MOS is "" or at least 4 digits; it is "" exactly when the input has no digit |
| Record.NormalizeMOSValue | app.js:1590-1595 | for a decimal numeral the MOS is the value of its whole part; otherwise it is the value of all its digits |
| Record.NormalizeMOSOfCode | app.js:1586-1599 | a MOS code of 4 digits, or of more without a leading zero, is unchanged |
| Record.ListedIff | app.js:1601-1605 | rank lookup finds exactly the entries of `KNOWN_RANKS` |
| Record.NamesFrom | app.js:1619-1624 | no name tokens give empty names; a single token is the first name with an empty last name; otherwise the last token is the last name and the ones before it, joined by spaces, the first name |
| Record.ParseMarineName | app.js:1607-1625 | a blank name gives only the fallback rank; the first token is the rank only when no fallback is given and it is a known rank; of the tokens after the rank, a single one is the first name with an empty last name, and of several the last is the last name and the others, joined by spaces, the first name |
| Record.ParseMarineNameRebuild | app.js:1610-1624 | rank, first name and last name, joined by single spaces, give back the whitespace-collapsed name, so no token is lost or altered by the split |
| Record.MakeEmptyRubric | app.js:1388-1390 | an empty rubric has every area in `AREA_KEYS` order, each labelled and scored 0 |
| Record.RubricsOf | app.js:1360-1368 | the matrix has every rubric in `RUBRIC_KEYS` order, each with every area in order, every score in [0, 100] |
| Record.RubricsOfEmptyRow | app.js:1360-1368 | an empty row yields the empty rubric for every rubric |
| Record.Platoon | app.js:1348 | a blank section gives `HQ`; otherwise the trimmed section |
| Record.Squad | app.js:1353 | a blank squad gives `Platoon Staff`; otherwise the trimmed squad |
| Record.Team | app.js:1354 | a given team is kept trimmed; a blank team is `Platoon Staff` when the squad is `Platoon Staff` and `No Team` otherwise |
| Record.MarineId | app.js:1358 | the id is the trimmed EDIPI, else the trimmed email, else the trimmed `last_first_mos`, and never empty |
| Record.Names | app.js:1330-1340 | the rank, first-name and last-name columns are kept when they are non-empty, and the full-name column is used only when both name columns are empty |
| Record.NamesOfFullName | app.js:1334-1339 | with both name columns empty, the rank column wins over a parsed rank, and the full name's last remaining token is the last name and the others the first name |
| Record.RowToMarine | app.js:1329-1386 | the id is the trimmed EDIPI column, else the trimmed e-mail column, else the trimmed `last_first_mos`, and is never empty; the e-mail, billet and status are the columns as read, the rank and names are those `Record.Names` reads, the MOS is the normalised MOS column and the scores are the row's rubrics; plt, squad and team take their defaults; the raw row is kept |
| Aggregate.RubricOverall | app.js:359-361 | a rubric's overall is an integer in [0, 100], and 0 without areas |
| Aggregate.CalcMarineOverall | app.js:362-365 | a Marine's overall is an integer in [0, 100], and 0 without rubrics |
| Aggregate.AreaPoints | app.js:141-143 | an area's points are the clamped score of the first area with that key, or 0 when there is none |
| Aggregate.FindRubric | app.js:139 | the lookup finds the first rubric with the id, or nothing exactly when no rubric has it |
| Aggregate.OverallForMarine | app.js:135-157 | the overall is an integer in [0, 100], and 0 without rubrics |
| Aggregate.OverallsAgree | app.js:135-157 | on a well-shaped matrix, `overallForMarine` and `calcMarineOverall` agree |
| Aggregate.RubricOverallUniform | app.js:359-361 | a rubric whose areas all score c has overall c |
| Aggregate.OverallOfUniform | app.js:135-157 | a Marine whose areas all score c has overall c |
| Aggregate.SummarizeGroup | app.js:159-164 | count and scored are the group size; the overall is in [0, 100], and 0 for an empty group |
| Aggregate.SummarizeGroupRoundsMean | app.js:162 | the group overall is within 0.5 of the mean of the Marines' overall scores (their sum over their count), so it is that mean rounded to the nearest integer |
| Aggregate.SummarizeGroupWithin | app.js:162 | when every Marine scores between `lo` and `hi`, so does the group |
| Aggregate.SummarizeSingle | app.js:159-164 | a group of one has that Marine's overall |
| Aggregate.Ranked | app.js:170 | the ranking is a permutation of the team, sorted by its key |
| Aggregate.NameKey | app.js:568-570 | the name key is trimmed and has no capital letters, and is empty exactly when last and first name are both blank |
| Aggregate.NameKeyOfNames | app.js:568-570 | with both names given and unpadded, the key is the lower-cased last name, a space and the lower-cased first name |
| Aggregate.RankedOrder | app.js:170 | the ranking is by descending overall, with ties in `nameKey` order |
| Aggregate.Entry | app.js:171-180 | an entry carries the Marine's overall, its MOS or an em dash when it has none, and the trimmed `rank first last` name, empty only when all three are blank |
| Aggregate.EntryOfNames | app.js:172 | with unpadded, non-empty first and last names, the entry name is `rank first last` with single spaces, or `first last` when the rank is empty |
| Aggregate.TeamPanel | app.js:166-194 | the panel is titled with the team name, or "Team" when the name is empty; it counts the team and its `avg` is the group overall `summarizeGroup` gives; top3 is the first min(3, n) of the ranking and bottom3 the last min(3, n), worst first |
| Aggregate.TopThreeBest | app.js:171-175 | no Marine below the top three scores more than any of them |
| Aggregate.BottomThreeWorst | app.js:176-180 | no Marine above the bottom three scores less than any of them |
| Order.LexLeTotal | app.js:122 | any two keys are ordered one way or the other |
| Order.LexLeTransitive | app.js:122 | the key order is transitive |
| Order.LexLeAntisymmetric | app.js:122 | keys ordered both ways are equal |
| Order.SortBy | app.js:127 | the sorted sequence is a permutation of the input and ordered by the key |
| Order.SortByStable | app.js:127 | the sort is stable: the elements with any one key come out in the order they went in, as `Array.prototype.sort` guarantees (the ranking at app.js:170 relies on it too) |
| Seqs.DistinctFirstAppearance | app.js:101-111 | of two distinct values, the one listed first occurs in the input before any occurrence of the other, as `Map` keys come in insertion order |
| Seqs.KeysFirstAppearance | app.js:101-111 | the keys of a grouping come in order of first appearance: some element with the earlier key precedes every element with the later one |
| Grouping.PltOrder | app.js:114-121 | the order is 1, 2, 3, 50 or 99, each value characterised as an if-and-only-if: 1 for `1st`, 2 for `2nd` without `1st`, 3 for `3rd` without either, 99 for `hq` without any ordinal, 50 otherwise |
| Grouping.PltOrderByOrdinal | app.js:114-121 | a name without the digit 1 that mentions `2nd` is at 2; without 1 and 2, `3rd` is at 3; without 1, 2 and 3, `hq` is at 99 |
| Grouping.SquadOrder | app.js:551-557 | the order is 1, 2, 3 or 50: 1 exactly when the name has a `1`, 2 exactly when it has a `2` but no `1`, 3 exactly when it has a `3` but neither, 50 exactly when it has none |
| Grouping.TeamOrder | app.js:559-566 | the order is 1, 2, 50, 98 or 99: 1 exactly for a `team` with a standalone `1`; 2 exactly for a `team` with a standalone `2` and no standalone `1`; 98 exactly for `no team` when not numbered; 99 exactly for `unassigned` with neither; 50 otherwise |
| Grouping.TeamOrderOfDefaults | app.js:559-566 | a name without the digits 1 and 2 that mentions `no team` sorts at 98, and one that mentions `unassigned` but not `team` at 99 |
| Grouping.SortMembers | app.js:127 | the Marines of a team are a permutation sorted by `lastName firstName` |
| Grouping.PltNames | app.js:100-122 | the platoon names are sorted by `pltOrder` and name, each once, and are exactly the platoon paths of the roster |
| Grouping.GroupRoster | app.js:100-132 | the tree has one group per sorted platoon name, in that order, each built from exactly the Marines of that platoon |
| Grouping.GroupRosterDistinct | app.js:106 | no platoon appears twice in the tree |
| Grouping.GroupRosterOrder | app.js:122 | a platoon shown before another never has a larger `pltOrder`, so `HQ` comes after the numbered platoons |
| Grouping.GroupRosterCovers | app.js:102-106 | every Marine's platoon is in the tree |
| Grouping.GroupRosterPlaces | app.js:102-111 | under its platoon, every Marine sits with all its copies in the team of its squad and team paths |
| Grouping.GroupRosterPaths | app.js:103-111 | every Marine in the tree comes from the roster and sits under its own platoon, squad and team paths |
| Grouping.GroupRosterMembersSorted | app.js:124-130 | the Marines of every team are in name order |
| Filters.Query | app.js:1107 | the compared query is trimmed and free of capital letters, and empty exactly when the query is blank |
| Filters.QueryIdempotent | app.js:1107 | a query already in compared form compares as it stands |
| Filters.Haystack | app.js:1110 | the searched text is the lower-cased rank, first name, last name, MOS and email separated by single spaces, with no capital letters |
| Filters.ApplyFilter | app.js:1106-1113 | an empty query keeps the roster unchanged; otherwise the result is the order-preserving subsequence of exactly the Marines whose rank, names, MOS or email contain the query, each with all its copies |
| Filters.ApplyFilterIdempotent | app.js:1106-1113 | filtering twice by the same query is filtering once |
| Filters.ApplyFilterNarrows | app.js:1106-1113 | a query containing another keeps no Marine the shorter one drops |
| Filters.ApplyFilterFindsLastName | app.js:1106-1113 | searching for a Marine's own last name keeps that Marine |
| Filters.WithinNav | app.js:483-488 | the empty position admits everyone; an admitted Marine matches every level the position sets, compared trimmed, and a Marine matching every set level is admitted |
| Filters.WithinOwnNav | app.js:483-488 | a Marine lies inside its own platoon, squad and team |
| Filters.WithinNavWidens | app.js:483-488 | dropping the deepest levels of a position never excludes a Marine |
| Filters.Scope | app.js:678 | the scope is the order-preserving subsequence of exactly the Marines inside the position |
| Filters.ScopeNested | app.js:678 | a team's scope lies inside its squad's, and that inside its platoon's |
| Display.EscapeXml | app.js:368-375 | the escaped text is no shorter, has no `<`, `>`, `"` or `'`, and equals the input when it has no special character |
| Display.EscapeChainIsEscapeXml | app.js:368-375 | the five replacements in sequence, `&` first, escape each character once, so no entity is escaped twice |
| Display.UnescapeEscapeXml | app.js:368-375 | unescaping the five entities gives back the original text |
| Display.SanitizeId | app.js:354-356 | the id has only ASCII letters, digits, `_` and `-`, one character per UTF-16 unit of the input |
| Display.SanitizeIdChar | app.js:355 | one character is kept when allowed, else becomes `_`, or `__` above U+FFFF |
| Display.SanitizeIdAppend | app.js:355 | sanitising a concatenation concatenates the sanitised parts, so allowed characters stay in place |
| Display.SanitizeIdOfClean | app.js:354-356 | an id that is already clean is unchanged |
| Display.SanitizeIdIdempotent | app.js:354-356 | sanitising twice is sanitising once |
| Display.Picked | app.js:379-382 | a picked value is non-empty and trimmed |
| Display.PickNonEmpty | app.js:377-385 | the result is trimmed; it is "" exactly when no value is picked, and otherwise the first picked value |
| Display.PickNonEmptyHead | app.js:378-382 | a leading `0` gives "0" whatever follows, while a leading `false` or missing value is passed over |
| Display.IsTruthy | app.js:387-390 | a truthy value is never blank |
| Display.IsTruthyNormalized | app.js:387-390 | case and surrounding whitespace do not change truthiness |
| Display.IsTruthyUpper | app.js:388 | upper-casing a value does not change its verdict |
| Display.IsTruthyWord | app.js:389 | each accepted spelling is truthy as written, upper-cased and padded with spaces |
| Display.IsTruthyRejects | app.js:389 | a value whose trimmed form starts with `n`, `f` or `0` in any case, such as `no`, `false` or `0`, is not truthy |
| Display.StatusOf | app.js:392-399 | the class is unknown exactly for the empty status, warn exactly for a status naming an absence, and ok otherwise |
| Display.StatusOfLower | app.js:392-399 | the class does not depend on letter case |
| Display.PltDisplayLabel | app.js:517-523 | the label is non-empty and trimmed; it is `HQ` exactly for a blank platoon, `hq` in any case, or a name containing `headquarters`, and otherwise the trimmed platoon |
| Display.PltDisplayLabelIdempotent | app.js:517-523 | labelling a label gives the same label |
| Display.FourDigits | app.js:528 | the match is the leftmost run of four digits, or none when there is no such run |
| Display.MosCategoryOf | app.js:525-535 | a blank MOS is neutral; otherwise the category comes from the code prefix of the first four-digit run, or of the whole text when there is none |
| Display.MosCategoryOfCode | app.js:525-535 | for a digit-only code, the category is decided by its first four digits |

## Left out

- Rendering, the DOM and I/O are not modelled. This covers the radar SVGs, the HTML templates, the modal builders, avatars and `mount` with its fetch, file reading and event wiring. The model takes the CSV text as its input.
- `shortLabel` (app.js:346-352) is not modelled, because it only shortens labels for the radar drawing.
- The render-time sort of squads and teams by `squadOrder` and `teamOrder` (app.js:616-619) is not modelled. It sits in the HTML renderers; the two order functions themselves are modelled.
- Case mapping is ASCII-only. `toLowerCase` and `toUpperCase` of non-ASCII letters are not modelled.
- `localeCompare` is modelled as code-point lexicographic order. Locale collation is not modelled.
- Object keys are enumerated in header order. ECMAScript enumerates integer-like keys first, and that is not modelled.
- Rubric ids and area keys are the fixed enumerations the callers pass. So the fallback `|| [rubricId]` for an unknown id is unreachable and not modelled.
- `Aggregate.OverallForMarine`: the `!per.length` fallback (app.js:148-155) is unreachable for the same reason, because every rubric's id is one of `RUBRIC_KEYS`.
- `monthIndexFromWord` looks words up in a plain object. Keys inherited from `Object.prototype`, such as `constructor`, are not modelled.
- `Score.ParseFloat` covers digits, an optional fraction and an optional exponent after optional whitespace and sign. It does not cover `Infinity`, `NaN`, or overflow to infinity, whether from a huge exponent or from a very long digit string.
- Floating-point rounding is not modelled. `parseFloat`, the scaling of fractions by 100, the `avg` sums and the values passed to `Math.round` are exact `real` arithmetic. In IEEE doubles `0.285 * 100` is 28.499999999999996, so the source rounds a rubric scored 0.285 in every area to 28 where the model gives 29.
- `Record.NormalizeMOS` computes the value of a decimal numeral exactly. It does not model JavaScript's `Number` → `String` conversion for values too large for exponent-free output.
- `NaN` scores and `a.score || 0` on non-numeric scores are not modelled, because every score the record builder produces is a number in [0, 100].
- `Record.MakeEmptyRubric`: the source leaves notes and evaluation details undefined. The model writes "" for them.
- `AreaValue.GetAreaMetaFromRow` carries no contract of its own. Its precedence is stated by `AreaValue.AreaMetaPrecedence`.
- `Display.IsTruthy`: modelled on the text `String(v ?? '')`; converting numbers, booleans and null to that text is left to the caller.
- `Display.PickNonEmpty`: values are strings, integers, booleans or absent. Non-integer numbers and objects are not modelled.
- `Aggregate.TeamPanel`: only the title, count, average and the top and bottom three are modelled. The fixed text fields (`basis`, `note`, `topArea`, `lowArea`) and the subtitle are left out.

=== FILE: aggregate.dfy ===
/**
 * Scores rolled up from the matrix of one Marine to a group: the per-rubric
 * and per-Marine overall scores (`rubricOverall`, `calcMarineOverall`,
 * app.js:359-365, and `overallForMarine`, app.js:135-157), the group summary
 * (`summarizeGroup`, app.js:159-164) and the ranking of a team with its best
 * and worst three (`teamPanelData`, app.js:166-194).
 */
module Aggregate {
  import opened Text
  import opened Options
  import opened Order
  import opened Score
  import opened Rubrics
  import opened Record
  import Seqs

  // ---------------------------------------------------------------------------
  // rubricOverall, calcMarineOverall (app.js:359-365)
  // ---------------------------------------------------------------------------

  /** The clamped scores of a rubric's areas, in the rubric's own order. */
  function ClampedScores(areas: seq<AreaScore>): (xs: seq<real>)
    ensures |xs| == |areas| && Within(xs, 0.0, 100.0)
    ensures forall j :: 0 <= j < |areas| ==> xs[j] == Clamp(areas[j].score, 0.0, 100.0)
  {
    seq(|areas|, j requires 0 <= j < |areas| => Clamp(areas[j].score, 0.0, 100.0))
  }

  /** The rounded mean of scores in [0, 100] is an integer in [0, 100]. */
  lemma RoundedMeanWithin(xs: seq<real>)
    requires Within(xs, 0.0, 100.0)
    ensures 0 <= Round(Avg(xs)) <= 100
  {
    if |xs| > 0 {
      AvgWithin(xs, 0.0, 100.0);
    }
    RoundWithin(Avg(xs), 0, 100);
  }

  /** `rubricOverall`: the rounded mean of the clamped area scores, 0 for a
      rubric without areas. */
  function RubricOverall(r: Rubric): (o: int)
    ensures 0 <= o <= 100
    ensures |r.areas| == 0 ==> o == 0
  {
    var xs := ClampedScores(r.areas);
    RoundedMeanWithin(xs);
    Round(Avg(xs))
  }

  /** The per-rubric overall scores as reals. */
  function RubricOveralls(rs: seq<Rubric>): (xs: seq<real>)
    ensures |xs| == |rs| && Within(xs, 0.0, 100.0)
    ensures forall i :: 0 <= i < |rs| ==> xs[i] == RubricOverall(rs[i]) as real
  {
    seq(|rs|, i requires 0 <= i < |rs| => RubricOverall(rs[i]) as real)
  }

  /** `calcMarineOverall`: the rounded mean of the overall scores of the first
      four rubrics, 0 for a Marine without rubrics. */
  function CalcMarineOverall(m: Marine): (o: int)
    ensures 0 <= o <= 100
    ensures |m.rubrics| == 0 ==> o == 0
  {
    var rs := if |m.rubrics| > 4 then m.rubrics[..4] else m.rubrics;
    if |rs| == 0 then 0
    else
      var xs := RubricOveralls(rs);
      AvgWithin(xs, 0.0, 100.0);
      RoundWithin(Avg(xs), 0, 100);
      Round(Avg(xs))
  }

  // ---------------------------------------------------------------------------
  // overallForMarine (app.js:135-157)
  // ---------------------------------------------------------------------------

  /** Position `j` holds the first area with key `k`. */
  predicate FirstKeyAt(areas: seq<AreaScore>, k: AreaKey, j: int) {
    0 <= j < |areas| && areas[j].key == k && forall i :: 0 <= i < j ==> areas[i].key != k
  }

  /** Past a head with another key, the first area with key `k` is the same
      area, one position earlier in the tail. */
  lemma FirstKeyAtTail(areas: seq<AreaScore>, k: AreaKey)
    requires |areas| > 0 && areas[0].key != k
    ensures forall j :: FirstKeyAt(areas, k, j) ==> FirstKeyAt(areas[1..], k, j - 1) && areas[1..][j - 1] == areas[j]
    ensures (forall j :: 0 <= j < |areas[1..]| ==> areas[1..][j].key != k) ==> forall j :: 0 <= j < |areas| ==> areas[j].key != k
  {
    forall j | FirstKeyAt(areas, k, j) ensures FirstKeyAt(areas[1..], k, j - 1) && areas[1..][j - 1] == areas[j] {
      forall i | 0 <= i < j - 1 ensures areas[1..][i].key != k {
        assert areas[1..][i] == areas[i + 1];
      }
    }
    assert forall j :: 1 <= j < |areas| ==> areas[j] == areas[1..][j - 1];
  }

  /** `(r.areas || []).find(x => x.key === k)?.score ?? 0`, clamped: the score
      of the first area with the key, 0 when there is none. */
  function AreaPoints(areas: seq<AreaScore>, k: AreaKey): (v: real)
    ensures 0.0 <= v <= 100.0
    ensures (forall j :: 0 <= j < |areas| ==> areas[j].key != k) ==> v == 0.0
    ensures forall j :: FirstKeyAt(areas, k, j) ==> v == Clamp(areas[j].score, 0.0, 100.0)
  {
    if |areas| == 0 then 0.0
    else if areas[0].key == k then Clamp(areas[0].score, 0.0, 100.0)
    else
      FirstKeyAtTail(areas, k);
      AreaPoints(areas[1..], k)
  }

  /** `rubrics.find(x => x.id === rid)`. */
  function FindRubric(rs: seq<Rubric>, rid: RubricId): (r: Option<Rubric>)
    ensures r.None? <==> forall i :: 0 <= i < |rs| ==> rs[i].id != rid
    ensures forall i :: 0 <= i < |rs| && rs[i].id == rid && (forall j :: 0 <= j < i ==> rs[j].id != rid)
                        ==> r == Some(rs[i])
  {
    if |rs| == 0 then None
    else if rs[0].id == rid then Some(rs[0])
    else
      assert forall i :: 1 <= i < |rs| ==> rs[i] == rs[1..][i - 1];
      FindRubric(rs[1..], rid)
  }

  /** The five area scores of a rubric, looked up by key in `AREA_KEYS` order. */
  function AreaVector(r: Rubric): (xs: seq<real>)
    ensures |xs| == |AreaKeys| && Within(xs, 0.0, 100.0)
    ensures forall j :: 0 <= j < |AreaKeys| ==> xs[j] == AreaPoints(r.areas, AreaKeys[j])
  {
    seq(|AreaKeys|, j requires 0 <= j < |AreaKeys| => AreaPoints(r.areas, AreaKeys[j]))
  }

  /** The rounded mean of a rubric's five area scores. */
  function RubricScore(r: Rubric): (o: int)
    ensures 0 <= o <= 100
  {
    var xs := AreaVector(r);
    AvgWithin(xs, 0.0, 100.0);
    RoundWithin(Avg(xs), 0, 100);
    Round(Avg(xs))
  }

  /** For each id of `RUBRIC_KEYS`, the score of the Marine's rubric with that
      id, or nothing when there is none. */
  function RubricScores(rs: seq<Rubric>): (xs: seq<Option<real>>)
    ensures |xs| == |RubricKeys|
    ensures forall i :: 0 <= i < |xs| && xs[i].Some? ==> 0.0 <= xs[i].value <= 100.0
    ensures forall i :: 0 <= i < |xs| ==>
              xs[i] == match FindRubric(rs, RubricKeys[i]) case Some(r) => Some(RubricScore(r) as real) case None => None
  {
    seq(|RubricKeys|, i requires 0 <= i < |RubricKeys| =>
      match FindRubric(rs, RubricKeys[i]) case Some(r) => Some(RubricScore(r) as real) case None => None)
  }

  /** `.filter(v => v !== null)`: the present values, in order. */
  function Present(xs: seq<Option<real>>): (ys: seq<real>)
    ensures |ys| <= |xs|
    ensures (forall i :: 0 <= i < |xs| && xs[i].Some? ==> 0.0 <= xs[i].value <= 100.0) ==> Within(ys, 0.0, 100.0)
    ensures (exists i :: 0 <= i < |xs| && xs[i].Some?) ==> |ys| > 0
  {
    if |xs| == 0 then []
    else
      var rest := Present(xs[1..]);
      assert forall i :: 1 <= i < |xs| ==> xs[i] == xs[1..][i - 1];
      if xs[0].Some? then [xs[0].value] + rest else rest
  }

  /** With every value present, the filter keeps them all. */
  lemma {:induction false} PresentAll(xs: seq<Option<real>>)
    requires forall i :: 0 <= i < |xs| ==> xs[i].Some?
    ensures |Present(xs)| == |xs|
    ensures forall i :: 0 <= i < |xs| ==> Present(xs)[i] == xs[i].value
  {
    if |xs| > 0 {
      PresentAll(xs[1..]);
    }
  }

  /** `overallForMarine`: the rounded mean of the per-rubric scores, 0 for a
      Marine without rubrics. */
  function OverallForMarine(m: Marine): (o: int)
    ensures 0 <= o <= 100
    ensures |m.rubrics| == 0 ==> o == 0
  {
    if |m.rubrics| == 0 then 0
    else
      var per := Present(RubricScores(m.rubrics));
      RubricScoresPresent(m.rubrics);
      RoundedMeanWithin(per);
      Round(Avg(per))
  }

  /** A Marine with a rubric has a score for at least one rubric id: the first
      rubric's id is one of `RUBRIC_KEYS`. */
  lemma RubricScoresPresent(rs: seq<Rubric>)
    requires |rs| > 0
    ensures |Present(RubricScores(rs))| > 0
  {
    var xs := RubricScores(rs);
    RubricKeysComplete(rs[0].id);
    var i :| 0 <= i < |RubricKeys| && RubricKeys[i] == rs[0].id;
    assert xs[i].Some?;
  }

  /** On a well-shaped matrix the area lookup by key is the area at the key's
      position. */
  lemma AreaVectorOfShaped(rs: seq<Rubric>, i: nat)
    requires WellShaped(rs) && i < |rs|
    ensures AreaVector(rs[i]) == ClampedScores(rs[i].areas)
  {
    var areas := rs[i].areas;
    forall j | 0 <= j < |AreaKeys|
      ensures AreaPoints(areas, AreaKeys[j]) == Clamp(areas[j].score, 0.0, 100.0)
    {
      assert areas[j].key == AreaKeys[j];
      forall i' | 0 <= i' < j ensures areas[i'].key != AreaKeys[j] {
        assert areas[i'].key == AreaKeys[i'];
      }
      assert FirstKeyAt(areas, AreaKeys[j], j);
    }
  }

  /** On a well-shaped matrix the rubric looked up by the `k`-th id is the
      `k`-th rubric, and its score is its overall. */
  lemma FindRubricOfShaped(rs: seq<Rubric>, k: nat)
    requires WellShaped(rs) && k < |RubricKeys|
    ensures FindRubric(rs, RubricKeys[k]) == Some(rs[k])
    ensures RubricScore(rs[k]) == RubricOverall(rs[k])
  {
    assert forall j :: 0 <= j < k ==> rs[j].id == RubricKeys[j] != RubricKeys[k];
    AreaVectorOfShaped(rs, k);
  }

  /** The two overall scores of the source agree on every Marine whose matrix
      has the shape `rowToMarine` builds. */
  lemma OverallsAgree(m: Marine)
    requires WellShaped(m.rubrics)
    ensures OverallForMarine(m) == CalcMarineOverall(m)
  {
    var rs := m.rubrics;
    var xs := RubricScores(rs);
    forall i | 0 <= i < |xs| ensures xs[i] == Some(RubricOverall(rs[i]) as real) {
      FindRubricOfShaped(rs, i);
    }
    PresentAll(xs);
    assert Present(xs) == RubricOveralls(rs);
  }

  /** A rubric scored `c` in every area has overall `c`. */
  lemma RubricOverallUniform(r: Rubric, c: nat)
    requires |r.areas| > 0 && c <= 100
    requires forall j :: 0 <= j < |r.areas| ==> r.areas[j].score == c as real
    ensures RubricOverall(r) == c
  {
    AvgConst(ClampedScores(r.areas), c as real);
    RoundOfInt(c);
  }

  /** A Marine scored `c` in every area of every rubric has overall `c`. */
  lemma OverallOfUniform(m: Marine, c: nat)
    requires WellShaped(m.rubrics) && c <= 100
    requires forall i, j :: 0 <= i < |m.rubrics| && 0 <= j < |m.rubrics[i].areas| ==> m.rubrics[i].areas[j].score == c as real
    ensures OverallForMarine(m) == c
  {
    var rs := m.rubrics;
    forall i | 0 <= i < |rs| ensures RubricOverall(rs[i]) == c {
      RubricOverallUniform(rs[i], c);
    }
    AvgConst(RubricOveralls(rs), c as real);
    RoundOfInt(c);
    OverallsAgree(m);
  }

  // ---------------------------------------------------------------------------
  // summarizeGroup (app.js:159-164)
  // ---------------------------------------------------------------------------

  datatype Summary = Summary(count: nat, scored: nat, overall: int)

  /** Every Marine's overall score, in roster order. */
  function Overalls(ms: seq<Marine>): (xs: seq<real>)
    ensures |xs| == |ms| && Within(xs, 0.0, 100.0)
    ensures forall i :: 0 <= i < |ms| ==> xs[i] == OverallForMarine(ms[i]) as real
  {
    seq(|ms|, i requires 0 <= i < |ms| => OverallForMarine(ms[i]) as real)
  }

  /** The group mean of the Marines' overall scores, rounded; 0 for nobody. */
  function GroupAverage(ms: seq<Marine>): (o: int)
    ensures 0 <= o <= 100
    ensures |ms| == 0 ==> o == 0
  {
    if |ms| == 0 then 0
    else
      var xs := Overalls(ms);
      AvgWithin(xs, 0.0, 100.0);
      RoundWithin(Avg(xs), 0, 100);
      Round(Avg(xs))
  }

  /** `summarizeGroup`: every Marine counts as scored. */
  function SummarizeGroup(ms: seq<Marine>): (s: Summary)
    ensures s.count == s.scored == |ms|
    ensures 0 <= s.overall <= 100
    ensures |ms| == 0 ==> s.overall == 0
  {
    Summary(|ms|, |ms|, GroupAverage(ms))
  }

  /** The group overall is the mean of the Marines' overall scores (sum
      over count, as `Avg` states) rounded to the nearest integer. */
  lemma SummarizeGroupRoundsMean(ms: seq<Marine>)
    requires |ms| > 0
    ensures var mean := Avg(Overalls(ms));
            mean - 0.5 < SummarizeGroup(ms).overall as real <= mean + 0.5
  {
  }

  /** When every Marine of the group scores between `lo` and `hi`, so does
      the group. */
  lemma SummarizeGroupWithin(ms: seq<Marine>, lo: int, hi: int)
    requires |ms| > 0
    requires forall i :: 0 <= i < |ms| ==> lo <= OverallForMarine(ms[i]) <= hi
    ensures lo <= SummarizeGroup(ms).overall <= hi
  {
    AvgWithin(Overalls(ms), lo as real, hi as real);
    RoundWithin(Avg(Overalls(ms)), lo, hi);
  }

  /** A group of one scores what its Marine scores. */
  lemma SummarizeSingle(m: Marine)
    ensures SummarizeGroup([m]).overall == OverallForMarine(m)
  {
    AvgConst(Overalls([m]), OverallForMarine(m) as real);
    RoundOfInt(OverallForMarine(m));
  }

  // ---------------------------------------------------------------------------
  // teamPanelData (app.js:166-194, 568-570)
  // ---------------------------------------------------------------------------

  /** `nameKey`: last name, a space and first name, trimmed and lower-cased. */
  function NameKey(m: Marine): (k: string)
    ensures Trimmed(k)
    ensures forall i :: 0 <= i < |k| ==> !('A' <= k[i] <= 'Z')
    ensures k == "" <==> Blank(m.lastName + " " + m.firstName)
  {
    LowerTrim(m.lastName + " " + m.firstName)
  }

  /** With both names given and without outer white space, the key is the
      lower-cased last name, a space and the lower-cased first name. */
  lemma NameKeyOfNames(m: Marine)
    requires m.lastName != "" && m.firstName != ""
    requires Trimmed(m.lastName) && Trimmed(m.firstName)
    ensures NameKey(m) == Lower(m.lastName) + " " + Lower(m.firstName)
  {
    var s := m.lastName + " " + m.firstName;
    assert Trimmed(s) by { assert s[0] == m.lastName[0] && s[|s| - 1] == m.firstName[|m.firstName| - 1]; }
    TrimOfTrimmed(s);
    var r := Lower(m.lastName) + " " + Lower(m.firstName);
    assert |Lower(s)| == |r|;
    forall i | 0 <= i < |s| ensures Lower(s)[i] == r[i] {
      if i < |m.lastName| {
        assert s[i] == m.lastName[i];
      } else if i > |m.lastName| {
        assert s[i] == m.firstName[i - |m.lastName| - 1];
      }
    }
  }

  /** The ranking key: higher overall first, then the name key in code-point
      order (standing in for `localeCompare`). */
  function RankKey(m: Marine): seq<int> {
    [-OverallForMarine(m)] + Codes(NameKey(m))
  }

  /** The team sorted best first; equal scores are ordered by name key. */
  function Ranked(ms: seq<Marine>): (s: seq<Marine>)
    ensures multiset(s) == multiset(ms) && |s| == |ms|
    ensures SortedBy(s, RankKey)
  {
    SortBy(ms, RankKey)
  }

  /** Along the ranking, overall scores never rise, and Marines with equal
      scores come in name-key order. */
  lemma RankedOrder(ms: seq<Marine>, i: nat, j: nat)
    requires i < j < |Ranked(ms)|
    ensures var s := Ranked(ms);
            && OverallForMarine(s[i]) >= OverallForMarine(s[j])
            && (OverallForMarine(s[i]) == OverallForMarine(s[j]) ==> LexLe(Codes(NameKey(s[i])), Codes(NameKey(s[j]))))
  {
    var s := Ranked(ms);
    var a, b := s[i], s[j];
    SortedPair(s, RankKey, i, j);
    assert LexLe(RankKey(a), RankKey(b));
    LexLeCons(-OverallForMarine(a), Codes(NameKey(a)), -OverallForMarine(b), Codes(NameKey(b)));
  }

  /** One line of a best- or worst-three list. */
  datatype PanelEntry = PanelEntry(name: string, mos: string, score: int)

  /** `{ name, mos, score }`: rank, first and last name joined by spaces and
      trimmed; the MOS or an em dash. */
  function Entry(m: Marine): (e: PanelEntry)
    ensures e.score == OverallForMarine(m)
    ensures e.mos != ""
    ensures m.mos != "" ==> e.mos == m.mos
    ensures Trimmed(e.name)
    ensures e.name == "" <==> Blank(m.rank + " " + m.firstName + " " + m.lastName)
  {
    PanelEntry(Trim(m.rank + " " + m.firstName + " " + m.lastName),
               if m.mos != "" then m.mos else "—",
               OverallForMarine(m))
  }

  /** With unpadded names, the entry shows rank, first and last name
      separated by single spaces, and first and last name alone when the
      rank is empty. */
  lemma EntryOfNames(m: Marine)
    requires m.firstName != "" && m.lastName != ""
    requires Trimmed(m.rank) && Trimmed(m.firstName) && Trimmed(m.lastName)
    ensures Entry(m).name == if m.rank == "" then m.firstName + " " + m.lastName
                             else m.rank + " " + m.firstName + " " + m.lastName
  {
    var t := m.firstName + " " + m.lastName;
    assert Trimmed(t) by { assert t[0] == m.firstName[0] && t[|t| - 1] == m.lastName[|m.lastName| - 1]; }
    if m.rank == "" {
      assert m.rank + " " + m.firstName + " " + m.lastName == " " + t;
      TrimLeadingSpace(t);
    } else {
      var u := m.rank + " " + m.firstName + " " + m.lastName;
      assert Trimmed(u) by { assert u[0] == m.rank[0] && u[|u| - 1] == m.lastName[|m.lastName| - 1]; }
      TrimOfTrimmed(u);
    }
  }

  datatype Panel = Panel(title: string, avg: int, count: nat, top3: seq<PanelEntry>, bottom3: seq<PanelEntry>)

  /** `teamPanelData`, the ranking part: the team average, and the first three
      and the last three of the ranking, the latter worst first. */
  function TeamPanel(team: string, ms: seq<Marine>): (p: Panel)
    ensures p.title == if team != "" then team else "Team"
    ensures p.count == |ms| && 0 <= p.avg <= 100
    ensures p.avg == SummarizeGroup(ms).overall
    ensures |p.top3| == |p.bottom3| == if |ms| < 3 then |ms| else 3
    ensures forall k :: 0 <= k < |p.top3| ==> p.top3[k] == Entry(Ranked(ms)[k])
    ensures forall k :: 0 <= k < |p.bottom3| ==> p.bottom3[k] == Entry(Ranked(ms)[|Ranked(ms)| - 1 - k])
  {
    var s := Ranked(ms);
    var p := RankedPanel(if team != "" then team else "Team", GroupAverage(ms), s);
    assert |s| == |ms|;
    p
  }

  /** The panel of a team already in ranking order. */
  function RankedPanel(title: string, avg: int, s: seq<Marine>): (p: Panel)
    ensures p.title == title && p.avg == avg && p.count == |s|
    ensures |p.top3| == |p.bottom3| == if |s| < 3 then |s| else 3
    ensures forall k :: 0 <= k < |p.top3| ==> p.top3[k] == Entry(s[k])
    ensures forall k :: 0 <= k < |p.bottom3| ==> p.bottom3[k] == Entry(s[|s| - 1 - k])
  {
    var n := if |s| < 3 then |s| else 3;
    Panel(title, avg, |s|, Seqs.MapFirst(s, n, Entry), Seqs.MapLastReversed(s, n, Entry))
  }

  /** Anyone ranked below the best three scores at most what each of them
      scores. */
  lemma TopThreeBest(team: string, ms: seq<Marine>, i: nat, k: nat)
    requires k < |TeamPanel(team, ms).top3| <= i < |ms|
    ensures TeamPanel(team, ms).top3[k].score >= OverallForMarine(Ranked(ms)[i])
  {
    assert TeamPanel(team, ms).top3[k] == Entry(Ranked(ms)[k]);
    RankedOrder(ms, k, i);
  }

  /** Anyone ranked above the worst three scores at least what each of them
      scores. */
  lemma BottomThreeWorst(team: string, ms: seq<Marine>, i: nat, k: nat)
    requires k < |TeamPanel(team, ms).bottom3| && i < |ms| - |TeamPanel(team, ms).bottom3|
    ensures TeamPanel(team, ms).bottom3[k].score <= OverallForMarine(Ranked(ms)[i])
  {
    var p, s := TeamPanel(team, ms), Ranked(ms);
    var j := |ms| - 1 - k;
    assert p.bottom3[k] == Entry(s[j]);
    RankedOrder(ms, i, j);
  }
}

=== FILE: area.dfy ===
/**
 * Where a rubric area's score, notes and evaluation metadata come from in a
 * roster row (`getAreaValueFromRow`, `getAreaNotesFromRow`,
 * `getAreaMetaFromRow`, app.js:1219-1327), together with the title-header
 * parser it relies on (`monthIndexFromWord`, `parseTitleHeader`,
 * app.js:1123-1154).
 */
module AreaValue {
  import opened Text
  import opened Options
  import opened Fields
  import Csv
  import opened Score
  import opened Rubrics
  import Seqs

  // ---------------------------------------------------------------------------
  // Month words (app.js:1123-1141)
  // ---------------------------------------------------------------------------

  /** The full month names, January first. */
  const MonthNames: seq<string> := ["january", "february", "march", "april", "may", "june",
                                    "july", "august", "september", "october", "november", "december"]

  /** Their three-letter abbreviations. */
  const MonthAbbrevs: seq<string> := ["jan", "feb", "mar", "apr", "may", "jun",
                                      "jul", "aug", "sep", "oct", "nov", "dec"]

  /** `MONTH_INDEX[k] || 0`: the month a lower-case key names, 0 for none.
      Every month answers to its full name and its three-letter abbreviation,
      and September also to "sept". */
  function MonthOf(k: string): (m: nat)
    ensures m <= 12
  {
    if k == "jan" || k == "january" then 1
    else if k == "feb" || k == "february" then 2
    else if k == "mar" || k == "march" then 3
    else if k == "apr" || k == "april" then 4
    else if k == "may" then 5
    else if k == "jun" || k == "june" then 6
    else if k == "jul" || k == "july" then 7
    else if k == "aug" || k == "august" then 8
    else if k == "sep" || k == "sept" || k == "september" then 9
    else if k == "oct" || k == "october" then 10
    else if k == "nov" || k == "november" then 11
    else if k == "dec" || k == "december" then 12
    else 0
  }

  /** `monthIndexFromWord`: the month of a word after trimming and lower-casing. */
  function MonthIndexFromWord(w: string): (m: nat)
    ensures m <= 12
  {
    MonthOf(Lower(Trim(w)))
  }

  /** The table holds exactly the month names, their three-letter
      abbreviations and "sept". */
  lemma MonthOfTable(k: string)
    ensures MonthOf(k) > 0 ==> k == MonthNames[MonthOf(k) - 1] || k == MonthAbbrevs[MonthOf(k) - 1]
                               || (MonthOf(k) == 9 && k == "sept")
    ensures MonthOf(k) == 0 ==> k != "sept" && forall j :: 0 <= j < 12 ==> k != MonthNames[j] && k != MonthAbbrevs[j]
  {
  }

  /** Each month's full name gives its number. */
  lemma MonthOfName(j: nat)
    requires j < 12
    ensures MonthOf(MonthNames[j]) == j + 1
  {
    if j == 0 {
      assert MonthNames[j] == "january";
      assert MonthOf("january") == 1;
    } else if j == 1 {
      assert MonthNames[j] == "february";
      assert MonthOf("february") == 2;
    } else if j == 2 {
      assert MonthNames[j] == "march";
      assert MonthOf("march") == 3;
    } else if j == 3 {
      assert MonthNames[j] == "april";
      assert MonthOf("april") == 4;
    } else if j == 4 {
      assert MonthNames[j] == "may";
      assert MonthOf("may") == 5;
    } else if j == 5 {
      assert MonthNames[j] == "june";
      assert MonthOf("june") == 6;
    } else if j == 6 {
      assert MonthNames[j] == "july";
      assert MonthOf("july") == 7;
    } else if j == 7 {
      assert MonthNames[j] == "august";
      assert MonthOf("august") == 8;
    } else if j == 8 {
      assert MonthNames[j] == "september";
      assert MonthOf("september") == 9;
    } else if j == 9 {
      assert MonthNames[j] == "october";
      assert MonthOf("october") == 10;
    } else if j == 10 {
      assert MonthNames[j] == "november";
      assert MonthOf("november") == 11;
    } else {
      assert MonthNames[j] == "december";
      assert MonthOf("december") == 12;
    }
  }

  /** Each month's abbreviation gives its number. */
  lemma MonthOfAbbrev(j: nat)
    requires j < 12
    ensures MonthOf(MonthAbbrevs[j]) == j + 1
  {
    if j < 6 { MonthOfAbbrevFirstHalf(j); } else { MonthOfAbbrevSecondHalf(j); }
  }

  lemma MonthOfAbbrevFirstHalf(j: nat)
    requires j < 6
    ensures MonthOf(MonthAbbrevs[j]) == j + 1
  {
    if j == 0 {
      assert MonthAbbrevs[j] == "jan";
      assert MonthOf("jan") == 1;
    } else if j == 1 {
      assert MonthAbbrevs[j] == "feb";
      assert MonthOf("feb") == 2;
    } else if j == 2 {
      assert MonthAbbrevs[j] == "mar";
      assert MonthOf("mar") == 3;
    } else if j == 3 {
      assert MonthAbbrevs[j] == "apr";
      assert MonthOf("apr") == 4;
    } else if j == 4 {
      assert MonthAbbrevs[j] == "may";
      assert MonthOf("may") == 5;
    } else {
      assert MonthAbbrevs[j] == "jun";
      assert MonthOf("jun") == 6;
    }
  }

  lemma MonthOfAbbrevSecondHalf(j: nat)
    requires 6 <= j < 12
    ensures MonthOf(MonthAbbrevs[j]) == j + 1
  {
    if j == 6 {
      assert MonthAbbrevs[j] == "jul";
      assert MonthOf("jul") == 7;
    } else if j == 7 {
      assert MonthAbbrevs[j] == "aug";
      assert MonthOf("aug") == 8;
    } else if j == 8 {
      assert MonthAbbrevs[j] == "sep";
      assert MonthOf("sep") == 9;
    } else if j == 9 {
      assert MonthAbbrevs[j] == "oct";
      assert MonthOf("oct") == 10;
    } else if j == 10 {
      assert MonthAbbrevs[j] == "nov";
      assert MonthOf("nov") == 11;
    } else {
      assert MonthAbbrevs[j] == "dec";
      assert MonthOf("dec") == 12;
    }
  }

  /** A word of ASCII letters is looked up in lower case, so its month does
      not depend on capitalisation: "JAN", "Jan" and "jan" all give 1. */
  lemma MonthIndexOfLetters(w: string)
    requires AllLetters(w)
    ensures MonthIndexFromWord(w) == MonthOf(Lower(w))
    ensures MonthIndexFromWord(Upper(w)) == MonthIndexFromWord(w)
  {
    LettersTrimmed(w);
    TrimOfTrimmed(w);
    TrimOfTrimmed(Upper(w));
    LowerUpperLetters(w);
  }

  /** A word of letters, and its upper-case form, have no white space at
      either end. */
  lemma LettersTrimmed(w: string)
    requires AllLetters(w)
    ensures Trimmed(w) && Trimmed(Upper(w))
  {
    if |w| > 0 {
      assert IsAsciiLetter(w[0]) && IsAsciiLetter(w[|w| - 1]);
    }
  }

  /** Lower-casing forgets an upper-casing of letters. */
  lemma LowerUpperLetters(w: string)
    requires AllLetters(w)
    ensures Lower(Upper(w)) == Lower(w)
  {
    var u := Upper(w);
    forall i | 0 <= i < |w| ensures Lower(u)[i] == Lower(w)[i] {
      assert IsAsciiLetter(w[i]);
    }
  }

  // ---------------------------------------------------------------------------
  // Title headers (app.js:1143-1154)
  // ---------------------------------------------------------------------------

  /** A header of the form `<Word> <4 digits> <text>`, e.g.
      `Jan 0621 Mission Planning and Preparation`. */
  datatype TitleHeader = TitleHeader(raw: string, monthWord: string, monthIdx: nat,
                                     mosDigits: string, areaText: string)

  /** `w + " " + d + " " + t` described by its slices. */
  predicate SpacedParts(s: string, w: string, d: string, t: string) {
    var n, m := |w|, |w| + 1 + |d|;
    && |s| == m + 1 + |t|
    && s[..n] == w && s[n] == ' ' && s[n + 1..m] == d && s[m] == ' ' && s[m + 1..] == t
  }

  lemma SpacedPartsJoin(s: string, w: string, d: string, t: string)
    ensures SpacedParts(s, w, d, t) <==> s == w + " " + d + " " + t
  {
    var j := w + " " + d + " " + t;
    var n, m := |w|, |w| + 1 + |d|;
    assert |j| == m + 1 + |t|;
    assert forall i :: 0 <= i < |j| ==> j[i] == if i < n then w[i] else if i == n then ' '
                          else if i < m then d[i - n - 1] else if i == m then ' ' else t[i - m - 1];
    if SpacedParts(s, w, d, t) {
      forall i | 0 <= i < |s| ensures s[i] == j[i] {
        if i < n { assert s[..n][i] == s[i]; }
        else if n < i < m { assert s[n + 1..m][i - n - 1] == s[i]; }
        else if i > m { assert s[m + 1..][i - m - 1] == s[i]; }
      }
    }
    if s == j {
      assert s[..n] == w;
      assert s[n + 1..m] == d;
      assert s[m + 1..] == t;
    }
  }

  /** The regular expression `^([A-Za-z]+)\s+(\d{4})\s+(.+)$` on a header
      whose white-space runs are single plain spaces, as `normalizeHeader`
      leaves them: each `\s+` then matches exactly one plain space, so the
      letters run up to the first space, four digits and one space follow,
      and the rest (not empty) is the area text. */
  function MatchTitle(raw: string): (p: Option<TitleHeader>)
    ensures p.Some? ==> p.value.raw == raw
    ensures p.Some? ==> SpacedParts(raw, p.value.monthWord, p.value.mosDigits, p.value.areaText)
    ensures p.Some? ==> |p.value.monthWord| > 0 && AllLetters(p.value.monthWord)
    ensures p.Some? ==> |p.value.mosDigits| == 4 && AllDigits(p.value.mosDigits)
    ensures p.Some? ==> p.value.areaText != "" && p.value.monthIdx == MonthIndexFromWord(p.value.monthWord)
  {
    var n := LetterRun(raw);
    if 0 < n && n + 6 < |raw| && raw[n] == ' ' && AllDigits(raw[n + 1..n + 5]) && raw[n + 5] == ' ' then
      Some(TitleHeader(raw, raw[..n], MonthIndexFromWord(raw[..n]), raw[n + 1..n + 5], raw[n + 6..]))
    else None
  }

  /** `parseTitleHeader`: normalise the header, match it, and trim the area
      text (which normalisation has already trimmed). */
  function ParseTitleHeader(h: string): (p: Option<TitleHeader>)
    ensures p.Some? ==> p.value.raw == Csv.NormalizeHeader(h)
    ensures p.Some? ==> SpacedParts(p.value.raw, p.value.monthWord, p.value.mosDigits, p.value.areaText)
    ensures p.Some? ==> |p.value.monthWord| > 0 && AllLetters(p.value.monthWord)
    ensures p.Some? ==> |p.value.mosDigits| == 4 && AllDigits(p.value.mosDigits)
    ensures p.Some? ==> p.value.areaText != "" && p.value.monthIdx == MonthIndexFromWord(p.value.monthWord)
  {
    MatchTrimmed(Csv.NormalizeHeader(h))
  }

  /** The match of a normalised header, with its area text trimmed once more
      (which leaves it unchanged). */
  function MatchTrimmed(raw: string): (p: Option<TitleHeader>)
    requires Trimmed(raw) && Collapsed(raw)
    ensures p.Some? ==> p.value.raw == raw
    ensures p.Some? ==> SpacedParts(raw, p.value.monthWord, p.value.mosDigits, p.value.areaText)
    ensures p.Some? ==> |p.value.monthWord| > 0 && AllLetters(p.value.monthWord)
    ensures p.Some? ==> |p.value.mosDigits| == 4 && AllDigits(p.value.mosDigits)
    ensures p.Some? ==> p.value.areaText != "" && p.value.monthIdx == MonthIndexFromWord(p.value.monthWord)
  {
    match MatchTitle(raw)
    case None => None
    case Some(m) =>
      SpacedTailTrimmed(raw, m.monthWord, m.mosDigits, m.areaText);
      TrimOfTrimmed(m.areaText);
      Some(m.(areaText := Trim(m.areaText)))
  }

  /** In a normalised header of that shape the area text is trimmed. */
  lemma SpacedTailTrimmed(raw: string, w: string, d: string, t: string)
    requires Trimmed(raw) && Collapsed(raw)
    requires SpacedParts(raw, w, d, t) && t != ""
    ensures Trimmed(t)
  {
    var m := |w| + 1 + |d|;
    assert t[0] == raw[m + 1] && t[|t| - 1] == raw[|raw| - 1];
    assert !SpaceRun(raw, m + 1);
  }

  /** A header of that shape built from clean parts is already normalised. */
  lemma SpacedNormal(w: string, d: string, t: string)
    requires |w| > 0 && AllLetters(w)
    requires |d| == 4 && AllDigits(d)
    requires t != "" && Trimmed(t) && Collapsed(t) && '\U{FEFF}' !in t && '\U{00A0}' !in t
    ensures var s := w + " " + d + " " + t;
            Csv.NormalizeHeader(s) == s && SpacedParts(s, w, d, t)
  {
    var s := w + " " + d + " " + t;
    var n := |w|;
    SpacedPartsJoin(s, w, d, t);
    assert forall i :: 0 <= i < |s| ==> s[i] == if i < n then w[i] else if i == n || i == n + 5 then ' '
                                          else if i < n + 5 then d[i - n - 1] else t[i - n - 6];
    assert Collapsed(s) by {
      forall k ensures !SpaceRun(s, k) {
        if k == n + 6 && k < |s| { assert s[k] == t[0]; }
        else if n + 6 < k < |s| { assert !SpaceRun(t, k - n - 6); }
      }
    }
    assert '\U{FEFF}' !in s && '\U{00A0}' !in s by {
      forall i | 0 <= i < |s| ensures s[i] != '\U{FEFF}' && s[i] != '\U{00A0}' {
        if i > n + 5 { assert s[i] == t[i - n - 6]; }
      }
    }
    assert Trimmed(s) by {
      assert IsAsciiLetter(s[0]);
      assert s[|s| - 1] == t[|t| - 1];
    }
    Csv.NormalizeHeaderOfNormal(s);
  }

  /** Conversely, every header of that shape is recognised, with its parts. */
  lemma ParseTitleHeaderOf(w: string, d: string, t: string)
    requires |w| > 0 && AllLetters(w)
    requires |d| == 4 && AllDigits(d)
    requires t != "" && Trimmed(t) && Collapsed(t) && '\U{FEFF}' !in t && '\U{00A0}' !in t
    ensures var s := w + " " + d + " " + t;
            ParseTitleHeader(s) == Some(TitleHeader(s, w, MonthIndexFromWord(w), d, t))
  {
    var s := w + " " + d + " " + t;
    SpacedNormal(w, d, t);
    MatchTitleParts(s, w, d, t);
    TrimOfTrimmed(t);
  }

  lemma MatchTitleParts(s: string, w: string, d: string, t: string)
    requires SpacedParts(s, w, d, t)
    requires |w| > 0 && AllLetters(w) && |d| == 4 && AllDigits(d) && t != ""
    ensures MatchTitle(s) == Some(TitleHeader(s, w, MonthIndexFromWord(w), d, t))
  {
    LetterRunAt(s, |w|);
  }

  // ---------------------------------------------------------------------------
  // Alphanumeric normalisation (app.js:1259-1263 and 1276-1280)
  // ---------------------------------------------------------------------------

  predicate IsAlnumLower(c: char) {
    ('a' <= c <= 'z') || IsDigit(c)
  }

  /** Only lower-case letters, digits and plain spaces. */
  predicate AlnumText(s: string) {
    forall i :: 0 <= i < |s| ==> IsAlnumLower(s[i]) || s[i] == ' '
  }

  /** Every character outside `[a-z0-9]` becomes a space. */
  function Blankify(s: string): (r: string)
    ensures |r| == |s|
    ensures forall i :: 0 <= i < |s| ==> r[i] == if IsAlnumLower(s[i]) then s[i] else ' '
  {
    seq(|s|, i requires 0 <= i < |s| => if IsAlnumLower(s[i]) then s[i] else ' ')
  }

  /** Lower-case, replace every run of characters outside `[a-z0-9]` by one
      space, collapse white space and trim. Turning each such character into
      a space and then collapsing the spaces gives the same string as
      replacing whole runs. */
  function AlnumNorm(s: string): (r: string)
    ensures AlnumText(r) && Trimmed(r) && Collapsed(r)
  {
    var b := Blankify(Lower(s));
    var c := Collapse(b);
    CollapseAlnum(b);
    TrimCollapsed(c);
    TrimAlnum(c);
    Trim(c)
  }

  lemma CollapseAlnum(s: string)
    requires AlnumText(s)
    ensures AlnumText(Collapse(s))
  {
    var c := Collapse(s);
    CollapseChars(s);
    forall i | 0 <= i < |c| ensures IsAlnumLower(c[i]) || c[i] == ' ' {
      if c[i] != ' ' {
        assert c[i] in s;
        var j :| 0 <= j < |s| && s[j] == c[i];
      }
    }
  }

  lemma TrimAlnum(s: string)
    requires AlnumText(s)
    ensures AlnumText(Trim(s))
  {
    var i := TrimSlice(s);
  }

  /** Text that is already lower-case alphanumeric words separated by single
      spaces is its own normal form; in particular `AlnumNorm` is idempotent. */
  lemma AlnumNormOfNormal(s: string)
    requires AlnumText(s) && Trimmed(s) && Collapsed(s)
    ensures AlnumNorm(s) == s
  {
    LowerOfLower(s);
    assert Blankify(s) == s;
    CollapseOfCollapsed(s);
    TrimOfTrimmed(s);
  }

  lemma AlnumNormIdempotent(s: string)
    ensures AlnumNorm(AlnumNorm(s)) == AlnumNorm(s)
  {
    AlnumNormOfNormal(AlnumNorm(s));
  }

  /** `needles.some(n => hay.includes(n))`. */
  function AnyContained(hay: string, needles: seq<string>): (b: bool)
    ensures b <==> exists i :: 0 <= i < |needles| && Contains(hay, needles[i])
  {
    if |needles| == 0 then false
    else if Contains(hay, needles[0]) then true
    else
      var b := AnyContained(hay, needles[1..]);
      assert forall i :: 1 <= i < |needles| ==> needles[i] == needles[1..][i - 1];
      b
  }

  // ---------------------------------------------------------------------------
  // Choosing among candidates
  // ---------------------------------------------------------------------------

  /** The first present entry, or nothing. */
  function FirstSome<T>(xs: seq<Option<T>>): (r: Option<T>)
    ensures FirstAmong(xs, |xs|, r)
  {
    if |xs| == 0 then None
    else if xs[0].Some? then xs[0]
    else
      var r := FirstSome(xs[1..]);
      assert forall i :: 1 <= i < |xs| ==> xs[i] == xs[1..][i - 1];
      assert r.Some? ==> exists i :: 0 <= i < |xs| && xs[i] == r && forall j :: 0 <= j < i ==> xs[j].None? by {
        if r.Some? {
          var i :| 0 <= i < |xs[1..]| && xs[1..][i] == r && forall j :: 0 <= j < i ==> xs[1..][j].None?;
          assert xs[i + 1] == r;
        }
      }
      r
  }

  /** No score, or a score in [0, 100]. */
  predicate InRange(o: Option<real>) {
    o.Some? ==> 0.0 <= o.value <= 100.0
  }

  /** What a tier yields: nothing, or a score in [0, 100]. */
  type TierValue = o: Option<real> | InRange(o) witness None

  /** A score as the resolver returns it: `clamp(n, 0, 100)` of a parsed cell. */
  function Clamped(n: Option<real>): (r: Option<real>)
    ensures r.Some? <==> n.Some?
    ensures r.Some? ==> 0.0 <= r.value <= 100.0
    ensures r.Some? && 0.0 <= n.value <= 100.0 ==> r.value == n.value
  {
    match n
    case Some(x) => Some(Clamp(x, 0.0, 100.0))
    case None => None
  }

  // ---------------------------------------------------------------------------
  // Tier 1: composite column names (app.js:1220-1244)
  // ---------------------------------------------------------------------------

  /** The eight spellings tried for one upper-cased prefix, in order. */
  function Spellings(base: string, ak: string): (ks: seq<string>)
    ensures |ks| == 8
  {
    [ base + "_" + ak, base + "_" + Upper(ak), base + "_" + Upper(ak) + "_SCORE",
      base + "_" + ak + "_SCORE", base + "-" + ak, base + " " + ak, base + " " + Upper(ak),
      base + "_" + ak + "_PCT" ]
  }

  /** All forty tier-1 column names: prefix by prefix, and within a prefix
      spelling by spelling. */
  function CompositeKeys(r: RubricId, a: AreaKey): (ks: seq<string>)
    ensures |ks| == 40
    ensures forall i, j :: 0 <= i < 5 && 0 <= j < 8 ==>
              ks[8 * i + j] == Spellings(Upper(Prefixes(r)[i]), AreaName(a))[j]
  {
    SpellingsFor(Prefixes(r), AreaName(a))
  }

  /** The spellings of every prefix, one block of eight after another. */
  function SpellingsFor(ps: seq<string>, ak: string): (ks: seq<string>)
    ensures |ks| == 8 * |ps|
    ensures forall i, j :: 0 <= i < |ps| && 0 <= j < 8 ==> ks[8 * i + j] == Spellings(Upper(ps[i]), ak)[j]
  {
    if |ps| == 0 then []
    else
      var b, rest := Spellings(Upper(ps[0]), ak), SpellingsFor(ps[1..], ak);
      var ks := b + rest;
      assert forall i, j :: 0 <= i < |ps| && 0 <= j < 8 ==> ks[8 * i + j] == Spellings(Upper(ps[i]), ak)[j] by {
        forall i, j | 0 < i < |ps| && 0 <= j < 8 ensures ks[8 * i + j] == Spellings(Upper(ps[i]), ak)[j] {
          assert ks[8 * i + j] == rest[8 * (i - 1) + j];
          assert ps[1..][i - 1] == ps[i];
        }
      }
      ks
  }

  /** What one tier-1 name yields: `toIntMaybe(getField(row, [k]))`, clamped. */
  function KeyScore(row: Row, k: string): (r: Option<real>)
    ensures InRange(r)
  {
    Clamped(ToIntMaybe(GetField(row, [k])))
  }

  function KeyScores(row: Row, ks: seq<string>): (xs: seq<Option<real>>)
    ensures |xs| == |ks|
    ensures forall i :: 0 <= i < |ks| ==> xs[i] == KeyScore(row, ks[i])
    ensures forall i :: 0 <= i < |xs| ==> InRange(xs[i])
  {
    Seqs.Map(ks, k => KeyScore(row, k))
  }

  /** `r` is the first present value among the first `n`, or nothing when
      none of them is present. */
  ghost predicate FirstAmong<T>(xs: seq<Option<T>>, n: nat, r: Option<T>)
    requires n <= |xs|
  {
    && (r.None? <==> forall i :: 0 <= i < n ==> xs[i].None?)
    && (r.Some? ==> exists i :: 0 <= i < n && xs[i] == r && forall j :: 0 <= j < i ==> xs[j].None?)
  }

  /** The first present value of scores in range is in range. */
  lemma FirstSomeInRange(xs: seq<Option<real>>)
    requires forall i :: 0 <= i < |xs| ==> InRange(xs[i])
    ensures InRange(FirstSome(xs))
  {
    var v := FirstSome(xs);
    if v.Some? {
      var i :| 0 <= i < |xs| && xs[i] == v;
    }
  }

  /** Where the first present value sits. */
  lemma FirstSomeAt<T>(xs: seq<Option<T>>) returns (i: nat)
    requires FirstSome(xs).Some?
    ensures i < |xs| && xs[i] == FirstSome(xs)
    ensures forall j :: 0 <= j < i ==> xs[j].None?
  {
    i :| 0 <= i < |xs| && xs[i] == FirstSome(xs) && forall j :: 0 <= j < i ==> xs[j].None?;
  }

  /** Tier 1: the first composite name, in authored order, whose cell parses
      as a score. */
  function Tier1(row: Row, r: RubricId, a: AreaKey): (v: TierValue)
  {
    var xs := KeyScores(row, CompositeKeys(r, a));
    FirstSomeInRange(xs);
    FirstSome(xs)
  }

  /** Tier 1 yields nothing exactly when no composite name yields a score,
      and otherwise the score of the first one that does. */
  lemma Tier1First(row: Row, r: RubricId, a: AreaKey)
    ensures var v := Tier1(row, r, a); var ks := CompositeKeys(r, a);
            && (v.None? <==> forall i :: 0 <= i < 40 ==> KeyScore(row, ks[i]).None?)
            && (v.Some? ==> exists i :: 0 <= i < 40 && KeyScore(row, ks[i]) == v
                              && forall j :: 0 <= j < i ==> KeyScore(row, ks[j]).None?)
  {
    var ks := CompositeKeys(r, a);
    FirstKeyScore(row, ks);
  }

  /** The first of a list of names whose cell yields a score. */
  lemma FirstKeyScore(row: Row, ks: seq<string>)
    ensures var v := FirstSome(KeyScores(row, ks));
            && (v.None? <==> forall i :: 0 <= i < |ks| ==> KeyScore(row, ks[i]).None?)
            && (v.Some? ==> exists i :: 0 <= i < |ks| && KeyScore(row, ks[i]) == v
                              && forall j :: 0 <= j < i ==> KeyScore(row, ks[j]).None?)
  {
    FirstKeyScoreNone(row, ks);
    var v := FirstSome(KeyScores(row, ks));
    if v.Some? {
      var i := FirstKeyScoreAt(row, ks);
    }
  }

  lemma FirstKeyScoreNone(row: Row, ks: seq<string>)
    ensures FirstSome(KeyScores(row, ks)).None? <==> forall i :: 0 <= i < |ks| ==> KeyScore(row, ks[i]).None?
  {
    var xs := KeyScores(row, ks);
    assert forall i :: 0 <= i < |ks| ==> xs[i] == KeyScore(row, ks[i]);
  }

  lemma FirstKeyScoreAt(row: Row, ks: seq<string>) returns (i: nat)
    requires FirstSome(KeyScores(row, ks)).Some?
    ensures i < |ks| && KeyScore(row, ks[i]) == FirstSome(KeyScores(row, ks))
    ensures forall j :: 0 <= j < i ==> KeyScore(row, ks[j]).None?
  {
    var xs := KeyScores(row, ks);
    i := FirstSomeAt(xs);
    forall j | 0 <= j < i ensures KeyScore(row, ks[j]).None? {
      assert xs[j] == KeyScore(row, ks[j]);
    }
  }

  // ---------------------------------------------------------------------------
  // Tier 2: dated title headers (app.js:1250-1272)
  // ---------------------------------------------------------------------------

  /** What one header contributes to tier 2: its month index and clamped score,
      when it is a title header for one of the rubric's MOS codes whose area
      text names the area and whose cell parses as a score. */
  function TitleCandidate(hk: string, v: string, r: RubricId, a: AreaKey): (c: Option<(nat, real)>)
    ensures c.Some? ==> 0.0 <= c.value.1 <= 100.0
  {
    Candidate(ParseTitleHeader(hk), ToIntMaybe(v), r, a)
  }

  /** The candidate made of a parsed header and a parsed cell. */
  function Candidate(h: Option<TitleHeader>, n: Option<real>, r: RubricId, a: AreaKey): (c: Option<(nat, real)>)
    ensures c.Some? ==> 0.0 <= c.value.1 <= 100.0
  {
    match h
    case None => None
    case Some(p) =>
      if p.mosDigits !in MosCodes(r) then None
      else if !AnyContained(AlnumNorm(p.areaText), AreaTitles(a)) then None
      else
        match Clamped(n)
        case None => None
        case Some(score) => Some((p.monthIdx, score))
  }

  /** A header takes part in tier 2 exactly when it is a title header for one
      of the rubric's MOS codes, its area text names the area, and its cell
      parses as a score; it then carries the header's month index. */
  lemma TitleCandidateWhen(hk: string, v: string, r: RubricId, a: AreaKey)
    ensures var c := TitleCandidate(hk, v, r, a); var p := ParseTitleHeader(hk);
            && (c.Some? <==> p.Some? && p.value.mosDigits in MosCodes(r)
                             && AnyContained(AlnumNorm(p.value.areaText), AreaTitles(a))
                             && ToIntMaybe(v).Some?)
            && (c.Some? ==> c.value.0 == p.value.monthIdx && c.value.0 <= 12)
  {
    CandidateWhen(ParseTitleHeader(hk), ToIntMaybe(v), r, a);
  }

  lemma CandidateWhen(h: Option<TitleHeader>, n: Option<real>, r: RubricId, a: AreaKey)
    requires h.Some? ==> h.value.monthIdx <= 12
    ensures var c := Candidate(h, n, r, a);
            && (c.Some? <==> h.Some? && h.value.mosDigits in MosCodes(r)
                             && AnyContained(AlnumNorm(h.value.areaText), AreaTitles(a)) && n.Some?)
            && (c.Some? ==> c.value.0 == h.value.monthIdx && c.value.0 <= 12)
  {
  }

  function TitleCandidates(row: Row, r: RubricId, a: AreaKey): (cs: seq<Option<(nat, real)>>)
    ensures |cs| == |row|
    ensures forall i {:trigger TitleCandidate(row[i].0, row[i].1, r, a)} :: 0 <= i < |row| ==> cs[i] == TitleCandidate(row[i].0, row[i].1, r, a)
  {
    seq(|row|, i requires 0 <= i < |row| => TitleCandidate(row[i].0, row[i].1, r, a))
  }

  /** The scan over the candidates, in row order: a candidate replaces the
      current best only when its month index is strictly greater. The result
      is the first candidate with the greatest month index. */
  function BestIndex(cs: seq<Option<(nat, real)>>): (b: Option<nat>)
    ensures b.None? <==> forall i :: 0 <= i < |cs| ==> cs[i].None?
    ensures b.Some? ==> b.value < |cs| && cs[b.value].Some?
    ensures b.Some? ==> forall j :: 0 <= j < |cs| && cs[j].Some? ==> cs[j].value.0 <= cs[b.value].value.0
    ensures b.Some? ==> forall j :: 0 <= j < b.value && cs[j].Some? ==> cs[j].value.0 < cs[b.value].value.0
  {
    if |cs| == 0 then None
    else
      var n := |cs| - 1;
      var prev := BestIndex(cs[..n]);
      assert forall j :: 0 <= j < n ==> cs[..n][j] == cs[j];
      var c := cs[n];
      if c.Some? && (prev.None? || c.value.0 > cs[prev.value].value.0) then Some(n)
      else prev
  }

  /** The score of the first candidate with the greatest month index, or
      nothing when there is no candidate. */
  function BestScore(cs: seq<Option<(nat, real)>>): (v: Option<real>)
    ensures BestAmong(cs, |cs|, v)
    ensures (forall i :: 0 <= i < |cs| && cs[i].Some? ==> 0.0 <= cs[i].value.1 <= 100.0) ==> InRange(v)
  {
    match BestIndex(cs)
    case None => None
    case Some(i) => Some(cs[i].value.1)
  }

  /** `v` is what tier 2 makes of the first `n` candidates: nothing when none
      of them is present, otherwise the score of the first one with the
      greatest month index, so that a later candidate wins only with a
      strictly greater month. */
  predicate BestAmong(cs: seq<Option<(nat, real)>>, n: nat, v: Option<real>)
    requires n <= |cs|
  {
    && (v.None? <==> forall i :: 0 <= i < n ==> cs[i].None?)
    && (v.Some? ==> exists i :: 0 <= i < n && cs[i].Some? && cs[i].value.1 == v.value
                      && (forall j :: 0 <= j < n && cs[j].Some? ==> cs[j].value.0 <= cs[i].value.0)
                      && (forall j :: 0 <= j < i && cs[j].Some? ==> cs[j].value.0 < cs[i].value.0))
  }

  /** Tier 2: the score of the best dated title header. */
  function Tier2(row: Row, r: RubricId, a: AreaKey): (v: TierValue)
  {
    BestScore(TitleCandidates(row, r, a))
  }

  /** Tier 2 yields nothing exactly when no header takes part, and otherwise
      the score of the first header with the greatest month index: a later
      header wins only with a strictly greater month. */
  lemma Tier2Best(row: Row, r: RubricId, a: AreaKey)
    ensures var cs := TitleCandidates(row, r, a);
            |cs| == |row| && BestAmong(cs, |row|, Tier2(row, r, a))
  {
  }

  // ---------------------------------------------------------------------------
  // Tier 3: loose header scan (app.js:1274-1284)
  // ---------------------------------------------------------------------------

  /** What one header contributes to tier 3: its clamped score, when its
      alphanumeric form mentions one of the rubric's MOS codes and one of the
      area's title phrases. */
  function LooseCandidate(hk: string, v: string, r: RubricId, a: AreaKey): (c: Option<real>)
    ensures InRange(c)
  {
    var nh := AlnumNorm(Csv.NormalizeHeader(hk));
    if !AnyContained(nh, MosCodes(r)) then None
    else if !AnyContained(nh, AreaTitles(a)) then None
    else Clamped(ToIntMaybe(v))
  }

  /** A header qualifies for tier 3 exactly when its alphanumeric form
      mentions a MOS code of the rubric and a title phrase of the area, and
      its cell parses as a score. */
  lemma LooseCandidateWhen(hk: string, v: string, r: RubricId, a: AreaKey)
    ensures var nh := AlnumNorm(Csv.NormalizeHeader(hk));
            LooseCandidate(hk, v, r, a).Some? <==>
              AnyContained(nh, MosCodes(r)) && AnyContained(nh, AreaTitles(a)) && ToIntMaybe(v).Some?
  {
  }

  function LooseCandidates(row: Row, r: RubricId, a: AreaKey): (cs: seq<Option<real>>)
    ensures |cs| == |row|
    ensures forall i {:trigger LooseCandidate(row[i].0, row[i].1, r, a)} :: 0 <= i < |row| ==> cs[i] == LooseCandidate(row[i].0, row[i].1, r, a)
    ensures forall i :: 0 <= i < |cs| ==> InRange(cs[i])
  {
    seq(|row|, i requires 0 <= i < |row| => LooseCandidate(row[i].0, row[i].1, r, a))
  }

  /** Tier 3: the first header, in row order, that qualifies. */
  function Tier3(row: Row, r: RubricId, a: AreaKey): (v: TierValue)
  {
    var cs := LooseCandidates(row, r, a);
    FirstSomeInRange(cs);
    FirstSome(cs)
  }

  /** Tier 3 yields nothing exactly when no header qualifies, and otherwise
      the score of the first one in row order. */
  lemma Tier3First(row: Row, r: RubricId, a: AreaKey)
    ensures var cs := LooseCandidates(row, r, a);
            |cs| == |row| && FirstAmong(cs, |row|, Tier3(row, r, a))
  {
  }

  // ---------------------------------------------------------------------------
  // Tier 4 and the whole resolver (app.js:1286-1295)
  // ---------------------------------------------------------------------------

  /** Tier 4: the legacy spreadsheet column of the area, looked up by its exact
      name. */
  function Tier4(row: Row, a: AreaKey): (v: TierValue)
  {
    match Get(row, LetterColumn(a))
    case Some(cell) => Clamped(ToIntMaybe(cell))
    case None => None
  }

  /** Tier 4 yields a score exactly when the row has the area's letter column
      and its cell parses; the score is the parsed value. */
  lemma Tier4Letter(row: Row, a: AreaKey)
    ensures var v := Tier4(row, a); var cell := Get(row, LetterColumn(a));
            && (v.Some? <==> cell.Some? && ToIntMaybe(cell.value).Some?)
            && (v.Some? ==> v == ToIntMaybe(cell.value))
  {
  }

  /** Tiers 2 and 3 run only when the rubric has MOS codes and the area has
      title phrases (both always hold for the fixed rubrics and areas). */
  predicate TitleTiersEnabled(r: RubricId, a: AreaKey) {
    |MosCodes(r)| > 0 && |AreaTitles(a)| > 0
  }

  /** The four tiers, in the order they are consulted. */
  function Tiers(row: Row, r: RubricId, a: AreaKey): (ts: seq<TierValue>)
    ensures |ts| == 4
  {
    InOrder(Tier1(row, r, a), GatedTier2(row, r, a), GatedTier3(row, r, a), Tier4(row, a))
  }

  /** Tier 2 when the title tiers run, otherwise nothing. */
  function GatedTier2(row: Row, r: RubricId, a: AreaKey): (v: TierValue)
  {
    if TitleTiersEnabled(r, a) then Tier2(row, r, a) else None
  }

  /** Tier 3 when the title tiers run, otherwise nothing. */
  function GatedTier3(row: Row, r: RubricId, a: AreaKey): (v: TierValue)
  {
    if TitleTiersEnabled(r, a) then Tier3(row, r, a) else None
  }

  /** Four tier results as a sequence, in the order given. */
  function InOrder(t1: TierValue, t2: TierValue, t3: TierValue, t4: TierValue): (ts: seq<TierValue>)
    ensures |ts| == 4 && ts[0] == t1 && ts[1] == t2 && ts[2] == t3 && ts[3] == t4
  {
    [t1, t2, t3, t4]
  }

  /** The value of the first tier that yields one, or 0 when none does. */
  function FirstValue(ts: seq<TierValue>): (v: real)
    ensures 0.0 <= v <= 100.0
    ensures (forall i :: 0 <= i < |ts| ==> ts[i].None?) ==> v == 0.0
    ensures forall i :: 0 <= i < |ts| && ts[i].Some? && (forall j :: 0 <= j < i ==> ts[j].None?)
                        ==> v == ts[i].value
  {
    var f := FirstSome(ts);
    FirstSomeInRange(ts);
    FirstSomeIsFirst(ts);
    if f.Some? then f.value else 0.0
  }

  /** A present value with nothing present before it is the first one. */
  lemma FirstSomeIsFirst<T>(xs: seq<Option<T>>)
    ensures forall i :: 0 <= i < |xs| && xs[i].Some? && (forall j :: 0 <= j < i ==> xs[j].None?)
                        ==> FirstSome(xs) == xs[i]
  {
    var f := FirstSome(xs);
    forall i | 0 <= i < |xs| && xs[i].Some? && (forall j :: 0 <= j < i ==> xs[j].None?)
      ensures f == xs[i]
    {
      var k :| 0 <= k < |xs| && xs[k] == f && forall j :: 0 <= j < k ==> xs[j].None?;
      assert !(k < i) && !(i < k);
    }
  }

  /** `getAreaValueFromRow`: the value of the first tier that yields one, or 0.
      Whatever the row holds, the result is a score in [0, 100]; a tier is
      consulted only when all earlier tiers yielded nothing. */
  function GetAreaValueFromRow(row: Row, r: RubricId, a: AreaKey): (v: real)
    ensures 0.0 <= v <= 100.0
    ensures (forall i :: 0 <= i < 4 ==> Tiers(row, r, a)[i].None?) ==> v == 0.0
    ensures forall i :: 0 <= i < 4 && Tiers(row, r, a)[i].Some?
                        && (forall j :: 0 <= j < i ==> Tiers(row, r, a)[j].None?)
                        ==> v == Tiers(row, r, a)[i].value
  {
    FirstValue(Tiers(row, r, a))
  }

  /** A row without columns scores 0 in every area. */
  lemma AreaValueOfEmptyRow(r: RubricId, a: AreaKey)
    ensures GetAreaValueFromRow([], r, a) == 0.0
  {
    TiersOfEmptyRow(r, a);
    assert Tiers([], r, a) == [None, None, None, None];
  }

  /** No tier finds anything in a row without columns. */
  lemma TiersOfEmptyRow(r: RubricId, a: AreaKey)
    ensures Tier1([], r, a).None? && Tier2([], r, a).None? && Tier3([], r, a).None? && Tier4([], a).None?
  {
    Tier1OfEmptyRow(r, a);
    Tier2OfEmptyRow(r, a);
    Tier3OfEmptyRow(r, a);
  }

  lemma Tier1OfEmptyRow(r: RubricId, a: AreaKey)
    ensures Tier1([], r, a).None?
  {
    KeyScoresOfEmptyRow(CompositeKeys(r, a));
    assert Tier1([], r, a) == FirstSome(KeyScores([], CompositeKeys(r, a)));
  }

  lemma Tier2OfEmptyRow(r: RubricId, a: AreaKey)
    ensures Tier2([], r, a).None?
  {
    assert TitleCandidates([], r, a) == [];
  }

  lemma Tier3OfEmptyRow(r: RubricId, a: AreaKey)
    ensures Tier3([], r, a).None?
  {
    assert LooseCandidates([], r, a) == [];
  }

  /** No name has a cell in a row without columns. */
  lemma KeyScoresOfEmptyRow(ks: seq<string>)
    ensures FirstSome(KeyScores([], ks)).None?
  {
    forall i | 0 <= i < |ks| ensures KeyScore([], ks[i]).None? {
      GetFieldSingle([], ks[i]);
    }
    FirstKeyScoreNone([], ks);
  }

  /** A whole-number cell under the first composite name (for example
      `R0621_planning`) decides the area's score, whatever else the row holds:
      1 counts as 100 percent and values above 100 are capped. */
  lemma AreaValueOfFirstKey(row: Row, r: RubricId, a: AreaKey, p: nat)
    requires UniqueKeys(row)
    requires (CompositeKeys(r, a)[0], ShowNat(p)) in row
    ensures GetAreaValueFromRow(row, r, a) == if p == 1 || p > 100 then 100.0 else p as real
  {
    var k := CompositeKeys(r, a)[0];
    KeyScoreOfWhole(row, k, p);
    var xs := KeyScores(row, CompositeKeys(r, a));
    assert xs[0] == KeyScore(row, k);
    assert Tier1(row, r, a) == FirstSome(xs) == KeyScore(row, k);
    AreaValueOfTier1(row, r, a);
  }

  /** A cell holding a whole number scores as `toIntMaybe` reads it. */
  lemma KeyScoreOfWhole(row: Row, k: string, p: nat)
    requires UniqueKeys(row)
    requires (k, ShowNat(p)) in row
    ensures KeyScore(row, k) == Some(if p == 1 || p > 100 then 100.0 else p as real)
  {
    var i :| 0 <= i < |row| && row[i] == (k, ShowNat(p));
    GetAt(row, i);
    assert !Blank(ShowNat(p)) by { assert IsDigit(ShowNat(p)[0]); }
    assert Hit(row, k) == Some(ShowNat(p));
    GetFieldSingle(row, k);
    ToIntMaybeWhole(p);
  }

  /** A score from tier 1 is the result, whatever the later tiers hold. */
  lemma AreaValueOfTier1(row: Row, r: RubricId, a: AreaKey)
    requires Tier1(row, r, a).Some?
    ensures GetAreaValueFromRow(row, r, a) == Tier1(row, r, a).value
  {
    assert Tiers(row, r, a)[0] == Tier1(row, r, a);
  }

  // ---------------------------------------------------------------------------
  // Notes and evaluation metadata (app.js:1297-1327)
  // ---------------------------------------------------------------------------

  /** The six note spellings tried for one upper-cased prefix, in order. */
  function NoteBlock(base: string, ak: string): (ks: seq<string>)
    ensures |ks| == 6
  {
    var stem := base + "_" + ak;
    [stem + "_notes", stem + "_NOTES", stem + "_comment", stem + "_COMMENT",
     stem + "_evidence", stem + "_EVIDENCE"]
  }

  /** All thirty note column names, prefix by prefix. */
  function NoteKeys(r: RubricId, a: AreaKey): (ks: seq<string>)
    ensures |ks| == 30
    ensures forall i, j :: 0 <= i < 5 && 0 <= j < 6 ==>
              ks[6 * i + j] == NoteBlock(Upper(Prefixes(r)[i]), AreaName(a))[j]
  {
    NoteBlocksFor(Prefixes(r), AreaName(a))
  }

  /** The note spellings of every prefix, one block of six after another. */
  function NoteBlocksFor(ps: seq<string>, ak: string): (ks: seq<string>)
    ensures |ks| == 6 * |ps|
    ensures forall i, j :: 0 <= i < |ps| && 0 <= j < 6 ==> ks[6 * i + j] == NoteBlock(Upper(ps[i]), ak)[j]
  {
    if |ps| == 0 then []
    else
      var b, rest := NoteBlock(Upper(ps[0]), ak), NoteBlocksFor(ps[1..], ak);
      var ks := b + rest;
      assert forall i, j :: 0 <= i < |ps| && 0 <= j < 6 ==> ks[6 * i + j] == NoteBlock(Upper(ps[i]), ak)[j] by {
        forall i, j | 0 < i < |ps| && 0 <= j < 6 ensures ks[6 * i + j] == NoteBlock(Upper(ps[i]), ak)[j] {
          assert ks[6 * i + j] == rest[6 * (i - 1) + j];
          assert ps[1..][i - 1] == ps[i];
        }
      }
      ks
  }

  /** `getAreaNotesFromRow`: the first note column that holds text, or the
      empty string. */
  function GetAreaNotesFromRow(row: Row, r: RubricId, a: AreaKey): (n: string)
    ensures n == "" <==> forall i :: 0 <= i < 30 ==> Hit(row, NoteKeys(r, a)[i]).None?
    ensures n != "" ==> !Blank(n) && exists i :: 0 <= i < |row| && row[i].1 == n
  {
    GetField(row, NoteKeys(r, a))
  }

  /** The column names tried for one metadata suffix: for each prefix, the
      suffix as written and then upper-cased. */
  function MetaKeys(r: RubricId, a: AreaKey, suffix: string): (ks: seq<string>)
    ensures |ks| == 10
    ensures forall i :: 0 <= i < 5 ==>
              && ks[2 * i] == Upper(Prefixes(r)[i]) + "_" + AreaName(a) + "_" + suffix
              && ks[2 * i + 1] == Upper(Prefixes(r)[i]) + "_" + AreaName(a) + "_" + Upper(suffix)
  {
    var ps := Prefixes(r);
    var ak := AreaName(a);
    var u := Upper(suffix);
    var ks := seq(10, k requires 0 <= k < 10 =>
                Upper(ps[k / 2]) + "_" + ak + "_" + (if k % 2 == 0 then suffix else u));
    assert forall i :: 0 <= i < 5 ==>
             (2 * i) / 2 == i && (2 * i + 1) / 2 == i && (2 * i) % 2 == 0 && (2 * i + 1) % 2 == 1;
    ks
  }

  /** When an area was last evaluated and by whom. */
  datatype AreaMeta = AreaMeta(lastEval: string, evaluator: string)

  /** `getAreaMetaFromRow`. */
  function GetAreaMetaFromRow(row: Row, r: RubricId, a: AreaKey): AreaMeta {
    AreaMeta(
      GetField(row, MetaKeys(r, a, "lastEval") + (MetaKeys(r, a, "last") + MetaKeys(r, a, "date"))),
      GetField(row, MetaKeys(r, a, "evaluator") + MetaKeys(r, a, "who")))
  }

  /** The evaluation date comes from a `lastEval` column if any holds text,
      else from a `last` column, else from a `date` column; the evaluator
      from an `evaluator` column, else from a `who` column. */
  lemma AreaMetaPrecedence(row: Row, r: RubricId, a: AreaKey)
    ensures var m := GetAreaMetaFromRow(row, r, a);
            var l, t, d := GetField(row, MetaKeys(r, a, "lastEval")), GetField(row, MetaKeys(r, a, "last")),
                           GetField(row, MetaKeys(r, a, "date"));
            var e, w := GetField(row, MetaKeys(r, a, "evaluator")), GetField(row, MetaKeys(r, a, "who"));
            && m.lastEval == (if l != "" then l else if t != "" then t else d)
            && m.evaluator == (if e != "" then e else w)
  {
    GetFieldAppend(row, MetaKeys(r, a, "last"), MetaKeys(r, a, "date"));
    GetFieldAppend(row, MetaKeys(r, a, "lastEval"), MetaKeys(r, a, "last") + MetaKeys(r, a, "date"));
    GetFieldAppend(row, MetaKeys(r, a, "evaluator"), MetaKeys(r, a, "who"));
  }
}

=== FILE: csv.dfy ===
/**
 * The CSV ingestion step: `normalizeHeader` (app.js:1116-1121) and `parseCSV`
 * (app.js:1156-1191), a two-mode character machine followed by the
 * construction of one header-keyed row per non-blank record.
 */
module Csv {
  import opened Text
  import opened Options
  import opened Fields

  // ---------------------------------------------------------------------------
  // Header names
  // ---------------------------------------------------------------------------

  /** `replace(/[﻿ ]/g, ' ')`. */
  function ReplaceBomNbsp(h: string): (r: string)
    ensures |r| == |h|
    ensures forall i :: 0 <= i < |h| ==> r[i] == if h[i] in {'\U{FEFF}', '\U{00A0}'} then ' ' else h[i]
  {
    seq(|h|, i requires 0 <= i < |h| => if h[i] in {'\U{FEFF}', '\U{00A0}'} then ' ' else h[i])
  }

  /** `normalizeHeader`: no white space at either end, every white-space run
      a single plain space, and in particular no byte-order mark or no-break
      space left. */
  function NormalizeHeader(h: string): (r: string)
    ensures Trimmed(r) && Collapsed(r)
    ensures '\U{FEFF}' !in r && '\U{00A0}' !in r
  {
    var t := Trim(ReplaceBomNbsp(h));
    var r := Collapse(t);
    assert IsSpace('\U{FEFF}') && IsSpace('\U{00A0}');
    r
  }

  /** A header that is already trimmed, collapsed and free of byte-order marks
      and no-break spaces is left alone. */
  lemma NormalizeHeaderOfNormal(s: string)
    requires Trimmed(s) && Collapsed(s)
    requires '\U{FEFF}' !in s && '\U{00A0}' !in s
    ensures NormalizeHeader(s) == s
  {
    assert ReplaceBomNbsp(s) == s;
    TrimOfTrimmed(s);
    CollapseOfCollapsed(s);
  }

  /** Normalising a header twice gives the same as normalising it once. */
  lemma NormalizeHeaderIdempotent(h: string)
    ensures NormalizeHeader(NormalizeHeader(h)) == NormalizeHeader(h)
  {
    NormalizeHeaderOfNormal(NormalizeHeader(h));
  }

  function NormalizeHeaders(cells: seq<string>): (hs: seq<string>)
    ensures |hs| == |cells|
    ensures forall i :: 0 <= i < |cells| ==> hs[i] == NormalizeHeader(cells[i])
  {
    seq(|cells|, i requires 0 <= i < |cells| => NormalizeHeader(cells[i]))
  }

  // ---------------------------------------------------------------------------
  // Tokenizer
  // ---------------------------------------------------------------------------

  /** State of the character loop: finished records, the cells of the record
      being read, the cell being read, and whether a quoted section is open. */
  datatype Lexer = Lexer(rows: seq<seq<string>>, row: seq<string>, field: string, inQuotes: bool)

  const Start := Lexer([], [], "", false)

  /** A record the tokenizer can emit: at least one cell, and not the lone
      empty cell of an empty line. */
  predicate GoodRecord(r: seq<string>) {
    |r| >= 1 && r != [""]
  }

  predicate AllGood(rows: seq<seq<string>>) {
    forall i :: 0 <= i < |rows| ==> GoodRecord(rows[i])
  }

  /** The character loop of `parseCSV`, consuming `s` from state `st`. Records
      are only ever appended, and an empty line emits none. */
  function Lex(s: string, st: Lexer): (r: Lexer)
    ensures st.rows <= r.rows
    ensures AllGood(st.rows) ==> AllGood(r.rows)
    decreases |s|
  {
    if |s| == 0 then st
    else
      var c := s[0];
      if st.inQuotes then
        if c == '"' && |s| > 1 && s[1] == '"' then Lex(s[2..], st.(field := st.field + ['"']))
        else if c == '"' then Lex(s[1..], st.(inQuotes := false))
        else Lex(s[1..], st.(field := st.field + [c]))
      else if c == '"' then Lex(s[1..], st.(inQuotes := true))
      else if c == ',' then Lex(s[1..], st.(row := st.row + [st.field], field := ""))
      else if c == '\n' then
        var row := st.row + [st.field];
        if |row| == 1 && row[0] == "" then Lex(s[1..], st.(row := [], field := ""))
        else Lex(s[1..], st.(rows := st.rows + [row], row := [], field := ""))
      else if c == '\r' then Lex(s[1..], st)
      else Lex(s[1..], st.(field := st.field + [c]))
  }

  /** The records of `text`, including a last one not ended by a newline. */
  function Tokenize(text: string): (rows: seq<seq<string>>)
    ensures AllGood(rows)
  {
    var st := Lex(text, Start);
    if |st.field| > 0 || |st.row| > 0 then
      var last := st.row + [st.field];
      assert GoodRecord(last) by {
        assert |st.row| > 0 ==> |last| >= 2;
        assert |st.row| == 0 ==> last == [st.field];
      }
      var rows := st.rows + [last];
      assert forall i :: 0 <= i < |rows| ==> rows[i] == if i < |st.rows| then st.rows[i] else last;
      rows
    else st.rows
  }

  // One step of the character loop each.

  lemma LexOpenQuote(t: string, st: Lexer)
    requires !st.inQuotes
    ensures Lex("\"" + t, st) == Lex(t, st.(inQuotes := true))
  {
    assert ("\"" + t)[1..] == t;
  }

  lemma LexComma(t: string, st: Lexer)
    requires !st.inQuotes
    ensures Lex("," + t, st) == Lex(t, st.(row := st.row + [st.field], field := ""))
  {
    assert ("," + t)[1..] == t;
  }

  /** A newline ends a record that is not the lone empty cell. */
  lemma LexNewline(t: string, st: Lexer)
    requires !st.inQuotes && GoodRecord(st.row + [st.field])
    ensures Lex("\n" + t, st) == Lex(t, st.(rows := st.rows + [st.row + [st.field]], row := [], field := ""))
  {
    assert ("\n" + t)[1..] == t;
  }

  // ---------------------------------------------------------------------------
  // The matching encoder, and the round trip
  // ---------------------------------------------------------------------------

  /** Doubles every quotation mark (section 2, item 7 of RFC 4180). */
  function EscapeQuotes(f: string): string {
    if |f| == 0 then ""
    else (if f[0] == '"' then "\"\"" else [f[0]]) + EscapeQuotes(f[1..])
  }

  function QuoteField(f: string): string {
    "\"" + EscapeQuotes(f) + "\""
  }

  /** A record as quoted fields separated by commas. */
  function EncodeFields(r: seq<string>): string
    requires |r| >= 1
  {
    if |r| == 1 then QuoteField(r[0]) else QuoteField(r[0]) + "," + EncodeFields(r[1..])
  }

  /** A table as newline-terminated records. */
  function EncodeTable(rs: seq<seq<string>>): string
    requires AllGood(rs)
  {
    if |rs| == 0 then "" else EncodeFields(rs[0]) + "\n" + EncodeTable(rs[1..])
  }

  /** Inside quotes a doubled quotation mark is one literal quotation mark,
      every other character (comma, newline, carriage return) is literal, and
      a single quotation mark closes the section. */
  lemma {:induction false} LexQuoted(f: string, rest: string, st: Lexer)
    requires st.inQuotes
    requires |rest| == 0 || rest[0] != '"'
    ensures Lex(EscapeQuotes(f) + "\"" + rest, st) == Lex(rest, st.(field := st.field + f, inQuotes := false))
    decreases |f|
  {
    var s := EscapeQuotes(f) + "\"" + rest;
    if |f| == 0 {
      assert s == "\"" + rest;
      assert s[1..] == rest;
      assert st.field + f == st.field;
    } else if f[0] == '"' {
      var tail := EscapeQuotes(f[1..]) + "\"" + rest;
      assert s == "\"\"" + tail;
      assert s[2..] == tail;
      LexQuoted(f[1..], rest, st.(field := st.field + ['"']));
      assert st.field + ['"'] + f[1..] == st.field + f;
    } else {
      var tail := EscapeQuotes(f[1..]) + "\"" + rest;
      assert s == [f[0]] + tail;
      assert s[1..] == tail;
      LexQuoted(f[1..], rest, st.(field := st.field + [f[0]]));
      assert st.field + [f[0]] + f[1..] == st.field + f;
    }
  }

  /** A quoted field read into an empty cell leaves the cell holding it. */
  lemma LexQuotedField(f: string, after: string, st: Lexer)
    requires !st.inQuotes && st.field == ""
    requires |after| == 0 || after[0] != '"'
    ensures Lex(QuoteField(f) + after, st) == Lex(after, st.(field := f))
  {
    var inner := EscapeQuotes(f) + "\"" + after;
    assert QuoteField(f) + after == "\"" + inner;
    LexOpenQuote(inner, st);
    LexQuoted(f, after, st.(inQuotes := true));
    assert st.(inQuotes := true).(field := st.field + f, inQuotes := false) == st.(field := f);
  }

  /** The first of several quoted fields, with its comma, moves into the
      record. */
  lemma LexNextField(r: seq<string>, rest: string, st: Lexer)
    requires |r| >= 2 && !st.inQuotes && st.field == ""
    ensures Lex(EncodeFields(r) + rest, st)
         == Lex(EncodeFields(r[1..]) + rest, st.(row := st.row + [r[0]], field := ""))
  {
    var after := "," + (EncodeFields(r[1..]) + rest);
    assert EncodeFields(r) + rest == QuoteField(r[0]) + after;
    LexQuotedField(r[0], after, st);
    LexComma(EncodeFields(r[1..]) + rest, st.(field := r[0]));
  }

  lemma {:induction false} LexFields(r: seq<string>, rest: string, st: Lexer)
    requires |r| >= 1 && !st.inQuotes && st.field == ""
    requires |rest| == 0 || rest[0] != '"'
    ensures Lex(EncodeFields(r) + rest, st)
         == Lex(rest, st.(row := st.row + r[..|r| - 1], field := r[|r| - 1]))
    decreases |r|
  {
    if |r| == 1 {
      assert EncodeFields(r) + rest == QuoteField(r[0]) + rest;
      LexQuotedField(r[0], rest, st);
      assert st.row + r[..0] == st.row;
    } else {
      var t := r[1..];
      var next := st.(row := st.row + [r[0]], field := "");
      LexNextField(r, rest, st);
      LexFields(t, rest, next);
      assert st.row + [r[0]] + t[..|t| - 1] == st.row + r[..|r| - 1];
    }
  }

  /** One newline-terminated record moves into the output. */
  lemma LexRecord(r: seq<string>, tail: string, st: Lexer)
    requires GoodRecord(r)
    requires !st.inQuotes && st.field == "" && st.row == []
    ensures Lex(EncodeFields(r) + "\n" + tail, st) == Lex(tail, st.(rows := st.rows + [r], row := [], field := ""))
  {
    LexFields(r, "\n" + tail, st);
    var mid := st.(row := r[..|r| - 1], field := r[|r| - 1]);
    assert st.row + r[..|r| - 1] == r[..|r| - 1];
    assert mid.row + [mid.field] == r;
    LexNewline(tail, mid);
    assert EncodeFields(r) + "\n" + tail == EncodeFields(r) + ("\n" + tail);
  }

  lemma {:induction false} LexTable(rs: seq<seq<string>>, st: Lexer)
    requires AllGood(rs)
    requires !st.inQuotes && st.field == "" && st.row == []
    ensures Lex(EncodeTable(rs), st) == st.(rows := st.rows + rs)
    decreases |rs|
  {
    if |rs| == 0 {
      assert st.rows + rs == st.rows;
    } else {
      var r := rs[0];
      LexRecord(r, EncodeTable(rs[1..]), st);
      assert AllGood(rs[1..]) by {
        forall i | 0 <= i < |rs[1..]| ensures GoodRecord(rs[1..][i]) {
          assert rs[1..][i] == rs[i + 1];
        }
      }
      LexTable(rs[1..], st.(rows := st.rows + [r], row := [], field := ""));
      assert st.rows + [r] + rs[1..] == st.rows + rs;
    }
  }

  /** Round trip: tokenizing an encoded table gives back exactly its records,
      whatever quotation marks, commas, newlines or carriage returns the cells
      hold. */
  lemma TokenizeEncodeTable(rs: seq<seq<string>>)
    requires AllGood(rs)
    ensures Tokenize(EncodeTable(rs)) == rs
  {
    LexTable(rs, Start);
    assert Start.rows + rs == rs;
  }

  /** Outside quotes every carriage return is dropped: text without quotation
      marks tokenizes as it would with all its carriage returns removed, so
      CRLF and LF line endings give the same records. */
  lemma {:induction false} LexIgnoresCR(s: string, st: Lexer)
    requires !st.inQuotes && '"' !in s
    ensures Lex(s, st) == Lex(RemoveChar(s, '\r'), st)
    decreases |s|
  {
    if |s| > 0 {
      assert '"' !in s[1..] by { assert forall x :: x in s[1..] ==> x in s; }
      var t := RemoveChar(s[1..], '\r');
      if s[0] == '\r' {
        LexIgnoresCR(s[1..], st);
      } else {
        var u := [s[0]] + t;
        assert RemoveChar(s, '\r') == u;
        assert u[0] == s[0] && u[1..] == t;
        if s[0] == ',' {
          LexIgnoresCR(s[1..], st.(row := st.row + [st.field], field := ""));
        } else if s[0] == '\n' {
          var row := st.row + [st.field];
          LexIgnoresCR(s[1..], st.(row := [], field := ""));
          LexIgnoresCR(s[1..], st.(rows := st.rows + [row], row := [], field := ""));
        } else {
          LexIgnoresCR(s[1..], st.(field := st.field + [s[0]]));
        }
      }
    }
  }

  lemma TokenizeIgnoresCR(text: string)
    requires '"' !in text
    ensures Tokenize(text) == Tokenize(RemoveChar(text, '\r'))
  {
    LexIgnoresCR(text, Start);
  }

  // ---------------------------------------------------------------------------
  // Rows keyed by header
  // ---------------------------------------------------------------------------

  /** `vals[idx] ?? ''`: a short record reads as empty past its end. */
  function Cell(vals: seq<string>, idx: nat): string {
    if idx < |vals| then vals[idx] else ""
  }

  /** `obj[k] = v`: a new key goes last, an existing key keeps its place and
      takes the new value. */
  function Put(row: Row, k: string, v: string): (r: Row)
    requires UniqueKeys(row)
    ensures UniqueKeys(r)
    ensures KeysOf(r) == if k in KeysOf(row) then KeysOf(row) else KeysOf(row) + [k]
    decreases |row|
  {
    if |row| == 0 then [(k, v)]
    else
      var x, t := row[0], row[1..];
      assert row == [x] + t;
      KeysOfCons(x, t);
      UniqueKeysCons(x, t);
      if x.0 == k then
        KeysOfCons((k, v), t);
        UniqueKeysCons((k, v), t);
        [(k, v)] + t
      else
        var u := Put(t, k, v);
        KeysOfCons(x, u);
        UniqueKeysCons(x, u);
        [x] + u
  }

  /** After `Put`, the key put reads back the value put and every other key
      reads what it read before. */
  lemma {:induction false} PutGet(row: Row, k: string, v: string, k': string)
    requires UniqueKeys(row)
    ensures Get(Put(row, k, v), k') == if k' == k then Some(v) else Get(row, k')
    decreases |row|
  {
    if |row| > 0 {
      var x := row[0];
      var t := row[1..];
      assert row == [x] + t;
      GetCons(x, t, k');
      if x.0 == k {
        GetCons((k, v), t, k');
      } else {
        UniqueKeysCons(x, t);
        PutGet(t, k, v, k');
        GetCons(x, Put(t, k, v), k');
      }
    }
  }

  /** The header list with every repeated header dropped, first occurrences
      kept in order. */
  function Dedup(hs: seq<string>): (r: seq<string>)
    ensures forall x :: x in r <==> x in hs
    ensures forall i, j :: 0 <= i < j < |r| ==> r[i] != r[j]
  {
    if |hs| == 0 then []
    else
      var p := Dedup(hs[..|hs| - 1]);
      assert hs == hs[..|hs| - 1] + [hs[|hs| - 1]];
      if hs[|hs| - 1] in hs[..|hs| - 1] then p else p + [hs[|hs| - 1]]
  }

  /** Position of the last occurrence of `h` among the headers. */
  function LastIndex(hs: seq<string>, h: string): (r: nat)
    requires h in hs
    ensures r < |hs| && hs[r] == h
    ensures forall j :: r < j < |hs| ==> hs[j] != h
  {
    if hs[|hs| - 1] == h then |hs| - 1
    else
      assert hs == hs[..|hs| - 1] + [hs[|hs| - 1]];
      LastIndex(hs[..|hs| - 1], h)
  }

  /** One row object: one entry per distinct header, in first-occurrence
      order; cells beyond the headers are never read. */
  function BuildRow(headers: seq<string>, vals: seq<string>): (r: Row)
    ensures UniqueKeys(r)
    ensures KeysOf(r) == Dedup(headers)
    decreases |headers|
  {
    if |headers| == 0 then []
    else
      var n := |headers| - 1;
      var prefix := headers[..n];
      assert headers == prefix + [headers[n]];
      Put(BuildRow(prefix, vals), headers[n], Trim(Cell(vals, n)))
  }

  /** The entry under a header holds the trimmed cell of the LAST column with
      that header, or `''` when the record is too short to reach it. */
  lemma {:induction false} BuildRowGet(headers: seq<string>, vals: seq<string>, h: string)
    requires h in headers
    ensures Get(BuildRow(headers, vals), h) == Some(Trim(Cell(vals, LastIndex(headers, h))))
    decreases |headers|
  {
    var n := |headers| - 1;
    var prefix := headers[..n];
    assert headers == prefix + [headers[n]];
    PutGet(BuildRow(prefix, vals), headers[n], Trim(Cell(vals, n)), h);
    if h != headers[n] {
      BuildRowGet(prefix, vals, h);
    }
  }

  /** A header not in the list has no entry. */
  lemma BuildRowMissing(headers: seq<string>, vals: seq<string>, h: string)
    requires h !in headers
    ensures Get(BuildRow(headers, vals), h).None?
  {
  }

  /** Every cell trims to the empty string. */
  predicate BlankRecord(vals: seq<string>) {
    forall i :: 0 <= i < |vals| ==> Blank(vals[i])
  }

  /** Positions of the non-blank records, in increasing order. */
  function Kept(data: seq<seq<string>>): (ix: seq<nat>)
    ensures forall k :: 0 <= k < |ix| ==> ix[k] < |data| && !BlankRecord(data[ix[k]])
    ensures forall k, l :: 0 <= k < l < |ix| ==> ix[k] < ix[l]
    ensures forall j :: 0 <= j < |data| && !BlankRecord(data[j]) ==> j in ix
  {
    if |data| == 0 then []
    else
      var n := |data| - 1;
      var p := Kept(data[..n]);
      assert forall j :: 0 <= j < n ==> data[..n][j] == data[j];
      if BlankRecord(data[n]) then p else p + [n]
  }

  /** The data records that are not blank, each turned into a row. */
  function DataRows(headers: seq<string>, data: seq<seq<string>>): (out: seq<Row>)
    ensures |out| == |Kept(data)|
    ensures forall k :: 0 <= k < |out| ==> out[k] == BuildRow(headers, data[Kept(data)[k]])
  {
    if |data| == 0 then []
    else
      var n := |data| - 1;
      var p := DataRows(headers, data[..n]);
      assert forall j :: 0 <= j < n ==> data[..n][j] == data[j];
      if BlankRecord(data[n]) then p else p + [BuildRow(headers, data[n])]
  }

  /** `parseCSV`: the first record names the columns (normalised); every
      later record that is not blank becomes one row, in input order. */
  function ParseCSV(text: string): (out: seq<Row>)
    ensures Tokenize(text) == [] ==> out == []
    ensures Tokenize(text) != [] ==>
      var headers := NormalizeHeaders(Tokenize(text)[0]);
      var data := Tokenize(text)[1..];
      && |out| == |Kept(data)|
      && forall k :: 0 <= k < |out| ==> out[k] == BuildRow(headers, data[Kept(data)[k]])
    ensures forall k :: 0 <= k < |out| ==> UniqueKeys(out[k])
  {
    var rows := Tokenize(text);
    if |rows| == 0 then []
    else DataRows(NormalizeHeaders(rows[0]), rows[1..])
  }
}

=== FILE: display.dfy ===
/**
 * Small pure helpers of the views: HTML escaping (`escapeXml`), element-id
 * cleaning (`sanitizeId`), value picking and flag parsing (`pickNonEmpty`,
 * `isTruthy`), the status badge class (`statusClass`) and the org-chart
 * labels (`pltDisplayLabel`, `mosCategory`), app.js:354-399 and 517-535.
 */
module Display {
  import opened Options
  import opened Text

  // ---------------------------------------------------------------------------
  // escapeXml (app.js:368-375)
  // ---------------------------------------------------------------------------

  /** The entity one character becomes, or the character itself. */
  function EscapeChar(c: char): string {
    if c == '&' then "&amp;"
    else if c == '<' then "&lt;"
    else if c == '>' then "&gt;"
    else if c == '"' then "&quot;"
    else if c == '\'' then "&#039;"
    else [c]
  }

  /** A character `escapeXml` leaves no trace of. */
  predicate Markup(c: char) {
    c == '<' || c == '>' || c == '"' || c == '\''
  }

  /** `escapeXml`, character by character: no markup character survives, and
      every ampersand of the result opens an entity. */
  function EscapeXml(s: string): (r: string)
    ensures |r| >= |s|
    ensures forall i :: 0 <= i < |r| ==> !Markup(r[i])
    ensures (forall i :: 0 <= i < |s| ==> !Markup(s[i]) && s[i] != '&') ==> r == s
    decreases |s|
  {
    if |s| == 0 then ""
    else
      var e := EscapeChar(s[0]);
      var rest := EscapeXml(s[1..]);
      assert forall i :: 0 <= i < |e| ==> !Markup(e[i]);
      assert forall i :: |e| <= i < |e + rest| ==> (e + rest)[i] == rest[i - |e|];
      e + rest
  }

  /** `s.replace(/c/g, rep)`. */
  function ReplaceChar(s: string, c: char, rep: string): (r: string)
    decreases |s|
  {
    if |s| == 0 then ""
    else (if s[0] == c then rep else [s[0]]) + ReplaceChar(s[1..], c, rep)
  }

  lemma {:induction false} ReplaceCharConcat(a: string, b: string, c: char, rep: string)
    ensures ReplaceChar(a + b, c, rep) == ReplaceChar(a, c, rep) + ReplaceChar(b, c, rep)
    decreases |a|
  {
    if |a| > 0 {
      assert (a + b)[1..] == a[1..] + b;
      ReplaceCharConcat(a[1..], b, c, rep);
    } else {
      assert a + b == b;
    }
  }

  lemma {:induction false} ReplaceCharAbsent(s: string, c: char, rep: string)
    requires c !in s
    ensures ReplaceChar(s, c, rep) == s
    decreases |s|
  {
    if |s| > 0 {
      ReplaceCharAbsent(s[1..], c, rep);
    }
  }

  /** The five `replace` calls of `escapeXml` in the order they are written. */
  function EscapeChain(s: string): string {
    var a := ReplaceChar(s, '&', "&amp;");
    var b := ReplaceChar(a, '<', "&lt;");
    var c := ReplaceChar(b, '>', "&gt;");
    var d := ReplaceChar(c, '"', "&quot;");
    ReplaceChar(d, '\'', "&#039;")
  }

  lemma EscapeChainConcat(a: string, b: string)
    ensures EscapeChain(a + b) == EscapeChain(a) + EscapeChain(b)
  {
    var a1 := ReplaceChar(a, '&', "&amp;");
    var b1 := ReplaceChar(b, '&', "&amp;");
    ReplaceCharConcat(a, b, '&', "&amp;");
    var a2 := ReplaceChar(a1, '<', "&lt;");
    var b2 := ReplaceChar(b1, '<', "&lt;");
    ReplaceCharConcat(a1, b1, '<', "&lt;");
    var a3 := ReplaceChar(a2, '>', "&gt;");
    var b3 := ReplaceChar(b2, '>', "&gt;");
    ReplaceCharConcat(a2, b2, '>', "&gt;");
    var a4 := ReplaceChar(a3, '"', "&quot;");
    var b4 := ReplaceChar(b3, '"', "&quot;");
    ReplaceCharConcat(a3, b3, '"', "&quot;");
    ReplaceCharConcat(a4, b4, '\'', "&#039;");
  }

  lemma ReplaceCharSingle(x: char, c: char, rep: string)
    ensures ReplaceChar([x], c, rep) == if x == c then rep else [x]
  {
    assert [x][1..] == "";
  }

  /** A character that is not escaped goes through the chain unchanged. */
  lemma EscapeChainPlain(x: char)
    requires !Markup(x) && x != '&'
    ensures EscapeChain([x]) == [x]
  {
    ReplaceCharSingle(x, '&', "&amp;");
    ReplaceCharSingle(x, '<', "&lt;");
    ReplaceCharSingle(x, '>', "&gt;");
    ReplaceCharSingle(x, '"', "&quot;");
    ReplaceCharSingle(x, '\'', "&#039;");
  }

  /** The calls after the one that writes an entity leave it alone. */
  lemma ChainKeeps(e: string, from: nat)
    requires 1 <= from <= 4
    requires from <= 1 ==> '<' !in e
    requires from <= 2 ==> '>' !in e
    requires from <= 3 ==> '"' !in e
    requires '\'' !in e
    ensures from <= 1 ==> ReplaceChar(e, '<', "&lt;") == e
    ensures from <= 2 ==> ReplaceChar(e, '>', "&gt;") == e
    ensures from <= 3 ==> ReplaceChar(e, '"', "&quot;") == e
    ensures ReplaceChar(e, '\'', "&#039;") == e
  {
    if from <= 1 {
      ReplaceCharAbsent(e, '<', "&lt;");
    }
    if from <= 2 {
      ReplaceCharAbsent(e, '>', "&gt;");
    }
    if from <= 3 {
      ReplaceCharAbsent(e, '"', "&quot;");
    }
    ReplaceCharAbsent(e, '\'', "&#039;");
  }

  /** A special character goes through the chain to its own entity. */
  lemma EscapeChainSpecial(x: char)
    requires Markup(x) || x == '&'
    ensures EscapeChain([x]) == EscapeChar(x)
  {
    var e := EscapeChar(x);
    var a := ReplaceChar([x], '&', "&amp;");
    ReplaceCharSingle(x, '&', "&amp;");
    if x == '&' {
      assert a == e;
      ChainKeeps(e, 1);
    } else {
      var b := ReplaceChar(a, '<', "&lt;");
      ReplaceCharSingle(x, '<', "&lt;");
      if x == '<' {
        assert b == e;
        ChainKeeps(e, 2);
      } else {
        var c := ReplaceChar(b, '>', "&gt;");
        ReplaceCharSingle(x, '>', "&gt;");
        if x == '>' {
          assert c == e;
          ChainKeeps(e, 3);
        } else {
          var d := ReplaceChar(c, '"', "&quot;");
          ReplaceCharSingle(x, '"', "&quot;");
          if x == '"' {
            assert d == e;
            ChainKeeps(e, 4);
          } else {
            ReplaceCharSingle(x, '\'', "&#039;");
          }
        }
      }
    }
  }

  /** One character goes through the chain to its own entity. */
  lemma EscapeChainChar(x: char)
    ensures EscapeChain([x]) == EscapeChar(x)
  {
    if Markup(x) || x == '&' {
      EscapeChainSpecial(x);
    } else {
      EscapeChainPlain(x);
    }
  }

  /** The chain of `replace` calls as written computes the character-wise
      escape. */
  lemma {:induction false} EscapeChainIsEscapeXml(s: string)
    ensures EscapeChain(s) == EscapeXml(s)
    decreases |s|
  {
    if |s| == 0 {
    } else {
      assert s == [s[0]] + s[1..];
      EscapeChainConcat([s[0]], s[1..]);
      EscapeChainChar(s[0]);
      EscapeChainIsEscapeXml(s[1..]);
    }
  }

  /** Reading entities back: the inverse of `escapeXml`. */
  function Unescape(t: string): string
    decreases |t|
  {
    if |t| == 0 then ""
    else if "&amp;" <= t then "&" + Unescape(t[5..])
    else if "&lt;" <= t then "<" + Unescape(t[4..])
    else if "&gt;" <= t then ">" + Unescape(t[4..])
    else if "&quot;" <= t then "\"" + Unescape(t[6..])
    else if "&#039;" <= t then "'" + Unescape(t[6..])
    else [t[0]] + Unescape(t[1..])
  }

  /** Escaping loses nothing: reading the entities back gives the text. */
  lemma {:induction false} UnescapeEscapeXml(s: string)
    ensures Unescape(EscapeXml(s)) == s
    decreases |s|
  {
    if |s| > 0 {
      assert EscapeXml(s) == EscapeChar(s[0]) + EscapeXml(s[1..]);
      UnescapeChar(s[0], EscapeXml(s[1..]));
      UnescapeEscapeXml(s[1..]);
      assert s == [s[0]] + s[1..];
    }
  }

  /** Reading back one escaped character. */
  lemma UnescapeChar(x: char, rest: string)
    ensures Unescape(EscapeChar(x) + rest) == [x] + Unescape(rest)
  {
    var e := EscapeChar(x);
    var t := e + rest;
    assert t[|e|..] == rest;
    assert |e| > 1 ==> t[1] == e[1];
    if x == '&' {
      assert "&amp;" <= t;
    } else if x == '<' {
      assert "&lt;" <= t && !("&amp;" <= t);
    } else if x == '>' {
      assert "&gt;" <= t && !("&amp;" <= t) && !("&lt;" <= t);
    } else if x == '"' {
      assert "&quot;" <= t && !("&amp;" <= t) && !("&lt;" <= t) && !("&gt;" <= t);
    } else if x == '\'' {
      assert "&#039;" <= t && !("&amp;" <= t) && !("&lt;" <= t) && !("&gt;" <= t) && !("&quot;" <= t);
    } else {
      assert t[0] == x && t[0] != '&';
      assert !("&amp;" <= t) && !("&lt;" <= t) && !("&gt;" <= t) && !("&quot;" <= t) && !("&#039;" <= t);
    }
  }

  // ---------------------------------------------------------------------------
  // sanitizeId (app.js:354-356)
  // ---------------------------------------------------------------------------

  /** `[a-zA-Z0-9_\-]`. */
  predicate IdChar(c: char) {
    IsAsciiLetter(c) || IsDigit(c) || c == '_' || c == '-'
  }

  /** The number of UTF-16 code units of a character. */
  function Utf16Units(c: char): nat {
    if c as int > 0xFFFF then 2 else 1
  }

  function Utf16Length(s: string): nat
    decreases |s|
  {
    if |s| == 0 then 0 else Utf16Units(s[0]) + Utf16Length(s[1..])
  }

  /** `sanitizeId`: the regular expression has no `u` flag, so it works on
      UTF-16 code units and a character outside the Basic Multilingual Plane
      becomes two underscores. */
  function SanitizeId(s: string): (r: string)
    ensures forall i :: 0 <= i < |r| ==> IdChar(r[i])
    ensures |r| == Utf16Length(s)
    ensures |r| >= |s|
    decreases |s|
  {
    if |s| == 0 then ""
    else
      var head := if IdChar(s[0]) then [s[0]] else if s[0] as int > 0xFFFF then "__" else "_";
      var rest := SanitizeId(s[1..]);
      assert forall i :: |head| <= i < |head + rest| ==> (head + rest)[i] == rest[i - |head|];
      head + rest
  }

  /** An id made only of allowed characters is left as it is. */
  lemma {:induction false} SanitizeIdOfClean(s: string)
    requires forall i :: 0 <= i < |s| ==> IdChar(s[i])
    ensures SanitizeId(s) == s
    decreases |s|
  {
    if |s| > 0 {
      SanitizeIdOfClean(s[1..]);
      assert s == [s[0]] + s[1..];
    }
  }

  /** A single character: kept when allowed, otherwise one underscore per
      UTF-16 code unit. */
  lemma SanitizeIdChar(c: char)
    ensures SanitizeId([c]) == if IdChar(c) then [c] else if c as int > 0xFFFF then "__" else "_"
  {
    assert [c][1..] == [];
  }

  /** Sanitizing works piece by piece: with `SanitizeIdChar` this pins every
      position, so allowed characters of a mixed id stay where they are. */
  lemma {:induction false} SanitizeIdAppend(a: string, b: string)
    ensures SanitizeId(a + b) == SanitizeId(a) + SanitizeId(b)
    decreases |a|
  {
    if |a| > 0 {
      assert (a + b)[0] == a[0] && (a + b)[1..] == a[1..] + b;
      SanitizeIdAppend(a[1..], b);
    } else {
      assert a + b == b;
    }
  }

  /** Cleaning twice is cleaning once. */
  lemma SanitizeIdIdempotent(s: string)
    ensures SanitizeId(SanitizeId(s)) == SanitizeId(s)
  {
    SanitizeIdOfClean(SanitizeId(s));
  }

  // ---------------------------------------------------------------------------
  // pickNonEmpty, isTruthy (app.js:377-390)
  // ---------------------------------------------------------------------------

  /** The values the helpers are given: strings, integers, booleans, and
      `null`/`undefined`. */
  datatype Value = Str(s: string) | Int(n: int) | Bool(b: bool) | Nil

  /** `String(n)` for an integer. */
  function ShowInt(n: int): (r: string)
    ensures |r| > 0 && Trimmed(r)
  {
    if n < 0 then "-" + ShowNat(-n) else ShowNat(n)
  }

  /** `String(v ?? '').trim()`. */
  function Shown(v: Value): (r: string)
    ensures Trimmed(r)
  {
    match v
    case Str(s) => Trim(s)
    case Int(n) => ShowInt(n)
    case Bool(b) => if b then "true" else "false"
    case Nil => ""
  }

  /** What `pickNonEmpty` returns for one value, if it stops there: `0`
      becomes "0", `false` is skipped, anything else counts when its trimmed
      text is not empty. */
  function Picked(v: Value): (o: Option<string>)
    ensures o.Some? ==> o.value != "" && Trimmed(o.value)
  {
    if v == Int(0) then Some("0")
    else if v == Bool(false) then None
    else if Shown(v) != "" then Some(Shown(v))
    else None
  }

  /** `pickNonEmpty`: the first value that is picked, as trimmed text, or the
      empty string when none is. */
  function PickNonEmpty(vals: seq<Value>): (r: string)
    ensures Trimmed(r)
    ensures r == "" <==> forall i :: 0 <= i < |vals| ==> Picked(vals[i]).None?
    ensures r != "" ==> exists i :: 0 <= i < |vals| && Picked(vals[i]) == Some(r)
                                    && forall j :: 0 <= j < i ==> Picked(vals[j]).None?
    decreases |vals|
  {
    if |vals| == 0 then ""
    else if Picked(vals[0]).Some? then Picked(vals[0]).value
    else
      var r := PickNonEmpty(vals[1..]);
      PickedPastHead(vals, Picked, r);
      r
  }

  /** Passing over an unpicked head keeps what the rest of the list yields. */
  lemma PickedPastHead<T>(xs: seq<T>, pick: T -> Option<string>, r: string)
    requires |xs| > 0 && pick(xs[0]).None?
    requires r == "" <==> forall i :: 0 <= i < |xs| - 1 ==> pick(xs[1..][i]).None?
    requires r != "" ==> exists i :: 0 <= i < |xs| - 1 && pick(xs[1..][i]) == Some(r)
                                    && forall j :: 0 <= j < i ==> pick(xs[1..][j]).None?
    ensures r == "" <==> forall i :: 0 <= i < |xs| ==> pick(xs[i]).None?
    ensures r != "" ==> exists i :: 0 <= i < |xs| && pick(xs[i]) == Some(r)
                                    && forall j :: 0 <= j < i ==> pick(xs[j]).None?
  {
    var rest := xs[1..];
    assert forall i :: 1 <= i < |xs| ==> xs[i] == rest[i - 1];
    if r != "" {
      var i :| 0 <= i < |rest| && pick(rest[i]) == Some(r)
               && forall j :: 0 <= j < i ==> pick(rest[j]).None?;
      assert pick(xs[i + 1]) == Some(r);
    }
  }

  /** The special cases at the head of the list: a `0` stops the search with
      "0", while `false` and a missing value are passed over. */
  lemma PickNonEmptyHead(rest: seq<Value>)
    ensures PickNonEmpty([Int(0)] + rest) == "0"
    ensures PickNonEmpty([Bool(false)] + rest) == PickNonEmpty(rest)
    ensures PickNonEmpty([Nil] + rest) == PickNonEmpty(rest)
  {
    PickNonEmptyCons(Int(0), rest);
    PickNonEmptyCons(Bool(false), rest);
    PickNonEmptyCons(Nil, rest);
  }

  /** One step of the scan. */
  lemma PickNonEmptyCons(v: Value, rest: seq<Value>)
    ensures PickNonEmpty([v] + rest) == if Picked(v).Some? then Picked(v).value else PickNonEmpty(rest)
  {
    assert ([v] + rest)[0] == v && ([v] + rest)[1..] == rest;
  }

  /** The accepted spellings of "yes". */
  const TruthyWords: seq<string> := ["y", "yes", "true", "1", "t", "committed", "deploy", "deployed"]

  /** `isTruthy`: one of the accepted spellings, ignoring case and surrounding
      white space. */
  function IsTruthy(v: string): (b: bool)
    ensures b ==> !Blank(v)
  {
    Lower(Trim(v)) in TruthyWords
  }

  /** Only case and padding are ignored: the verdict of a string is that of
      its trimmed and lower-cased form. */
  lemma IsTruthyNormalized(v: string)
    ensures IsTruthy(Lower(v)) == IsTruthy(v)
    ensures IsTruthy(Trim(v)) == IsTruthy(v)
  {
    TrimLower(v);
    LowerIdempotent(Trim(v));
    TrimIdempotent(v);
  }

  /** Upper-casing a value does not change its verdict. */
  lemma IsTruthyUpper(v: string)
    ensures IsTruthy(Upper(v)) == IsTruthy(v)
  {
    IsTruthyNormalized(Upper(v));
    IsTruthyNormalized(v);
    LowerOfUpper(v);
  }

  /** Every accepted spelling is truthy, as written, upper-cased and padded
      with spaces. */
  lemma IsTruthyWord(i: nat)
    requires i < |TruthyWords|
    ensures var w := TruthyWords[i];
            IsTruthy(w) && IsTruthy(Upper(w)) && IsTruthy(" " + w + " ")
  {
    var w := TruthyWords[i];
    assert w != "" && Trimmed(w) && forall j :: 0 <= j < |w| ==> !('A' <= w[j] <= 'Z');
    TrimOfTrimmed(w);
    LowerOfLower(w);
    IsTruthyUpper(w);
    TrimPadded(w);
  }

  /** No accepted spelling starts with `n`, `f` or `0`, so `n`, `no`,
      `false`, `0` and the like are not truthy in any case or padding. */
  lemma IsTruthyRejects(v: string)
    requires Trim(v) != "" && LowerChar(Trim(v)[0]) in ['n', 'f', '0']
    ensures !IsTruthy(v)
  {
    var s := Lower(Trim(v));
    assert s[0] == LowerChar(Trim(v)[0]);
    NotTruthyWord(s);
  }

  lemma NotTruthyWord(s: string)
    requires |s| > 0 && s[0] in ['n', 'f', '0']
    ensures s !in TruthyWords
  {
    forall i | 0 <= i < |TruthyWords| ensures TruthyWords[i] != s {
      TruthyInitial(i);
    }
  }

  /** The initials of the accepted spellings. */
  lemma TruthyInitial(i: nat)
    requires i < |TruthyWords|
    ensures |TruthyWords[i]| > 0 && TruthyWords[i][0] in ['y', 't', '1', 'c', 'd']
  {
  }

  // ---------------------------------------------------------------------------
  // statusClass (app.js:392-399)
  // ---------------------------------------------------------------------------

  datatype StatusClass = Unknown | Warn | Ok

  /** A word of the status that marks a Marine as away or leaving. */
  predicate AwayStatus(s: string) {
    || Contains(s, "tad") || Contains(s, "leave") || Contains(s, "limdu") || Contains(s, "med")
    || Contains(s, "eas") || Contains(s, "pcs") || Contains(s, "sep") || Contains(s, "terminal")
  }

  /** `statusClass`: unknown only for the empty status (a status of spaces is
      not trimmed and reads as ok), a warning when its lower-cased text names
      an absence, ok otherwise. */
  function StatusOf(status: string): (c: StatusClass)
    ensures c == Unknown <==> status == ""
    ensures c == Warn <==> status != "" && AwayStatus(Lower(status))
  {
    var s := Lower(status);
    if s == "" then Unknown
    else if Contains(s, "tad") || Contains(s, "leave") || Contains(s, "limdu") || Contains(s, "med") then Warn
    else if Contains(s, "eas") || Contains(s, "pcs") || Contains(s, "sep") || Contains(s, "terminal") then Warn
    else Ok
  }

  /** The class ignores case. */
  lemma StatusOfLower(status: string)
    ensures StatusOf(Lower(status)) == StatusOf(status)
  {
    LowerIdempotent(status);
  }

  // ---------------------------------------------------------------------------
  // pltDisplayLabel, mosCategory (app.js:517-535)
  // ---------------------------------------------------------------------------

  /** `pltDisplayLabel`: headquarters, under whatever spelling, show as `HQ`;
      any other platoon shows trimmed. */
  function PltDisplayLabel(plt: string): (r: string)
    ensures r != "" && Trimmed(r)
    ensures r == "HQ" || r == Trim(plt)
    ensures r == "HQ" <==> (Blank(plt) || Lower(Trim(plt)) == "hq"
                            || Contains(Lower(Trim(plt)), "headquarters"))
  {
    LabelOfTrimmed(Trim(plt))
  }

  /** The label of an already trimmed platoon name. */
  function LabelOfTrimmed(s: string): (r: string)
    requires Trimmed(s)
    ensures r != "" && Trimmed(r)
    ensures r == "HQ" || r == s
    ensures r == "HQ" <==> (s == "" || Lower(s) == "hq" || Contains(Lower(s), "headquarters"))
  {
    if s == "" then "HQ"
    else
      var low := Lower(s);
      if low == "hq" || Contains(low, "headquarters") then "HQ"
      else
        LowerHQ(s);
        s
  }

  lemma LowerHQ(s: string)
    requires Lower(s) != "hq"
    ensures s != "HQ"
  {
  }

  /** Showing a shown label again changes nothing. */
  lemma PltDisplayLabelIdempotent(plt: string)
    ensures PltDisplayLabel(PltDisplayLabel(plt)) == PltDisplayLabel(plt)
  {
    var r := PltDisplayLabel(plt);
    TrimOfTrimmed(r);
    LabelOfTrimmedIdempotent(Trim(plt));
  }

  lemma LabelOfTrimmedIdempotent(s: string)
    requires Trimmed(s)
    ensures LabelOfTrimmed(LabelOfTrimmed(s)) == LabelOfTrimmed(s)
  {
    if LabelOfTrimmed(s) == "HQ" {
      assert Lower("HQ") == "hq";
    }
  }

  datatype MosCategory = Radio | Transmission | Data | Network | Neutral

  /** Four digits start at index `i` of `s`. */
  predicate DigitsAt(s: string, i: nat) {
    i + 4 <= |s| && AllDigits(s[i..i + 4])
  }

  /** `s.match(/\d{4}/)`: where the leftmost run of four digits starts. */
  function FourDigits(s: string): (o: Option<nat>)
    ensures o.Some? ==> DigitsAt(s, o.value)
    ensures o.Some? ==> forall j :: 0 <= j < o.value ==> !DigitsAt(s, j)
    ensures o.None? ==> forall j :: 0 <= j ==> !DigitsAt(s, j)
    decreases |s|
  {
    if |s| < 4 then None
    else if AllDigits(s[..4]) then Some(0)
    else
      var o := FourDigits(s[1..]);
      assert !DigitsAt(s, 0);
      forall j | 1 <= j ensures DigitsAt(s, j) == DigitsAt(s[1..], j - 1) {
        if j + 4 <= |s| {
          assert s[j..j + 4] == s[1..][j - 1..j + 3];
        }
      }
      if o.Some? then Some(o.value + 1) else None
  }

  /** The category a code names by its start. */
  function CodeCategory(d: string): MosCategory {
    if "0621" <= d then Radio
    else if "0627" <= d || "0629" <= d then Transmission
    else if "0671" <= d || "0679" <= d then Data
    else if "0631" <= d || "0639" <= d then Network
    else Neutral
  }

  /** `mosCategory`: the category of the first four-digit run of the trimmed
      MOS, or of the whole trimmed text when it has none. */
  function MosCategoryOf(mos: string): (c: MosCategory)
    ensures Blank(mos) ==> c == Neutral
    ensures !Blank(mos) && FourDigits(Trim(mos)).Some? ==>
              var k := FourDigits(Trim(mos)).value;
              c == CodeCategory(Trim(mos)[k..k + 4])
    ensures !Blank(mos) && FourDigits(Trim(mos)).None? ==> c == CodeCategory(Trim(mos))
  {
    var s := Trim(mos);
    if s == "" then Neutral
    else
      var digits := match FourDigits(s) case Some(k) => s[k..k + 4] case None => s;
      CodeCategory(digits)
  }

  /** A normalised MOS (four or more digits) is categorised by its first four
      digits alone. */
  lemma MosCategoryOfCode(mos: string)
    requires |mos| >= 4 && AllDigits(mos)
    ensures MosCategoryOf(mos) == CodeCategory(mos[..4])
  {
    assert Trimmed(mos);
    TrimOfTrimmed(mos);
    assert DigitsAt(mos, 0);
  }
}

=== FILE: fields.dfy ===
/**
 * Parsed CSV rows and the field resolver `getField` (app.js:1193-1200).
 */
module Fields {
  import opened Text
  import opened Options

  /** One parsed record: header text paired with its cell, in first-occurrence
      header order, each header once (a JavaScript object built by assignment). */
  type Row = seq<(string, string)>

  function KeysOf(row: Row): (ks: seq<string>)
    ensures |ks| == |row|
    ensures forall i :: 0 <= i < |row| ==> ks[i] == row[i].0
  {
    seq(|row|, i requires 0 <= i < |row| => row[i].0)
  }

  predicate UniqueKeys(row: Row) {
    forall i, j :: 0 <= i < j < |row| ==> row[i].0 != row[j].0
  }

  /** `row[k]`: the cell stored under exactly the key `k`, if any. */
  function Get(row: Row, k: string): (r: Option<string>)
    ensures r.None? <==> k !in KeysOf(row)
    ensures r.Some? ==> exists i :: 0 <= i < |row| && row[i] == (k, r.value)
  {
    if |row| == 0 then None
    else if row[0].0 == k then Some(row[0].1)
    else
      var r := Get(row[1..], k);
      assert KeysOf(row) == [row[0].0] + KeysOf(row[1..]);
      assert r.Some? ==> exists i :: 0 <= i < |row| && row[i] == (k, r.value) by {
        if r.Some? {
          var i :| 0 <= i < |row[1..]| && row[1..][i] == (k, r.value);
          assert row[i + 1] == (k, r.value);
        }
      }
      r
  }

  /** The keys of a row with a first entry: its key, then the rest. */
  lemma KeysOfCons(x: (string, string), t: Row)
    ensures KeysOf([x] + t) == [x.0] + KeysOf(t)
    ensures forall k :: k in KeysOf([x] + t) <==> k == x.0 || k in KeysOf(t)
  {
    assert KeysOf([x] + t) == [x.0] + KeysOf(t);
  }

  /** Lookup in a row with a first entry: that entry, or the rest of the row. */
  lemma GetCons(x: (string, string), t: Row, k: string)
    ensures Get([x] + t, k) == if x.0 == k then Some(x.1) else Get(t, k)
  {
    assert ([x] + t)[1..] == t;
  }

  /** A row with a first entry has unique keys exactly when the rest has and
      does not repeat the first key. */
  lemma UniqueKeysCons(x: (string, string), t: Row)
    ensures UniqueKeys([x] + t) <==> x.0 !in KeysOf(t) && UniqueKeys(t)
  {
    var r := [x] + t;
    if UniqueKeys(r) {
      forall j | 0 <= j < |t| ensures KeysOf(t)[j] != x.0 {
        assert r[j + 1] == t[j];
        assert r[0].0 != r[j + 1].0;
      }
      forall i, j | 0 <= i < j < |t| ensures t[i].0 != t[j].0 {
        assert r[i + 1] == t[i] && r[j + 1] == t[j];
      }
    }
    if x.0 !in KeysOf(t) && UniqueKeys(t) {
      forall i, j | 0 <= i < j < |r| ensures r[i].0 != r[j].0 {
        assert r[j] == t[j - 1];
        if i > 0 {
          assert r[i] == t[i - 1];
        } else {
          assert KeysOf(t)[j - 1] == t[j - 1].0;
        }
      }
    }
  }

  /** In a row with unique keys the entry at position `i` is what `Get` finds. */
  lemma {:induction false} GetAt(row: Row, i: nat)
    requires UniqueKeys(row) && i < |row|
    ensures Get(row, row[i].0) == Some(row[i].1)
    decreases i
  {
    if i > 0 {
      GetAt(row[1..], i - 1);
    }
  }

  /** Header comparison of the fallback scan: trimmed and lower-cased. */
  function Fold(s: string): string {
    Lower(Trim(s))
  }

  predicate LooseEq(a: string, b: string) {
    Fold(a) == Fold(b)
  }

  /** Position of the first occurrence of `x` in `xs`. */
  function FirstIndex(xs: seq<string>, x: string): (r: Option<nat>)
    ensures r.Some? ==> r.value < |xs| && xs[r.value] == x
    ensures r.Some? ==> forall j :: 0 <= j < r.value ==> xs[j] != x
    ensures r.None? ==> forall j :: 0 <= j < |xs| ==> xs[j] != x
  {
    if |xs| == 0 then None
    else if xs[0] == x then Some(0)
    else
      var r := FirstIndex(xs[1..], x);
      assert forall j :: 1 <= j < |xs| ==> xs[j] == xs[1..][j - 1];
      match r
      case Some(i) => Some(i + 1)
      case None => None
  }

  /** The folded keys of a row, in row order. */
  function FoldedKeys(row: Row): (ks: seq<string>)
    ensures |ks| == |row|
    ensures forall i :: 0 <= i < |row| ==> ks[i] == Fold(row[i].0)
  {
    seq(|row|, i requires 0 <= i < |row| => Fold(row[i].0))
  }

  /** Position of the first key of the row, in row order, loosely equal to
      `n` (`Object.keys(row).find(...)`). */
  function FirstLooseIndex(row: Row, n: string): (r: Option<nat>)
    ensures r.Some? ==> r.value < |row| && LooseEq(row[r.value].0, n)
    ensures r.Some? ==> forall j :: 0 <= j < r.value ==> !LooseEq(row[j].0, n)
    ensures r.None? ==> forall j :: 0 <= j < |row| ==> !LooseEq(row[j].0, n)
  {
    FirstIndex(FoldedKeys(row), Fold(n))
  }

  /** What one candidate name yields: the exact key's cell when it is not
      blank, otherwise the cell of the first loosely equal key when that key is
      not the empty string and its cell is not blank. */
  function Hit(row: Row, n: string): (r: Option<string>)
    ensures r.Some? ==> !Blank(r.value)
    ensures r.Some? ==> exists i :: 0 <= i < |row| && row[i].1 == r.value
                                  && (row[i].0 == n || LooseEq(row[i].0, n))
    ensures Get(row, n).Some? && !Blank(Get(row, n).value) ==> r == Get(row, n)
  {
    var exact := Get(row, n);
    if exact.Some? && !Blank(exact.value) then exact
    else
      match FirstLooseIndex(row, n)
      case Some(i) =>
        var k := row[i].0;
        var v := Get(row, k);
        if k != "" && v.Some? && !Blank(v.value) then v else None
      case None => None
  }

  /** When the exact key gives nothing, only the first loosely equal key is
      consulted: its cell is the hit when the key is not empty and the cell is
      not blank, and otherwise there is no hit, whatever later loosely equal
      keys hold. Without a loosely equal key there is no hit. */
  lemma HitLoose(row: Row, n: string)
    requires UniqueKeys(row)
    requires Get(row, n).None? || Blank(Get(row, n).value)
    ensures FirstLooseIndex(row, n).None? ==> Hit(row, n).None?
    ensures FirstLooseIndex(row, n).Some? ==>
              var i := FirstLooseIndex(row, n).value;
              Hit(row, n) == if row[i].0 != "" && !Blank(row[i].1) then Some(row[i].1) else None
  {
    if FirstLooseIndex(row, n).Some? {
      GetAt(row, FirstLooseIndex(row, n).value);
    }
  }

  /** The first present value of a list of lookups, or the empty string. */
  function FirstPresent(hs: seq<Option<string>>): (r: string)
    requires forall i :: 0 <= i < |hs| && hs[i].Some? ==> hs[i].value != ""
    ensures r == "" <==> forall i :: 0 <= i < |hs| ==> hs[i].None?
    ensures r != "" ==> exists i :: 0 <= i < |hs| && hs[i] == Some(r)
                                  && forall j :: 0 <= j < i ==> hs[j].None?
  {
    if |hs| == 0 then ""
    else if hs[0].Some? then hs[0].value
    else
      var r := FirstPresent(hs[1..]);
      assert forall i :: 1 <= i < |hs| ==> hs[i] == hs[1..][i - 1];
      assert r != "" ==> exists i :: 0 <= i < |hs| && hs[i] == Some(r)
                                  && forall j :: 0 <= j < i ==> hs[j].None? by {
        if r != "" {
          var i :| 0 <= i < |hs[1..]| && hs[1..][i] == Some(r)
                 && forall j :: 0 <= j < i ==> hs[1..][j].None?;
          assert hs[i + 1] == Some(r);
        }
      }
      r
  }

  /** What each candidate yields, in candidate order. */
  function HitsOf(row: Row, names: seq<string>): (hs: seq<Option<string>>)
    ensures |hs| == |names|
    ensures forall i :: 0 <= i < |names| ==> hs[i] == Hit(row, names[i])
  {
    seq(|names|, i requires 0 <= i < |names| => Hit(row, names[i]))
  }

  lemma {:induction false} FirstPresentAppend(a: seq<Option<string>>, b: seq<Option<string>>)
    requires forall i :: 0 <= i < |a| && a[i].Some? ==> a[i].value != ""
    requires forall i :: 0 <= i < |b| && b[i].Some? ==> b[i].value != ""
    ensures forall i :: 0 <= i < |a + b| && (a + b)[i].Some? ==> (a + b)[i].value != ""
    ensures FirstPresent(a + b) == if FirstPresent(a) != "" then FirstPresent(a) else FirstPresent(b)
    decreases |a|
  {
    assert forall i :: 0 <= i < |a + b| ==> (a + b)[i] == if i < |a| then a[i] else b[i - |a|];
    if |a| == 0 {
      assert a + b == b;
    } else {
      assert (a + b)[1..] == a[1..] + b;
      FirstPresentAppend(a[1..], b);
    }
  }

  /** `getField(row, names)`: the value of the earliest candidate that hits, or
      the empty string when none does. */
  function GetField(row: Row, names: seq<string>): (r: string)
    ensures r == "" <==> forall i :: 0 <= i < |names| ==> Hit(row, names[i]).None?
    ensures r != "" ==> exists i :: 0 <= i < |names| && Hit(row, names[i]) == Some(r)
                                  && forall j :: 0 <= j < i ==> Hit(row, names[j]).None?
    ensures r != "" ==> !Blank(r) && exists i :: 0 <= i < |row| && row[i].1 == r
  {
    var hs := HitsOf(row, names);
    var r := FirstPresent(hs);
    assert r != "" ==> !Blank(r) && exists i :: 0 <= i < |row| && row[i].1 == r by {
      if r != "" {
        var i :| 0 <= i < |hs| && hs[i] == Some(r);
        assert Hit(row, names[i]) == Some(r);
      }
    }
    r
  }

  /** Trying two candidate lists one after the other is trying their
      concatenation: the second list is consulted only when the first yields
      nothing. */
  lemma GetFieldAppend(row: Row, a: seq<string>, b: seq<string>)
    ensures GetField(row, a + b) == if GetField(row, a) != "" then GetField(row, a) else GetField(row, b)
  {
    assert HitsOf(row, a + b) == HitsOf(row, a) + HitsOf(row, b);
    FirstPresentAppend(HitsOf(row, a), HitsOf(row, b));
  }

  /** A single candidate yields its hit, or the empty string. */
  lemma GetFieldSingle(row: Row, n: string)
    ensures GetField(row, [n]) == Hit(row, n).GetOr("")
  {
    assert [n][1..] == [];
  }

  /** When no key of the row equals a candidate, exactly or loosely, with a
      cell that is not blank, the resolver yields the empty string. */
  lemma {:induction false} GetFieldMiss(row: Row, names: seq<string>)
    requires forall i, k :: (0 <= i < |names| && 0 <= k < |row|
               && (row[k].0 == names[i] || LooseEq(row[k].0, names[i]))) ==> Blank(row[k].1)
    ensures GetField(row, names) == ""
  {
    forall i | 0 <= i < |names| ensures Hit(row, names[i]).None? {
    }
  }
}

=== FILE: filters.dfy ===
/**
 * The search box (`applyFilter`, app.js:1106-1113) and the drill-down scope of
 * the hierarchy view (`withinNav`, app.js:483-488, applied to the roster at
 * app.js:678).
 */
module Filters {
  import opened Text
  import opened Seqs
  import opened Record

  // ---------------------------------------------------------------------------
  // applyFilter
  // ---------------------------------------------------------------------------

  /** The query as compared: trimmed and lower-cased. */
  function Query(q: string): (r: string)
    ensures Trimmed(r)
    ensures forall i :: 0 <= i < |r| ==> !('A' <= r[i] <= 'Z')
    ensures r == "" <==> Blank(q)
  {
    LowerTrimmed(Trim(q));
    Lower(Trim(q))
  }

  /** A query already in compared form is compared as it stands. */
  lemma QueryIdempotent(q: string)
    ensures Query(Query(q)) == Query(q)
  {
    QueryOfCompared(Query(q));
  }

  lemma QueryOfCompared(c: string)
    requires Trimmed(c) && forall i :: 0 <= i < |c| ==> !('A' <= c[i] <= 'Z')
    ensures Query(c) == c
  {
    TrimOfTrimmed(c);
    LowerOfLower(c);
  }

  /** The text a query is searched in: rank, names, MOS and email separated by
      single spaces, lower-cased. */
  function Haystack(m: Marine): (h: string)
    ensures forall i :: 0 <= i < |h| ==> !('A' <= h[i] <= 'Z')
    ensures h == Lower(m.rank) + " " + Lower(m.firstName) + " " + Lower(m.lastName)
                 + " " + Lower(m.mos) + " " + Lower(m.email)
  {
    var a := m.rank + " " + m.firstName;
    var b := a + " " + m.lastName;
    var c := b + " " + m.mos;
    LowerSpaced(c, m.email);
    LowerSpaced(b, m.mos);
    LowerSpaced(a, m.lastName);
    LowerSpaced(m.rank, m.firstName);
    Lower(c + " " + m.email)
  }

  /** A Marine is kept when the query is empty or its haystack contains it. */
  predicate Keeps(q: string, m: Marine) {
    q == "" || Contains(Haystack(m), q)
  }

  /** `applyFilter`: the Marines the query keeps, in roster order. */
  function ApplyFilter(roster: seq<Marine>, query: string): (r: seq<Marine>)
    ensures Query(query) == "" ==> r == roster
    ensures Subseq(r, roster)
    ensures forall m :: m in r <==> m in roster && Keeps(Query(query), m)
    ensures forall m :: m in r ==> multiset(r)[m] == multiset(roster)[m]
  {
    var q := Query(query);
    Filter(roster, m => Keeps(q, m))
  }

  /** Filtering twice with the same query is filtering once. */
  lemma ApplyFilterIdempotent(roster: seq<Marine>, query: string)
    ensures ApplyFilter(ApplyFilter(roster, query), query) == ApplyFilter(roster, query)
  {
    var r := ApplyFilter(roster, query);
    var q := Query(query);
    assert forall m :: m in r ==> Keeps(q, m);
  }

  /** `includes` is transitive: a needle inside a needle of `hay` is inside
      `hay`. */
  lemma ContainsTransitive(hay: string, mid: string, needle: string)
    requires Contains(hay, mid) && Contains(mid, needle)
    ensures Contains(hay, needle)
  {
    var i := ContainsWitness(hay, mid);
    var j := ContainsWitness(mid, needle);
    var w := hay[i..i + |mid|];
    assert forall k :: 0 <= k < |mid| ==> w[k] == hay[i + k];
    assert hay[i + j..i + j + |needle|] == mid[j..j + |needle|];
    ContainsAt(hay, needle, i + j);
  }

  /** Typing more narrows the result: every Marine a longer query keeps is kept
      by any query it contains. */
  lemma ApplyFilterNarrows(roster: seq<Marine>, short: string, long: string)
    requires Contains(Query(long), Query(short))
    ensures forall m :: m in ApplyFilter(roster, long) ==> m in ApplyFilter(roster, short)
  {
    forall m | m in ApplyFilter(roster, long)
      ensures m in ApplyFilter(roster, short)
    {
      if Query(short) != "" && Query(long) != "" {
        ContainsTransitive(Haystack(m), Query(long), Query(short));
      }
    }
  }

  /** Searching for a Marine's own last name finds that Marine. */
  lemma ApplyFilterFindsLastName(roster: seq<Marine>, m: Marine)
    requires m in roster
    ensures m in ApplyFilter(roster, m.lastName)
  {
    if Query(m.lastName) != "" {
      HaystackHasLastName(m);
      QueryInside(m.lastName);
      ContainsTransitive(Haystack(m), Lower(m.lastName), Query(m.lastName));
    }
  }

  /** The lower-cased last name stands in the haystack after rank and first
      name. */
  lemma HaystackHasLastName(m: Marine)
    ensures Contains(Haystack(m), Lower(m.lastName))
  {
    var h := Haystack(m);
    var pre := Lower(m.rank) + " " + Lower(m.firstName) + " ";
    var l := Lower(m.lastName);
    assert h[|pre|..|pre| + |l|] == l;
    ContainsAt(h, l, |pre|);
  }

  /** The compared form of a text lies inside its lower-cased form. */
  lemma QueryInside(s: string)
    ensures Contains(Lower(s), Query(s))
  {
    TrimLower(s);
    ContainsTrim(Lower(s));
  }

  // ---------------------------------------------------------------------------
  // withinNav
  // ---------------------------------------------------------------------------

  /** The drill-down position: a platoon, squad and team, each empty when not
      chosen. */
  datatype Nav = Nav(plt: string, squad: string, team: string)

  /** One level of the position: unset, or equal to the Marine's value once
      both are trimmed. */
  predicate LevelMatches(value: string, want: string) {
    want == "" || Trim(value) == Trim(want)
  }

  /** `withinNav`: the Marine lies inside every level the position sets. */
  function WithinNav(m: Marine, nav: Nav): (b: bool)
    ensures nav == Nav("", "", "") ==> b
    ensures b ==> (nav.plt != "" ==> Trim(m.plt) == Trim(nav.plt))
    ensures b ==> (nav.squad != "" ==> Trim(m.squad) == Trim(nav.squad))
    ensures b ==> (nav.team != "" ==> Trim(m.team) == Trim(nav.team))
    ensures (LevelMatches(m.plt, nav.plt) && LevelMatches(m.squad, nav.squad)
             && LevelMatches(m.team, nav.team)) ==> b
  {
    if nav.plt != "" && Trim(m.plt) != Trim(nav.plt) then false
    else if nav.squad != "" && Trim(m.squad) != Trim(nav.squad) then false
    else if nav.team != "" && Trim(m.team) != Trim(nav.team) then false
    else true
  }

  /** Every Marine lies inside the position made of its own platoon, squad and
      team. */
  lemma WithinOwnNav(m: Marine)
    ensures WithinNav(m, Nav(m.plt, m.squad, m.team))
  {
  }

  /** A Marine inside a position is inside the position with its deepest
      level dropped: going up a level only widens the scope. */
  lemma WithinNavWidens(m: Marine, nav: Nav)
    requires WithinNav(m, nav)
    ensures WithinNav(m, nav.(team := ""))
    ensures WithinNav(m, nav.(squad := "", team := ""))
  {
  }

  /** `roster.filter(m => withinNav(m, nav))`. */
  function Scope(roster: seq<Marine>, nav: Nav): (r: seq<Marine>)
    ensures Subseq(r, roster)
    ensures forall m :: m in r <==> m in roster && WithinNav(m, nav)
    ensures forall m :: m in r ==> multiset(r)[m] == multiset(roster)[m]
  {
    Filter(roster, m => WithinNav(m, nav))
  }

  /** The scope of a team lies inside the scope of its squad, and that inside
      the scope of its platoon. */
  lemma ScopeNested(roster: seq<Marine>, nav: Nav)
    ensures forall m :: m in Scope(roster, nav) ==> m in Scope(roster, nav.(team := ""))
    ensures forall m :: m in Scope(roster, nav.(team := "")) ==> m in Scope(roster, nav.(squad := "", team := ""))
  {
    forall m | m in Scope(roster, nav) ensures m in Scope(roster, nav.(team := "")) {
      WithinNavWidens(m, nav);
    }
    forall m | m in Scope(roster, nav.(team := ""))
      ensures m in Scope(roster, nav.(squad := "", team := ""))
    {
      WithinNavWidens(m, nav.(team := ""));
    }
  }
}

=== FILE: grouping.dfy ===
/**
 * The roster as a platoon / squad / team tree (`groupRoster`, app.js:100-132)
 * and the display orders of its levels (`pltOrder` inside it, `squadOrder`
 * and `teamOrder`, app.js:551-566). Only the platoon level and the Marines of
 * each team are sorted; squads and teams keep the order in which the roster
 * first names them.
 */
module Grouping {
  import opened Text
  import opened Order
  import opened Seqs
  import opened Record

  // ---------------------------------------------------------------------------
  // Level orders (app.js:112-118, 551-566)
  // ---------------------------------------------------------------------------

  /** `pltOrder`: numbered platoons first, then anything unrecognised, then
      headquarters. */
  function PltOrder(k: string): (o: int)
    ensures o in {1, 2, 3, 50, 99}
    ensures Contains(Lower(k), "1st") <==> o == 1
    ensures o == 2 <==> !Contains(Lower(k), "1st") && Contains(Lower(k), "2nd")
    ensures o == 3 <==> !Contains(Lower(k), "1st") && !Contains(Lower(k), "2nd")
                        && Contains(Lower(k), "3rd")
    ensures o == 99 <==> !Contains(Lower(k), "1st") && !Contains(Lower(k), "2nd")
                         && !Contains(Lower(k), "3rd") && Contains(Lower(k), "hq")
  {
    var s := Lower(k);
    if Contains(s, "1st") then 1
    else if Contains(s, "2nd") then 2
    else if Contains(s, "3rd") then 3
    else if Contains(s, "hq") then 99
    else 50
  }

  /** `squadOrder`: the first of the digits 1, 2, 3 the name contains. */
  function SquadOrder(k: string): (o: int)
    ensures o in {1, 2, 3, 50}
    ensures o == 50 <==> '1' !in k && '2' !in k && '3' !in k
    ensures o == 1 <==> '1' in k
    ensures o == 2 <==> '1' !in k && '2' in k
    ensures o == 3 <==> '1' !in k && '2' !in k && '3' in k
  {
    var s := Lower(k);
    LowerDigits(k);
    if '1' in s then 1
    else if '2' in s then 2
    else if '3' in s then 3
    else 50
  }

  /** Lower-casing leaves digits where they are. */
  lemma LowerDigits(k: string)
    ensures forall d :: IsDigit(d) ==> (d in Lower(k) <==> d in k)
  {
    forall d | IsDigit(d) ensures d in Lower(k) <==> d in k {
      if d in k {
        var i :| 0 <= i < |k| && k[i] == d;
        assert Lower(k)[i] == d;
      }
      if d in Lower(k) {
        var i :| 0 <= i < |Lower(k)| && Lower(k)[i] == d;
        assert k[i] == d;
      }
    }
  }

  /** `/\b<d>\b/`: the digit stands alone, with no word character on either
      side. */
  predicate StandaloneDigit(s: string, d: char) {
    exists i :: 0 <= i < |s| && s[i] == d
                && (i == 0 || !IsWordChar(s[i - 1]))
                && (i == |s| - 1 || !IsWordChar(s[i + 1]))
  }

  /** The name mentions `team` and a standalone 1 or 2. */
  predicate Numbered(s: string) {
    Contains(s, "team") && (StandaloneDigit(s, '1') || StandaloneDigit(s, '2'))
  }

  /** `teamOrder`: numbered teams 1 and 2 first, then unrecognised names, then
      `No Team`, then `Unassigned`. */
  function TeamOrder(k: string): (o: int)
    ensures o in {1, 2, 50, 98, 99}
    ensures o == 1 <==> Contains(Lower(k), "team") && StandaloneDigit(Lower(k), '1')
    ensures o == 2 <==> Contains(Lower(k), "team") && !StandaloneDigit(Lower(k), '1')
                        && StandaloneDigit(Lower(k), '2')
    ensures o == 98 <==> !Numbered(Lower(k)) && Contains(Lower(k), "no team")
    ensures o == 99 <==> !Numbered(Lower(k)) && !Contains(Lower(k), "no team")
                         && Contains(Lower(k), "unassigned")
  {
    var s := Lower(k);
    if Contains(s, "team") && StandaloneDigit(s, '1') then 1
    else if Contains(s, "team") && StandaloneDigit(s, '2') then 2
    else if Contains(s, "no team") then 98
    else if Contains(s, "unassigned") then 99
    else 50
  }

  /** A name without the digit 1 (2, 3) cannot mention `1st` (`2nd`, `3rd`),
      so its ordinal alone places the platoon: `2nd` before `3rd` before
      headquarters. */
  lemma PltOrderByOrdinal(k: string)
    ensures '1' !in k && Contains(Lower(k), "2nd") ==> PltOrder(k) == 2
    ensures '1' !in k && '2' !in k && Contains(Lower(k), "3rd") ==> PltOrder(k) == 3
    ensures '1' !in k && '2' !in k && '3' !in k && Contains(Lower(k), "hq") ==> PltOrder(k) == 99
  {
    LowerDigits(k);
    if '1' !in k { NotContainsChar(Lower(k), "1st", '1'); }
    if '2' !in k { NotContainsChar(Lower(k), "2nd", '2'); }
    if '3' !in k { NotContainsChar(Lower(k), "3rd", '3'); }
  }

  /** The defaults of the team level: a name without the digits 1 and 2 that
      mentions `no team` sorts at 98, and one that mentions `unassigned` but
      not `team` at 99, after it. */
  lemma TeamOrderOfDefaults(k: string)
    ensures '1' !in k && '2' !in k && Contains(Lower(k), "no team") ==> TeamOrder(k) == 98
    ensures !Contains(Lower(k), "team") && Contains(Lower(k), "unassigned") ==> TeamOrder(k) == 99
  {
    LowerDigits(k);
    if Contains(Lower(k), "no team") {
      assert "no " + "team" == "no team";
      ContainsSuffix(Lower(k), "no ", "team");
    }
  }

  // ---------------------------------------------------------------------------
  // groupRoster (app.js:100-132)
  // ---------------------------------------------------------------------------

  /** `m.plt || 'HQ'`. */
  function PltPath(m: Marine): string {
    if m.plt != "" then m.plt else "HQ"
  }

  /** `m.squad || 'Unassigned'`. */
  function SquadPath(m: Marine): string {
    if m.squad != "" then m.squad else "Unassigned"
  }

  /** The given team if it is not blank; else `No Team` for a Marine with a
      squad and `Unassigned` for one without. */
  function TeamPath(m: Marine): string {
    if m.team != "" && Trim(m.team) != "" then m.team
    else if m.squad != "" && Trim(m.squad) != "" then "No Team"
    else "Unassigned"
  }

  /** A team and its Marines; a squad and its teams; a platoon and its
      squads. */
  type TeamGroup = Group<string, seq<Marine>>
  type SquadGroup = Group<string, seq<TeamGroup>>
  type PltGroup = Group<string, seq<SquadGroup>>

  /** Members of a team in `lastName firstName` code-point order. */
  function MemberKey(m: Marine): seq<int> {
    Codes(m.lastName + " " + m.firstName)
  }

  /** Platoons by `pltOrder`, then by name. */
  function PltKey(k: string): seq<int> {
    [PltOrder(k)] + Codes(k)
  }

  /** The Marines of one team, sorted by name. */
  function SortMembers(ms: seq<Marine>): (r: seq<Marine>)
    ensures SortedBy(r, MemberKey)
    ensures multiset(r) == multiset(ms)
  {
    SortBy(ms, MemberKey)
  }

  /** The teams of some Marines in order of first appearance. */
  function TeamsOf(ms: seq<Marine>): seq<TeamGroup> {
    Buckets(ms, Keys(ms, TeamPath), TeamPath, SortMembers)
  }

  /** The squads of some Marines in order of first appearance. */
  function SquadsOf(ms: seq<Marine>): seq<SquadGroup> {
    Buckets(ms, Keys(ms, SquadPath), SquadPath, TeamsOf)
  }

  /** The platoon names of the roster, sorted by `pltOrder` and name. */
  function PltNames(roster: seq<Marine>): (ks: seq<string>)
    ensures SortedBy(ks, PltKey)
    ensures NoDups(ks)
    ensures forall k :: k in ks <==> exists m :: m in roster && PltPath(m) == k
  {
    var names := Keys(roster, PltPath);
    var ks := SortBy(names, PltKey);
    NoDupsPermutation(ks, names);
    assert forall k :: k in ks <==> k in names by {
      forall k ensures k in ks <==> k in names {
        assert k in ks <==> k in multiset(ks);
      }
    }
    ks
  }

  /** `groupRoster`: platoon, then squad, then team. There is one group per
      platoon name, in sorted order, and each is built from exactly the
      Marines of that platoon. */
  function GroupRoster(roster: seq<Marine>): (g: seq<PltGroup>)
    ensures |g| == |PltNames(roster)|
    ensures forall i :: 0 <= i < |g| ==> g[i].key == PltNames(roster)[i]
    ensures forall i :: 0 <= i < |g| ==> g[i].items == SquadsOf(Bucket(roster, PltPath, g[i].key))
  {
    Buckets(roster, PltNames(roster), PltPath, SquadsOf)
  }

  /** Platoon names are distinct. */
  lemma GroupRosterDistinct(roster: seq<Marine>, i: nat, j: nat)
    requires i < j < |GroupRoster(roster)|
    ensures GroupRoster(roster)[i].key != GroupRoster(roster)[j].key
  {
    var ks := PltNames(roster);
    assert ks[i] != ks[j];
  }

  /** A platoon shown before another has no larger `pltOrder`; in particular
      headquarters (99) come after every numbered platoon. */
  lemma GroupRosterOrder(roster: seq<Marine>, i: nat, j: nat)
    requires i < j < |GroupRoster(roster)|
    ensures PltOrder(GroupRoster(roster)[i].key) <= PltOrder(GroupRoster(roster)[j].key)
  {
    var ks := PltNames(roster);
    assert LexLe(PltKey(ks[i]), PltKey(ks[j]));
    LexLeCons(PltOrder(ks[i]), Codes(ks[i]), PltOrder(ks[j]), Codes(ks[j]));
  }

  /** Every Marine of the roster has its platoon in the tree. */
  lemma GroupRosterCovers(roster: seq<Marine>, m: Marine)
    requires m in roster
    ensures exists i :: 0 <= i < |GroupRoster(roster)| && GroupRoster(roster)[i].key == PltPath(m)
  {
    var gs := GroupRoster(roster);
    var ks := PltNames(roster);
    assert PltPath(m) in ks;
    var a :| 0 <= a < |ks| && ks[a] == PltPath(m);
    assert gs[a].key == PltPath(m);
  }

  /** Under its platoon, a Marine of the roster sits, with all its copies, in
      the team of its own squad and team path. */
  lemma GroupRosterPlaces(roster: seq<Marine>, m: Marine, i: nat)
    requires m in roster
    requires i < |GroupRoster(roster)| && GroupRoster(roster)[i].key == PltPath(m)
    ensures var ss := GroupRoster(roster)[i].items;
            exists s, t :: 0 <= s < |ss| && ss[s].key == SquadPath(m)
                           && 0 <= t < |ss[s].items| && ss[s].items[t].key == TeamPath(m)
                           && multiset(ss[s].items[t].items)[m] == multiset(roster)[m]
  {
    var ks := PltNames(roster);
    assert GroupRoster(roster)[i].items == SquadsOf(Bucket(roster, PltPath, ks[i]));
    PlacedInPlatoon(roster, m);
  }

  /** Inside its platoon's squads, a Marine sits with all its copies in the
      team of its squad and team path. */
  lemma PlacedInPlatoon(roster: seq<Marine>, m: Marine)
    requires m in roster
    ensures var ss := SquadsOf(Bucket(roster, PltPath, PltPath(m)));
            exists s, t :: 0 <= s < |ss| && ss[s].key == SquadPath(m)
                           && 0 <= t < |ss[s].items| && ss[s].items[t].key == TeamPath(m)
                           && multiset(ss[s].items[t].items)[m] == multiset(roster)[m]
  {
    var inPlt := Bucket(roster, PltPath, PltPath(m));
    var ss := SquadsOf(inPlt);
    var sk := Keys(inPlt, SquadPath);
    assert m in inPlt;
    var s :| 0 <= s < |sk| && sk[s] == SquadPath(m);
    var inSquad := Bucket(inPlt, SquadPath, SquadPath(m));
    assert m in inSquad;
    var ts := TeamsOf(inSquad);
    assert ss[s].items == ts;
    var tk := Keys(inSquad, TeamPath);
    var t :| 0 <= t < |tk| && tk[t] == TeamPath(m);
    var inTeam := Bucket(inSquad, TeamPath, TeamPath(m));
    assert ts == Buckets(inSquad, tk, TeamPath, SortMembers);
    assert |ts| == |tk|;
    assert ts[t].items == SortMembers(Bucket(inSquad, TeamPath, tk[t]));
    assert ts[t].items == SortMembers(inTeam);
    assert multiset(inTeam)[m] == multiset(roster)[m];
  }

  /** Every Marine in the tree comes from the roster and sits under its own
      platoon, squad and team path. */
  lemma GroupRosterPaths(roster: seq<Marine>, i: nat, s: nat, t: nat, m: Marine)
    requires i < |GroupRoster(roster)|
    requires s < |GroupRoster(roster)[i].items|
    requires t < |GroupRoster(roster)[i].items[s].items|
    requires m in GroupRoster(roster)[i].items[s].items[t].items
    ensures m in roster
    ensures PltPath(m) == GroupRoster(roster)[i].key
    ensures SquadPath(m) == GroupRoster(roster)[i].items[s].key
    ensures TeamPath(m) == GroupRoster(roster)[i].items[s].items[t].key
  {
    var g := GroupRoster(roster)[i];
    var inPlt := Bucket(roster, PltPath, g.key);
    var sq := g.items[s];
    var inSquad := Bucket(inPlt, SquadPath, sq.key);
    var tm := sq.items[t];
    var inTeam := Bucket(inSquad, TeamPath, tm.key);
    assert tm.items == SortMembers(inTeam);
    assert m in multiset(tm.items);
    assert m in inTeam;
  }

  /** The Marines of every team are in name order. */
  lemma GroupRosterMembersSorted(roster: seq<Marine>, i: nat, s: nat, t: nat)
    requires i < |GroupRoster(roster)|
    requires s < |GroupRoster(roster)[i].items|
    requires t < |GroupRoster(roster)[i].items[s].items|
    ensures SortedBy(GroupRoster(roster)[i].items[s].items[t].items, MemberKey)
  {
    var g := GroupRoster(roster)[i];
    var inPlt := Bucket(roster, PltPath, g.key);
    var sq := g.items[s];
    var inSquad := Bucket(inPlt, SquadPath, sq.key);
    var tm := sq.items[t];
    assert tm.items == SortMembers(Bucket(inSquad, TeamPath, tm.key));
  }
}

=== FILE: options.dfy ===
/** The optional-value type used wherever the dashboard returns `null` or `undefined`. */
module Options {

  datatype Option<+T> = None | Some(value: T) {

    /** Returns the held value, or `default` when there is none. */
    function GetOr(default: T): T {
      match this
      case Some(v) => v
      case None => default
    }
  }
}

=== FILE: order.dfy ===
/**
 * Ordering used by the dashboard's sorts. Every comparator in the source
 * compares a small integer first and then a string with `localeCompare`; both
 * are captured by one sort key, a sequence of integers compared
 * lexicographically, with the string's code points standing in for its
 * collation.
 */
module Order {

  /** Lexicographic order on integer sequences; a proper prefix comes first. */
  predicate LexLe(a: seq<int>, b: seq<int>)
    decreases |a|
  {
    |a| == 0 || (|b| > 0 && (a[0] < b[0] || (a[0] == b[0] && LexLe(a[1..], b[1..]))))
  }

  lemma {:induction false} LexLeTotal(a: seq<int>, b: seq<int>)
    ensures LexLe(a, b) || LexLe(b, a)
    decreases |a|
  {
    if |a| > 0 && |b| > 0 && a[0] == b[0] {
      LexLeTotal(a[1..], b[1..]);
    }
  }

  lemma {:induction false} LexLeTransitive(a: seq<int>, b: seq<int>, c: seq<int>)
    requires LexLe(a, b) && LexLe(b, c)
    ensures LexLe(a, c)
    decreases |a|
  {
    if |a| > 0 && a[0] == b[0] && b[0] == c[0] {
      LexLeTransitive(a[1..], b[1..], c[1..]);
    }
  }

  lemma {:induction false} LexLeAntisymmetric(a: seq<int>, b: seq<int>)
    requires LexLe(a, b) && LexLe(b, a)
    ensures a == b
    decreases |a|
  {
    if |a| > 0 {
      LexLeAntisymmetric(a[1..], b[1..]);
      assert a == [a[0]] + a[1..] && b == [b[0]] + b[1..];
    }
  }

  /** A key whose first entry is compared before the rest. */
  lemma LexLeCons(x: int, a: seq<int>, y: int, b: seq<int>)
    ensures LexLe([x] + a, [y] + b) <==> x < y || (x == y && LexLe(a, b))
  {
    assert ([x] + a)[1..] == a && ([y] + b)[1..] == b;
  }

  /** The code points of a string, the stand-in for its collation key. */
  function Codes(s: string): (r: seq<int>)
    ensures |r| == |s|
    ensures forall i :: 0 <= i < |s| ==> r[i] == s[i] as int
  {
    seq(|s|, i requires 0 <= i < |s| => s[i] as int)
  }

  /** Different strings have different keys, so two distinct strings are
      never tied by the string part of a comparator. */
  lemma CodesInjective(s: string, t: string)
    requires Codes(s) == Codes(t)
    ensures s == t
  {
    assert |s| == |Codes(s)| == |t|;
    forall i | 0 <= i < |s| ensures s[i] == t[i] {
      assert Codes(s)[i] == Codes(t)[i];
    }
  }

  /** `s` is in ascending key order. */
  ghost predicate SortedBy<T>(s: seq<T>, key: T -> seq<int>) {
    forall i, j {:trigger LexLe(key(s[i]), key(s[j]))} :: 0 <= i < j < |s| ==> LexLe(key(s[i]), key(s[j]))
  }

  /** Places `x` in front of the first element whose key is not below it,
      which keeps equal keys in their original order. */
  function Insert<T>(x: T, s: seq<T>, key: T -> seq<int>): (r: seq<T>)
    requires SortedBy(s, key)
    ensures SortedBy(r, key)
    ensures multiset(r) == multiset(s) + multiset{x}
    ensures |r| == |s| + 1
  {
    if |s| == 0 then [x]
    else if LexLe(key(x), key(s[0])) then
      forall j | 0 <= j < |s| ensures LexLe(key(x), key(s[j])) {
        if j > 0 { LexLeTransitive(key(x), key(s[0]), key(s[j])); }
      }
      SortedCons(x, s, key);
      [x] + s
    else
      LexLeTotal(key(x), key(s[0]));
      var t := Insert(x, s[1..], key);
      HeadBelowTail(s, key);
      forall j | 0 <= j < |t| ensures LexLe(key(s[0]), key(t[j])) {
        assert t[j] in multiset(t);
      }
      SortedCons(s[0], t, key);
      MultisetCons(s);
      [s[0]] + t
  }

  lemma SortedPair<T>(s: seq<T>, key: T -> seq<int>, i: nat, j: nat)
    requires SortedBy(s, key) && i < j < |s|
    ensures LexLe(key(s[i]), key(s[j]))
  {
  }

  /** An element at or below everything in a sorted sequence can go in front. */
  lemma SortedCons<T>(y: T, t: seq<T>, key: T -> seq<int>)
    requires SortedBy(t, key)
    requires forall j :: 0 <= j < |t| ==> LexLe(key(y), key(t[j]))
    ensures SortedBy([y] + t, key)
  {
    var r := [y] + t;
    forall i, j | 0 <= i < j < |r| ensures LexLe(key(r[i]), key(r[j])) {
      assert r[j] == t[j - 1];
      if i > 0 { assert r[i] == t[i - 1]; }
    }
  }

  /** The head of a sorted sequence is at or below everything after it. */
  lemma HeadBelowTail<T>(s: seq<T>, key: T -> seq<int>)
    requires |s| > 0 && SortedBy(s, key)
    ensures forall y :: y in multiset(s[1..]) ==> LexLe(key(s[0]), key(y))
  {
    forall y | y in multiset(s[1..]) ensures LexLe(key(s[0]), key(y)) {
      var k :| 0 <= k < |s[1..]| && s[1..][k] == y;
      assert s[k + 1] == y;
    }
  }

  lemma MultisetCons<T>(s: seq<T>)
    requires |s| > 0
    ensures multiset(s) == multiset{s[0]} + multiset(s[1..])
  {
    assert s == [s[0]] + s[1..];
  }

  /** A stable insertion sort by key (`Array.prototype.sort` with a comparator
      that compares the keys): the result is in key order and holds exactly
      the elements of `s`. */
  function SortBy<T>(s: seq<T>, key: T -> seq<int>): (r: seq<T>)
    ensures SortedBy(r, key)
    ensures multiset(r) == multiset(s)
    ensures |r| == |s|
  {
    if |s| == 0 then []
    else
      assert s == [s[0]] + s[1..];
      Insert(s[0], SortBy(s[1..], key), key)
  }
  /** The elements of `s` whose key is `k`, in their order. */
  function WithKey<T>(s: seq<T>, key: T -> seq<int>, k: seq<int>): (r: seq<T>)
    ensures forall j :: 0 <= j < |r| ==> key(r[j]) == k
    ensures |r| <= |s|
    decreases |s|
  {
    if |s| == 0 then []
    else (if key(s[0]) == k then [s[0]] else []) + WithKey(s[1..], key, k)
  }

  lemma WithKeyCons<T>(y: T, t: seq<T>, key: T -> seq<int>, k: seq<int>)
    ensures WithKey([y] + t, key, k) == (if key(y) == k then [y] else []) + WithKey(t, key, k)
  {
    assert ([y] + t)[1..] == t;
  }

  /** Inserting `x` puts it in front of every element with the same key. */
  lemma {:induction false} InsertWithKey<T>(x: T, s: seq<T>, key: T -> seq<int>, k: seq<int>)
    requires SortedBy(s, key)
    ensures WithKey(Insert(x, s, key), key, k) == (if key(x) == k then [x] else []) + WithKey(s, key, k)
    decreases |s|
  {
    if |s| == 0 {
      WithKeyCons(x, [], key, k);
      assert [x] + [] == [x];
    } else if LexLe(key(x), key(s[0])) {
      WithKeyCons(x, s, key, k);
    } else {
      LexLeTotal(key(x), key(x));
      assert key(s[0]) != key(x);
      var t := Insert(x, s[1..], key);
      assert Insert(x, s, key) == [s[0]] + t;
      InsertWithKey(x, s[1..], key, k);
      WithKeyCons(s[0], t, key, k);
    }
  }

  /** The sort is stable: the elements with any one key come out in the order
      they went in. */
  lemma {:induction false} SortByStable<T>(s: seq<T>, key: T -> seq<int>, k: seq<int>)
    ensures WithKey(SortBy(s, key), key, k) == WithKey(s, key, k)
    decreases |s|
  {
    if |s| > 0 {
      SortByStable(s[1..], key, k);
      InsertWithKey(s[0], SortBy(s[1..], key), key, k);
    }
  }
}

=== FILE: record.dfy ===
/**
 * The record builder: one parsed roster row becomes one Marine record
 * (`rowToMarine`, app.js:1329-1386), with MOS clean-up (`normalizeMOS`,
 * app.js:1586-1599), name splitting (`parseMarineName` and `KNOWN_RANKS`,
 * app.js:1601-1625) and the fixed rubric-by-area score matrix.
 */
module Record {
  import opened Text
  import opened Fields
  import opened Rubrics
  import opened AreaValue

  // ---------------------------------------------------------------------------
  // MOS codes (app.js:1586-1599)
  // ---------------------------------------------------------------------------

  /** `/^\d+(\.\d+)?$/`: digits, optionally followed by a dot and more digits. */
  predicate DecimalNumeral(s: string) {
    if '.' in s then
      var i := IndexOf(s, '.');
      0 < i < |s| - 1 && AllDigits(s[..i]) && AllDigits(s[i + 1..])
    else
      |s| > 0 && AllDigits(s)
  }

  /** The digits in front of the dot of a decimal numeral. */
  function WholePart(s: string): (w: string)
    requires DecimalNumeral(s)
    ensures |w| > 0 && AllDigits(w)
  {
    if '.' in s then s[..IndexOf(s, '.')] else s
  }

  /** `normalizeMOS`: the trimmed value without commas; a decimal numeral is
      replaced by the decimal form of its integer part (`Math.floor` of
      `parseFloat`, which drops leading zeros and the fraction); then only the
      digits are kept, left-padded with zeros to four. */
  function NormalizeMOS(value: string): (m: string)
    ensures m == "" || (|m| >= 4 && AllDigits(m))
    ensures m == "" <==> OnlyDigits(value) == ""
  {
    var d := MosDigits(value);
    if d == "" then ""
    else if |d| < 4 then PadZeros(d, 4)
    else d
  }

  /** The digits `normalizeMOS` keeps before padding: those of the integer
      part of a decimal numeral, or else all those of the value. */
  function MosDigits(value: string): (d: string)
    ensures AllDigits(d)
    ensures d == "" <==> OnlyDigits(value) == ""
  {
    var t := Trim(value);
    OnlyDigitsTrim(value);
    if t == "" then ""
    else
      var s := RemoveChar(t, ',');
      OnlyDigitsRemove(t, ',');
      OnlyDigits(if DecimalNumeral(s) then ShowNat(DigitsValue(WholePart(s))) else s)
  }

  /** Outside the decimal-numeral case the code denotes the number written by
      all the digits of the value; for a decimal numeral it denotes the integer
      part. */
  lemma NormalizeMOSValue(value: string)
    requires NormalizeMOS(value) != ""
    ensures var s := RemoveChar(Trim(value), ',');
            DigitsValue(NormalizeMOS(value))
            == if DecimalNumeral(s) then DigitsValue(WholePart(s)) else DigitsValue(OnlyDigits(value))
  {
    var t := Trim(value);
    var s := RemoveChar(t, ',');
    OnlyDigitsTrim(value);
    OnlyDigitsRemove(t, ',');
    assert DigitsValue(NormalizeMOS(value)) == DigitsValue(MosDigits(value));
  }

  /** A well-formed code (four digits, or more without a leading zero) comes
      back unchanged; in particular every four-digit MOS code does. */
  lemma NormalizeMOSOfCode(m: string)
    requires |m| >= 4 && AllDigits(m) && (|m| > 4 ==> m[0] != '0')
    ensures NormalizeMOS(m) == m
  {
    MosDigitsOfDigits(m);
    var n := ShowNat(DigitsValue(m));
    if |m| == 4 {
      DigitsValueBound(m);
      ShowNatLength(DigitsValue(m), 4);
      DigitsValueInjective(PadZeros(n, 4), m);
    } else {
      ShowNatOfDigits(m);
    }
  }

  /** A plain numeral is a decimal numeral: its digits are those of its
      number. */
  lemma MosDigitsOfDigits(m: string)
    requires |m| > 0 && AllDigits(m)
    ensures MosDigits(m) == ShowNat(DigitsValue(m))
  {
    DigitsPlain(m);
    TrimOfTrimmed(m);
    assert !IsDigit(',') && !IsDigit('.');
    assert RemoveChar(m, ',') == m;
    assert DecimalNumeral(m) && WholePart(m) == m;
  }

  // ---------------------------------------------------------------------------
  // Names (app.js:1601-1625)
  // ---------------------------------------------------------------------------

  /** `KNOWN_RANKS`: enlisted, warrant and commissioned grade abbreviations,
      upper case and without dots. */
  const KnownRanks: seq<string> := [
    "PVT", "PFC", "LCPL", "CPL", "SGT", "SSGT", "GYSGT", "MSGT", "1STSGT", "SGTMAJ", "MGYSGT",
    "WO1", "CWO2", "CWO3", "CWO4", "CWO5",
    "2NDLT", "1STLT", "CAPT", "MAJ", "LTCOL", "COL", "BGEN", "MGEN", "LTGEN", "GEN"]

  /** `xs.includes(x)`, scanning from the front. */
  predicate Listed(x: string, xs: seq<string>)
    decreases |xs|
  {
    |xs| > 0 && (xs[0] == x || Listed(x, xs[1..]))
  }

  lemma {:induction false} ListedIff(x: string, xs: seq<string>)
    ensures Listed(x, xs) <==> x in xs
    decreases |xs|
  {
    if |xs| > 0 {
      ListedIff(x, xs[1..]);
      assert xs == [xs[0]] + xs[1..];
    }
  }

  /** A token names a rank when, upper-cased and without dots, it is known. */
  predicate IsRankToken(t: string) {
    Listed(RemoveChar(Upper(t), '.'), KnownRanks)
  }

  datatype NameParts = NameParts(rank: string, firstName: string, lastName: string)

  /** Non-empty pieces without white space. */
  predicate Words(ws: seq<string>) {
    forall k :: 0 <= k < |ws| ==> |ws[k]| > 0 && NoSpace(ws[k])
  }

  /** `raw.replace(/\s+/g, ' ').split(' ')` on the trimmed full name. */
  function NameTokens(full: string): (ts: seq<string>)
    ensures |ts| > 0
    ensures !Blank(full) ==> Words(ts)
    ensures Join(ts, " ") == Collapse(Trim(full))
  {
    var s := Collapse(Trim(full));
    var ts := SplitOn(s, ' ');
    if Blank(full) then ts
    else
      SplitWords(s);
      ts
  }

  /** How the name pieces after the rank become first and last name: none
      give empty names; a single piece is the first name with an empty last
      name; of several, the last is the last name and the others, joined by
      spaces, the first name. */
  predicate SplitsAs(p: NameParts, names: seq<string>) {
    && (|names| == 0 ==> p.firstName == "" && p.lastName == "")
    && (|names| == 1 ==> p.firstName == names[0] && p.lastName == "")
    && (|names| >= 2 ==> p.lastName == names[|names| - 1]
                         && p.firstName == Join(names[..|names| - 1], " "))
  }

  /** The name pieces after the rank, split into first and last name. */
  function NamesFrom(rank: string, names: seq<string>): (p: NameParts)
    ensures p.rank == rank
    ensures Words(names) ==> NoSpace(p.lastName)
    ensures Words(names) ==> (p.lastName != "" ==> p.firstName != "")
    ensures SplitsAs(p, names)
  {
    if |names| == 0 then NameParts(rank, "", "")
    else if |names| == 1 then NameParts(rank, names[0], "")
    else NameParts(rank, Join(names[..|names| - 1], " "), names[|names| - 1])
  }

  /** The name tokens split into rank, first and last name, given the trimmed
      fallback rank: the first token is the rank when no rank was given and
      it is a known one. */
  function SplitName(parts: seq<string>, given: string): (p: NameParts)
    requires |parts| > 0 && Words(parts)
    ensures given == "" && IsRankToken(parts[0]) ==> p.rank == parts[0]
    ensures !(given == "" && IsRankToken(parts[0])) ==> p.rank == given
    ensures NoSpace(p.lastName)
    ensures p.lastName != "" ==> p.firstName != ""
    ensures SplitsAs(p, if given == "" && IsRankToken(parts[0]) then parts[1..] else parts)
  {
    if given == "" && IsRankToken(parts[0]) then NamesFrom(parts[0], parts[1..])
    else NamesFrom(given, parts)
  }

  /** Joining non-empty words gives a non-empty string. */
  lemma JoinNonEmpty(ws: seq<string>)
    requires |ws| > 0 && |ws[0]| > 0
    ensures Join(ws, " ") != ""
  {
  }

  /** The name without the rank, rebuilt from its first and last parts. */
  function GivenNames(p: NameParts): string {
    p.firstName + (if p.lastName == "" then "" else " " + p.lastName)
  }

  /** First and last name put back together are the pieces joined by spaces. */
  lemma NamesFromRebuild(rank: string, names: seq<string>)
    requires |names| >= 2 ==> names[|names| - 1] != ""
    ensures GivenNames(NamesFrom(rank, names)) == Join(names, " ")
  {
    if |names| >= 2 {
      JoinLast(names, " ");
    }
  }

  /** With the rank token in front, the join is the rank, then the first and
      last name. */
  lemma RankedRebuild(rank: string, names: seq<string>)
    requires forall k :: 0 <= k < |names| ==> names[k] != ""
    ensures var g := GivenNames(NamesFrom(rank, names));
            Join([rank] + names, " ") == rank + (if g == "" then "" else " " + g)
  {
    NamesFromRebuild(rank, names);
    var g := GivenNames(NamesFrom(rank, names));
    if |names| == 0 {
      assert [rank] + names == [rank];
    } else {
      JoinNonEmpty(names);
      JoinCons(rank, names, " ");
      assert g == Join(names, " ") != "";
    }
  }

  /** The parts put back together give the tokens joined by spaces: the rank
      token when it was taken, then the first name, then the last name. */
  lemma SplitNameRebuild(parts: seq<string>, given: string)
    requires |parts| > 0 && Words(parts)
    ensures var p := SplitName(parts, given);
            Join(parts, " ")
            == if given == "" && IsRankToken(parts[0])
               then p.rank + (if GivenNames(p) == "" then "" else " " + GivenNames(p))
               else GivenNames(p)
  {
    RebuildParts(parts, given, given == "" && IsRankToken(parts[0]));
  }

  /** The rebuild, for either choice of whether the first token is the rank. */
  lemma RebuildParts(parts: seq<string>, given: string, taken: bool)
    requires |parts| > 0 && Words(parts)
    ensures var p := if taken then NamesFrom(parts[0], parts[1..]) else NamesFrom(given, parts);
            Join(parts, " ")
            == if taken then p.rank + (if GivenNames(p) == "" then "" else " " + GivenNames(p))
               else GivenNames(p)
  {
    if taken {
      WordsTail(parts);
      RankedRebuild(parts[0], parts[1..]);
    } else {
      NamesFromRebuild(given, parts);
    }
  }

  /** The tokens after the first are non-empty, and follow the first. */
  lemma WordsTail(parts: seq<string>)
    requires |parts| > 0 && Words(parts)
    ensures forall k :: 0 <= k < |parts[1..]| ==> parts[1..][k] != ""
    ensures [parts[0]] + parts[1..] == parts
  {
    assert forall k :: 0 <= k < |parts[1..]| ==> parts[1..][k] == parts[k + 1];
  }

  /** The leading token is read as the rank: no fallback rank was given and
      the token is a known rank. */
  predicate TakesRank(full: string, fallbackRank: string) {
    !Blank(full) && Blank(fallbackRank) && IsRankToken(NameTokens(full)[0])
  }

  /** The name tokens left once the rank token, if read, is dropped. */
  function NamesAfterRank(full: string, fallbackRank: string): (names: seq<string>)
    requires !Blank(full)
    ensures Words(names)
  {
    var ts := NameTokens(full);
    if TakesRank(full, fallbackRank) then ts[1..] else ts
  }

  /** `parseMarineName(full, fallbackRank)`. */
  function ParseMarineName(full: string, fallbackRank: string): (p: NameParts)
    ensures Blank(full) ==> p == NameParts(fallbackRank, "", "")
    ensures !Blank(full) && !TakesRank(full, fallbackRank) ==> p.rank == Trim(fallbackRank)
    ensures TakesRank(full, fallbackRank) ==> p.rank == NameTokens(full)[0] && IsRankToken(p.rank)
    ensures NoSpace(p.lastName)
    ensures p.lastName != "" ==> p.firstName != ""
    ensures !Blank(full) ==> SplitsAs(p, NamesAfterRank(full, fallbackRank))
  {
    var raw := Trim(full);
    if raw == "" then NameParts(fallbackRank, "", "")
    else SplitName(NameTokens(full), Trim(fallbackRank))
  }

  /** The parts put back together give the full name, trimmed and with each
      run of white space made a single space. */
  lemma ParseMarineNameRebuild(full: string, fallbackRank: string)
    requires !Blank(full)
    ensures var p := ParseMarineName(full, fallbackRank);
            Collapse(Trim(full))
            == if TakesRank(full, fallbackRank)
               then p.rank + (if GivenNames(p) == "" then "" else " " + GivenNames(p))
               else GivenNames(p)
  {
    SplitNameRebuild(NameTokens(full), Trim(fallbackRank));
  }

  // ---------------------------------------------------------------------------
  // The record (app.js:1329-1390)
  // ---------------------------------------------------------------------------

  /** One cell of the score matrix. */
  datatype AreaScore = AreaScore(key: AreaKey, areaLabel: string, score: real, notes: string, meta: AreaMeta)

  datatype Rubric = Rubric(id: RubricId, areas: seq<AreaScore>)

  datatype Marine = Marine(
    id: string, rank: string, firstName: string, lastName: string,
    email: string, section: string, plt: string, squad: string, team: string,
    mos: string, billet: string, status: string,
    rubrics: seq<Rubric>, raw: Row)

  /** The matrix has every rubric in `RUBRIC_KEYS` order, each with every area
      in `AREA_KEYS` order, and every score in [0, 100]. */
  predicate WellShaped(rs: seq<Rubric>) {
    && |rs| == |RubricKeys|
    && (forall i :: 0 <= i < |rs| ==> rs[i].id == RubricKeys[i] && |rs[i].areas| == |AreaKeys|)
    && (forall i, j :: 0 <= i < |rs| && 0 <= j < |rs[i].areas| ==>
          rs[i].areas[j].key == AreaKeys[j] && 0.0 <= rs[i].areas[j].score <= 100.0)
  }

  /** `makeEmptyRubric`: every area of the rubric scored 0, with no notes or
      evaluation details. */
  function MakeEmptyRubric(r: RubricId): (e: Rubric)
    ensures e.id == r && |e.areas| == |AreaKeys|
    ensures forall j :: 0 <= j < |e.areas| ==>
              e.areas[j] == AreaScore(AreaKeys[j], AreaLabel(AreaKeys[j]), 0.0, "", AreaMeta("", ""))
  {
    Rubric(r, seq(|AreaKeys|, j requires 0 <= j < |AreaKeys| =>
      AreaScore(AreaKeys[j], AreaLabel(AreaKeys[j]), 0.0, "", AreaMeta("", ""))))
  }

  /** The resolved cell for one rubric and area. */
  function AreaCell(row: Row, r: RubricId, a: AreaKey): (c: AreaScore)
    ensures c.key == a && 0.0 <= c.score <= 100.0
  {
    AreaScore(a, AreaLabel(a), GetAreaValueFromRow(row, r, a), GetAreaNotesFromRow(row, r, a),
              GetAreaMetaFromRow(row, r, a))
  }

  function RubricOf(row: Row, r: RubricId): (rb: Rubric)
    ensures rb.id == r && |rb.areas| == |AreaKeys|
    ensures forall j :: 0 <= j < |AreaKeys| ==> rb.areas[j] == AreaCell(row, r, AreaKeys[j])
  {
    Rubric(r, seq(|AreaKeys|, j requires 0 <= j < |AreaKeys| => AreaCell(row, r, AreaKeys[j])))
  }

  function RubricsOf(row: Row): (rs: seq<Rubric>)
    ensures WellShaped(rs)
    ensures forall i :: 0 <= i < |rs| ==> rs[i] == RubricOf(row, RubricKeys[i])
  {
    seq(|RubricKeys|, i requires 0 <= i < |RubricKeys| => RubricOf(row, RubricKeys[i]))
  }

  const RankKeys: seq<string> := ["Rank", "rank"]
  const FirstNameKeys: seq<string> := ["First Name", "first name", "First", "firstname"]
  const LastNameKeys: seq<string> := ["Last Name", "last name", "Last", "lastname"]
  const FullNameKeys: seq<string> := ["Marine Name", "MarineName", "Name", "Full Name", "FullName", "Marine"]
  const EmailKeys: seq<string> := ["Email", "email"]
  const EdipiKeys: seq<string> := ["EDIPI", "edipi", "DoD ID", "DOD ID"]
  const MosKeys: seq<string> := ["MOS", "mos", "Mos", "MOS Code", "MOS code"]
  const BilletKeys: seq<string> := ["Billet", "billet"]
  const SectionKeys: seq<string> := ["Section", "section", "SECTION", "PLT", "Plt", "plt"]
  const SquadKeys: seq<string> := ["Squad", "squad"]
  const TeamKeys: seq<string> := ["Team", "team"]
  const StatusKeys: seq<string> := ["Status", "status", "Marine Status", "STATUS"]

  /** The rank, first and last name columns are kept when they are not
      empty, and are all there is unless both name columns are empty and a
      full name is given. */
  predicate KeepsColumns(p: NameParts, rank: string, first: string, last: string, full: string) {
    && (rank != "" ==> p.rank == rank)
    && (first != "" ==> p.firstName == first)
    && (last != "" ==> p.lastName == last)
    && (first != "" || last != "" || full == "" ==> p == NameParts(rank, first, last))
  }

  /** The name fields: the rank, first and last name columns, and, when both
      name columns are empty, the split of a full-name column, each part used
      only where its column was empty. */
  function Names(row: Row): (p: NameParts)
    ensures KeepsColumns(p, GetField(row, RankKeys), GetField(row, FirstNameKeys),
                         GetField(row, LastNameKeys), GetField(row, FullNameKeys))
  {
    var rank := GetField(row, RankKeys);
    var first := GetField(row, FirstNameKeys);
    var last := GetField(row, LastNameKeys);
    var full := GetField(row, FullNameKeys);
    if first == "" && last == "" && full != "" then
      var parsed := ParseMarineName(full, rank);
      NameParts(if rank != "" then rank else parsed.rank,
                if first != "" then first else parsed.firstName,
                if last != "" then last else parsed.lastName)
    else NameParts(rank, first, last)
  }

  /** With both name columns empty, the full-name column is split: the rank
      column, else a leading rank token; the last remaining token as the last
      name and the others as the first name. */
  lemma NamesOfFullName(row: Row)
    requires GetField(row, FirstNameKeys) == "" && GetField(row, LastNameKeys) == ""
    requires GetField(row, FullNameKeys) != ""
    ensures var full, rank := GetField(row, FullNameKeys), GetField(row, RankKeys);
            var p := Names(row);
            var names := NamesAfterRank(full, rank);
            && (rank != "" ==> p.rank == rank)
            && (rank == "" && TakesRank(full, rank) ==> p.rank == NameTokens(full)[0])
            && (rank == "" && !TakesRank(full, rank) ==> p.rank == "")
            && SplitsAs(p, names)
  {
    var full, rank := GetField(row, FullNameKeys), GetField(row, RankKeys);
    assert !Blank(full);
    if rank == "" {
      assert Trim(rank) == "";
    }
  }

  lemma TrimHQ()
    ensures Trim("HQ") == "HQ"
  {
    assert Trimmed("HQ") by { assert !IsSpace('H') && !IsSpace('Q'); }
    TrimOfTrimmed("HQ");
  }

  /** `(sectionRaw || 'HQ').toString().trim() || 'HQ'`: the trimmed section,
      or `HQ` when it is blank. */
  function Platoon(sectionRaw: string): (plt: string)
    ensures Blank(sectionRaw) ==> plt == "HQ"
    ensures !Blank(sectionRaw) ==> plt == Trim(sectionRaw)
  {
    var t := Trim(if sectionRaw != "" then sectionRaw else "HQ");
    TrimHQ();
    if t != "" then t else "HQ"
  }

  /** The trimmed squad, or `Platoon Staff` when it is blank. */
  function Squad(squadRaw: string): (squad: string)
    ensures Blank(squadRaw) ==> squad == "Platoon Staff"
    ensures !Blank(squadRaw) ==> squad == Trim(squadRaw)
  {
    if squadRaw != "" && Trim(squadRaw) != "" then Trim(squadRaw) else "Platoon Staff"
  }

  /** The trimmed team; when it is blank, `No Team` inside a squad and
      `Platoon Staff` for the platoon staff. */
  function Team(teamRaw: string, squad: string): (team: string)
    ensures !Blank(teamRaw) ==> team == Trim(teamRaw)
    ensures Blank(teamRaw) && (squad == "" || squad == "Platoon Staff") ==> team == "Platoon Staff"
    ensures Blank(teamRaw) && squad != "" && squad != "Platoon Staff" ==> team == "No Team"
  {
    if teamRaw != "" && Trim(teamRaw) != "" then Trim(teamRaw)
    else if squad != "" && squad != "Platoon Staff" then "No Team"
    else "Platoon Staff"
  }

  /** The identifier: the first non-empty of EDIPI and e-mail, else
      `last_first_mos`, trimmed. The fallback holds two underscores, so the
      identifier is empty only when a chosen value is white space. */
  function MarineId(edipi: string, email: string, last: string, first: string, mos: string): (id: string)
    ensures Trimmed(id)
    ensures edipi != "" ==> id == Trim(edipi)
    ensures edipi == "" && email != "" ==> id == Trim(email)
    ensures edipi == "" && email == "" ==> id == Trim(last + "_" + first + "_" + mos) && id != ""
  {
    var fallback := last + "_" + first + "_" + mos;
    assert !Blank(fallback) by { assert fallback[|last|] == '_'; }
    Trim(if edipi != "" then edipi else if email != "" then email else fallback)
  }

  /** Every record field that is not the id or a unit comes straight from
      its columns: the e-mail, billet and status cells as read, the name
      parts, the normalised MOS and the rubric scores. */
  predicate ReadFrom(m: Marine, row: Row) {
    && m.email == GetField(row, EmailKeys)
    && m.rank == Names(row).rank
    && m.firstName == Names(row).firstName
    && m.lastName == Names(row).lastName
    && m.mos == NormalizeMOS(GetField(row, MosKeys))
    && m.billet == GetField(row, BilletKeys)
    && m.status == GetField(row, StatusKeys)
    && m.rubrics == RubricsOf(row)
  }

  /** The record built from a row once its name parts, MOS and rubrics are
      read: the id chain and the unit defaults over the row's cells. */
  function Assemble(row: Row, p: NameParts, mos: string, rubrics: seq<Rubric>): (m: Marine)
    ensures m.id != "" && m.section == m.plt && m.raw == row && m.rubrics == rubrics
    ensures m.rank == p.rank && m.firstName == p.firstName && m.lastName == p.lastName && m.mos == mos
    ensures m.email == GetField(row, EmailKeys)
    ensures m.billet == GetField(row, BilletKeys) && m.status == GetField(row, StatusKeys)
    ensures GetField(row, EdipiKeys) != "" ==> m.id == Trim(GetField(row, EdipiKeys))
    ensures GetField(row, EdipiKeys) == "" && GetField(row, EmailKeys) != ""
            ==> m.id == Trim(GetField(row, EmailKeys))
    ensures GetField(row, EdipiKeys) == "" && GetField(row, EmailKeys) == ""
            ==> m.id == Trim(m.lastName + "_" + m.firstName + "_" + m.mos)
    ensures GetField(row, SectionKeys) == "" ==> m.plt == "HQ"
    ensures GetField(row, SectionKeys) != "" ==> m.plt == Trim(GetField(row, SectionKeys))
    ensures GetField(row, SquadKeys) == "" ==> m.squad == "Platoon Staff"
    ensures GetField(row, SquadKeys) != "" ==> m.squad == Trim(GetField(row, SquadKeys))
    ensures GetField(row, TeamKeys) != "" ==> m.team == Trim(GetField(row, TeamKeys))
    ensures GetField(row, TeamKeys) == "" && m.squad == "Platoon Staff" ==> m.team == "Platoon Staff"
    ensures GetField(row, TeamKeys) == "" && m.squad != "Platoon Staff" ==> m.team == "No Team"
  {
    var email := GetField(row, EmailKeys);
    var edipi := GetField(row, EdipiKeys);
    var plt := Platoon(GetField(row, SectionKeys));
    var squad := Squad(GetField(row, SquadKeys));
    var team := Team(GetField(row, TeamKeys), squad);
    Marine(MarineId(edipi, email, p.lastName, p.firstName, mos), p.rank, p.firstName, p.lastName,
           email, plt, plt, squad, team, mos, GetField(row, BilletKeys),
           GetField(row, StatusKeys), rubrics, row)
  }

  /** `rowToMarine`. */
  function RowToMarine(row: Row): (m: Marine)
    ensures m.id != "" && m.section == m.plt
    ensures m.mos == "" || (|m.mos| >= 4 && AllDigits(m.mos))
    ensures WellShaped(m.rubrics)
    ensures m.raw == row
    ensures GetField(row, EdipiKeys) != "" ==> m.id == Trim(GetField(row, EdipiKeys))
    ensures GetField(row, EdipiKeys) == "" && GetField(row, EmailKeys) != ""
            ==> m.id == Trim(GetField(row, EmailKeys))
    ensures GetField(row, EdipiKeys) == "" && GetField(row, EmailKeys) == ""
            ==> m.id == Trim(m.lastName + "_" + m.firstName + "_" + m.mos)
    ensures ReadFrom(m, row)
    ensures GetField(row, SectionKeys) == "" ==> m.plt == "HQ"
    ensures GetField(row, SectionKeys) != "" ==> m.plt == Trim(GetField(row, SectionKeys))
    ensures GetField(row, SquadKeys) == "" ==> m.squad == "Platoon Staff"
    ensures GetField(row, SquadKeys) != "" ==> m.squad == Trim(GetField(row, SquadKeys))
    ensures GetField(row, TeamKeys) != "" ==> m.team == Trim(GetField(row, TeamKeys))
    ensures GetField(row, TeamKeys) == "" && m.squad == "Platoon Staff" ==> m.team == "Platoon Staff"
    ensures GetField(row, TeamKeys) == "" && m.squad != "Platoon Staff" ==> m.team == "No Team"
  {
    Assemble(row, Names(row), NormalizeMOS(GetField(row, MosKeys)), RubricsOf(row))
  }

  /** A row without a score column gives the empty rubrics. */
  lemma RubricsOfEmptyRow(i: nat)
    requires i < |RubricKeys|
    ensures RubricsOf([])[i] == MakeEmptyRubric(RubricKeys[i])
  {
    var r := RubricKeys[i];
    forall j | 0 <= j < |AreaKeys| ensures RubricsOf([])[i].areas[j] == MakeEmptyRubric(r).areas[j] {
      var a := AreaKeys[j];
      AreaValueOfEmptyRow(r, a);
      GetFieldMiss([], NoteKeys(r, a));
      GetFieldMiss([], MetaKeys(r, a, "lastEval") + (MetaKeys(r, a, "last") + MetaKeys(r, a, "date")));
      GetFieldMiss([], MetaKeys(r, a, "evaluator") + MetaKeys(r, a, "who"));
    }
  }
}

=== FILE: rubrics.dfy ===
/**
 * The fixed score matrix: four rubrics (`RUBRIC_KEYS`, app.js:20) by five
 * proficiency areas (`AREA_KEYS` and `AREA_LABELS`, app.js:11-18), with the
 * column-name prefixes of each rubric (`PREFIX_BY_RUBRIC`, app.js:86-91).
 */
module Rubrics {
  import opened Text

  datatype RubricId = Radio | Satcom | Network | Data

  datatype AreaKey = Planning | Setup | Ops | Trouble | Security

  /** `RUBRIC_KEYS`, in display order. */
  const RubricKeys: seq<RubricId> := [Radio, Satcom, Network, Data]

  /** `AREA_KEYS`, in display order. */
  const AreaKeys: seq<AreaKey> := [Planning, Setup, Ops, Trouble, Security]

  lemma RubricKeysComplete(r: RubricId)
    ensures r in RubricKeys
  {
  }

  lemma AreaKeysComplete(a: AreaKey)
    ensures a in AreaKeys
  {
  }

  function RubricName(r: RubricId): string {
    match r
    case Radio => "0621-0629"
    case Satcom => "0627-0629"
    case Network => "0631-0639"
    case Data => "0671-0679"
  }

  function AreaName(a: AreaKey): string {
    match a
    case Planning => "planning"
    case Setup => "setup"
    case Ops => "ops"
    case Trouble => "trouble"
    case Security => "security"
  }

  function AreaLabel(a: AreaKey): string {
    match a
    case Planning => "Planning & Preparation"
    case Setup => "System Setup & Configuration"
    case Ops => "Operations & Employment"
    case Trouble => "Troubleshooting & Maintenance"
    case Security => "Security, Safety & Leadership"
  }

  /** `PREFIX_BY_RUBRIC`: the column-name prefixes tried for a rubric, in the
      order they are tried. */
  function Prefixes(r: RubricId): (ps: seq<string>)
    ensures |ps| == 5
  {
    match r
    case Radio => ["R0621", "0621", "RADIO", "0621/0629", "0621-0629"]
    case Satcom => ["R0627", "0627", "SATCOM", "0627/0629", "0627-0629"]
    case Network => ["R0631", "0631", "NETWORK", "0631/0639", "0631-0639"]
    case Data => ["R0671", "0671", "DATA", "0671/0679", "0671-0679"]
  }

  /** `s.match(/\d{3,4}/g)`: scanning left to right, every run of three or
      more digits gives its first (up to) four digits, and scanning resumes
      right after them. */
  function DigitTokens(s: string): (ts: seq<string>)
    ensures forall i :: 0 <= i < |ts| ==> 3 <= |ts[i]| <= 4 && AllDigits(ts[i])
    decreases |s|
  {
    if |s| == 0 then []
    else
      var n := DigitRun(s);
      if n >= 3 then
        var k := if n > 4 then 4 else n;
        assert AllDigits(s[..k]) by { assert forall i :: 0 <= i < k ==> s[..k][i] == s[..n][i]; }
        [s[..k]] + DigitTokens(s[k..])
      else DigitTokens(s[1..])
  }

  /** The MOS codes a rubric covers (`mosSet`, app.js:1240): the digit groups
      of its key, zero-padded to four digits. */
  function MosCodes(r: RubricId): (ms: seq<string>)
    ensures forall i :: 0 <= i < |ms| ==> |ms[i]| == 4 && AllDigits(ms[i])
  {
    var ts := DigitTokens(RubricName(r));
    seq(|ts|, i requires 0 <= i < |ts| => PadZeros(ts[i], 4))
  }

  /** Two four-digit groups joined by a dash give exactly those groups. */
  lemma DigitTokensPair(a: string, b: string)
    requires |a| == 4 && |b| == 4 && AllDigits(a) && AllDigits(b)
    ensures DigitTokens(a + "-" + b) == [a, b]
  {
    var s := a + "-" + b;
    assert s == a + ("-" + b);
    DigitRunOf(a, "-" + b);
    assert s[..4] == a && s[4..] == "-" + b;
    var t := "-" + b;
    assert DigitRun(t) == 0;
    assert t[1..] == b;
    DigitRunOf(b, "");
    assert b + "" == b && b[..4] == b && b[4..] == "";
    assert DigitTokens(b) == [b];
  }

  lemma MosCodesOf(r: RubricId, a: string, b: string)
    requires RubricName(r) == a + "-" + b
    requires |a| == 4 && |b| == 4 && AllDigits(a) && AllDigits(b)
    ensures MosCodes(r) == [a, b]
  {
    DigitTokensPair(a, b);
  }

  /** Each rubric covers the two MOS codes of its key. */
  lemma MosCodesRadio()
    ensures MosCodes(Radio) == ["0621", "0629"]
  {
    assert RubricName(Radio) == "0621" + "-" + "0629";
    MosCodesOf(Radio, "0621", "0629");
  }

  lemma MosCodesSatcom()
    ensures MosCodes(Satcom) == ["0627", "0629"]
  {
    assert RubricName(Satcom) == "0627" + "-" + "0629";
    MosCodesOf(Satcom, "0627", "0629");
  }

  lemma MosCodesNetwork()
    ensures MosCodes(Network) == ["0631", "0639"]
  {
    assert RubricName(Network) == "0631" + "-" + "0639";
    MosCodesOf(Network, "0631", "0639");
  }

  lemma MosCodesData()
    ensures MosCodes(Data) == ["0671", "0679"]
  {
    assert RubricName(Data) == "0671" + "-" + "0679";
    MosCodesOf(Data, "0671", "0679");
  }

  /** Area title phrases recognised in free-form headers (`areaTitles`,
      app.js:1241-1247), already lower case. */
  function AreaTitles(a: AreaKey): (ts: seq<string>)
    ensures |ts| > 0
  {
    match a
    case Planning => ["mission planning and preparation", "planning and preparation"]
    case Setup => ["systems setup and configuration", "system setup and configuration", "setup and configuration"]
    case Ops => ["operations and employment", "operations employment", "operations and utilization", "operations and utilization"]
    case Trouble => ["troubleshooting and maintenance", "troubleshooting maintenance", "maintenance"]
    case Security => ["security safety and leadership", "security, safety and leadership", "security safety leadership", "safety and leadership"]
  }

  /** Legacy spreadsheet column letters (`letterMap`, app.js:1287). */
  function LetterColumn(a: AreaKey): string {
    match a
    case Planning => "BM"
    case Setup => "BN"
    case Ops => "BO"
    case Trouble => "BP"
    case Security => "BQ"
  }
}

=== FILE: score.dfy ===
/**
 * Score arithmetic: `clamp` and `avg` (app.js:96-97), `Math.round`, the
 * numeric prefix parser `parseFloat`, and the cell-to-score conversion
 * `toIntMaybe` (app.js:1202-1217). Scores are exact reals; the binary
 * floating-point rounding of the source is not modelled.
 */
module Score {
  import opened Text
  import opened Options

  // ---------------------------------------------------------------------------
  // clamp, Math.round, avg
  // ---------------------------------------------------------------------------

  /** `clamp(n, lo, hi)`: `n` pulled into `[lo, hi]`. */
  function Clamp(n: real, lo: real, hi: real): (r: real)
    ensures lo <= hi ==> lo <= r <= hi
    ensures lo <= n <= hi ==> r == n
    ensures n < lo ==> r == lo
    ensures lo <= hi < n ==> r == hi
  {
    if n < lo then lo else if n > hi then (if hi < lo then lo else hi) else n
  }

  /** `Math.round`: the nearest integer, halves rounded up. */
  function Round(x: real): (r: int)
    ensures x - 0.5 < r as real <= x + 0.5
  {
    (x + 0.5).Floor
  }

  lemma RoundOfInt(n: int)
    ensures Round(n as real) == n
  {
  }

  /** Rounding a value between two integers stays between them. */
  lemma RoundWithin(x: real, lo: int, hi: int)
    requires lo as real <= x <= hi as real
    ensures lo <= Round(x) <= hi
  {
  }

  function Sum(xs: seq<real>): real {
    if |xs| == 0 then 0.0 else Sum(xs[..|xs| - 1]) + xs[|xs| - 1]
  }

  /** `avg`: the arithmetic mean, 0 for no values. */
  function Avg(xs: seq<real>): (r: real)
    ensures |xs| == 0 ==> r == 0.0
    ensures |xs| > 0 ==> r * |xs| as real == Sum(xs)
  {
    if |xs| == 0 then 0.0 else Sum(xs) / |xs| as real
  }

  predicate Within(xs: seq<real>, lo: real, hi: real) {
    forall i :: 0 <= i < |xs| ==> lo <= xs[i] <= hi
  }

  lemma {:induction false} SumWithin(xs: seq<real>, lo: real, hi: real)
    requires Within(xs, lo, hi)
    ensures lo * |xs| as real <= Sum(xs) <= hi * |xs| as real
    decreases |xs|
  {
    if |xs| > 0 {
      var p := xs[..|xs| - 1];
      assert Within(p, lo, hi) by {
        forall i | 0 <= i < |p| ensures lo <= p[i] <= hi { assert p[i] == xs[i]; }
      }
      SumWithin(p, lo, hi);
      assert lo * |xs| as real == lo * |p| as real + lo;
      assert hi * |xs| as real == hi * |p| as real + hi;
    }
  }

  /** The mean of values in `[lo, hi]` is in `[lo, hi]`. */
  lemma AvgWithin(xs: seq<real>, lo: real, hi: real)
    requires |xs| > 0 && Within(xs, lo, hi)
    ensures lo <= Avg(xs) <= hi
  {
    SumWithin(xs, lo, hi);
    var n := |xs| as real;
    assert Avg(xs) * n == Sum(xs);
    assert lo * n <= Avg(xs) * n <= hi * n;
  }

  /** The mean of a constant list is that constant. */
  lemma {:induction false} SumConst(xs: seq<real>, c: real)
    requires forall i :: 0 <= i < |xs| ==> xs[i] == c
    ensures Sum(xs) == c * |xs| as real
    decreases |xs|
  {
    if |xs| > 0 {
      SumConst(xs[..|xs| - 1], c);
    }
  }

  /** The mean of a non-empty constant list is that constant. */
  lemma AvgConst(xs: seq<real>, c: real)
    requires |xs| > 0 && forall i :: 0 <= i < |xs| ==> xs[i] == c
    ensures Avg(xs) == c
  {
    SumConst(xs, c);
  }

  // ---------------------------------------------------------------------------
  // parseFloat
  // ---------------------------------------------------------------------------

  /** Value of the digits after a decimal point, read from the right:
      `.d1d2...` is `(d1 + .d2...) / 10`. */
  function Fraction(f: string): (r: real)
    requires AllDigits(f)
    ensures 0.0 <= r < 1.0
  {
    if |f| == 0 then 0.0 else (DigitValue(f[0]) as real + Fraction(f[1..])) / 10.0
  }

  /** The value of a numeral with whole digits `w` and fraction digits `f`. */
  function Decimal(w: string, f: string): (r: real)
    requires AllDigits(w) && AllDigits(f)
    ensures r >= 0.0
  {
    DigitsValue(w) as real + Fraction(f)
  }

  /** The unsigned decimal numeral at the start of `u` — digits with an
      optional `.` and fraction, or `.` and a fraction — as its value and the
      number of characters it spans; `None` when `u` does not start with one. */
  function Mantissa(u: string): (r: Option<(real, nat)>)
    ensures r.Some? <==> (|u| > 0 && IsDigit(u[0])) || (|u| > 1 && u[0] == '.' && IsDigit(u[1]))
    ensures r.Some? ==> 0 < r.value.1 <= |u| && r.value.0 >= 0.0
  {
    var a := DigitRun(u);
    if a < |u| && u[a] == '.' then
      var f := u[a + 1..];
      var b := DigitRun(f);
      if a == 0 && b == 0 then None
      else Some((Decimal(u[..a], f[..b]), a + 1 + b))
    else if a == 0 then None
    else Some((DigitsValue(u[..a]) as real, a))
  }

  /** The exponent part `e`/`E`, optional sign, digits, at the start of `e`;
      0 when there is none. */
  function Exponent(e: string): int {
    if |e| >= 2 && (e[0] == 'e' || e[0] == 'E') then
      var neg := e[1] == '-';
      var d := if e[1] == '+' || e[1] == '-' then e[2..] else e[1..];
      var c := DigitRun(d);
      if c == 0 then 0 else if neg then -(DigitsValue(d[..c]) as int) else DigitsValue(d[..c])
    else 0
  }

  /** `x × 10^exp`, one power of ten at a time. */
  function Scale(x: real, exp: int): real
    decreases if exp >= 0 then exp else -exp
  {
    if exp == 0 then x
    else if exp > 0 then Scale(x, exp - 1) * 10.0
    else Scale(x, exp + 1) / 10.0
  }

  /** An unsigned numeral with its optional exponent, from the first
      character of `u`. */
  function ParseUnsigned(u: string): Option<real> {
    match Mantissa(u)
    case None => None
    case Some(p) => Some(Scale(p.0, Exponent(u[p.1..])))
  }

  function Negate(r: Option<real>): Option<real> {
    match r
    case None => None
    case Some(x) => Some(-x)
  }

  /** `parseFloat` reduced to its finite results: leading white space, an
      optional sign, then the longest decimal numeral with optional exponent;
      anything after it is ignored. `None` stands for both `NaN` (no numeral)
      and `±Infinity`, which `Number.isFinite` rejects alike; `Infinity` starts
      with a letter and so is not a numeral here. */
  function ParseFloat(s: string): Option<real> {
    var t := TrimStart(s);
    if |t| > 0 && t[0] == '-' then Negate(ParseUnsigned(t[1..]))
    else if |t| > 0 && t[0] == '+' then ParseUnsigned(t[1..])
    else ParseUnsigned(t)
  }

  /** `parseFloat` yields a finite number exactly when, after white space and
      one optional sign, the text starts with a digit or with `.` and a
      digit. */
  lemma ParseFloatDefined(s: string)
    ensures var t := TrimStart(s);
            var u := if |t| > 0 && (t[0] == '+' || t[0] == '-') then t[1..] else t;
            ParseFloat(s).Some? <==> (|u| > 0 && IsDigit(u[0])) || (|u| > 1 && u[0] == '.' && IsDigit(u[1]))
  {
  }

  /** Without leading white space or sign the numeral is read from the first
      character on. */
  lemma ParseFloatUnsigned(u: string)
    requires |u| > 0 && !IsSpace(u[0]) && u[0] != '+' && u[0] != '-'
    ensures ParseFloat(u) == ParseUnsigned(u)
  {
    assert TrimStart(u) == u;
  }

  lemma MantissaWhole(w: string, rest: string)
    requires |w| > 0 && AllDigits(w)
    requires |rest| == 0 || !(IsDigit(rest[0]) || rest[0] == '.')
    ensures Mantissa(w + rest) == Some((DigitsValue(w) as real, |w|))
  {
    DigitRunOf(w, rest);
    assert (w + rest)[..|w|] == w;
  }

  lemma MantissaDecimal(w: string, f: string)
    requires |w| > 0 && AllDigits(w) && AllDigits(f)
    ensures Mantissa(w + "." + f) == Some((Decimal(w, f), |w| + 1 + |f|))
  {
    var s := w + "." + f;
    assert s == w + ("." + f);
    DigitRunOf(w, "." + f);
    assert DigitRun(s) == |w|;
    assert s[..|w|] == w;
    assert s[|w|] == '.';
    var tail := s[|w| + 1..];
    assert tail == f;
    DigitRunOf(f, "");
    assert f + "" == f;
    assert DigitRun(tail) == |f|;
    assert tail[..|f|] == f;
  }

  /** A digit string followed by anything that cannot continue a numeral
      reads as the number the digits denote. */
  lemma ParseFloatDigits(w: string, rest: string)
    requires |w| > 0 && AllDigits(w)
    requires |rest| == 0 || !(IsDigit(rest[0]) || rest[0] in {'.', 'e', 'E'})
    ensures ParseFloat(w + rest) == Some(DigitsValue(w) as real)
  {
    var s := w + rest;
    assert s[0] == w[0];
    ParseFloatUnsigned(s);
    MantissaWhole(w, rest);
    assert s[|w|..] == rest;
    assert Exponent(rest) == 0;
  }

  lemma ParseFloatNat(n: nat)
    ensures ParseFloat(ShowNat(n)) == Some(n as real)
  {
    ParseFloatDigits(ShowNat(n), "");
    assert ShowNat(n) + "" == ShowNat(n);
  }

  /** `w.f` reads as the whole part plus the fraction. */
  lemma ParseFloatDecimal(w: string, f: string)
    requires |w| > 0 && AllDigits(w) && AllDigits(f)
    ensures ParseFloat(w + "." + f) == Some(Decimal(w, f))
  {
    var s := w + "." + f;
    assert s[0] == w[0];
    ParseFloatUnsigned(s);
    MantissaDecimal(w, f);
    var m := Mantissa(s).value;
    assert s[m.1..] == "";
    assert Exponent("") == 0;
    assert ParseUnsigned(s) == Some(m.0);
    assert ParseFloat(s) == Some(m.0);
  }

  /** A leading minus sign negates. */
  lemma ParseFloatNegate(u: string)
    requires |u| > 0 && !IsSpace(u[0]) && u[0] != '+' && u[0] != '-'
    ensures ParseFloat("-" + u) == Negate(ParseFloat(u))
  {
    ParseFloatUnsigned(u);
    assert TrimStart("-" + u) == "-" + u by { assert !IsSpace('-'); }
    assert ("-" + u)[1..] == u;
  }

  // ---------------------------------------------------------------------------
  // toIntMaybe
  // ---------------------------------------------------------------------------

  /** The cell with every `%` and `,` removed, then trimmed. */
  function Clean(raw: string): (r: string)
    ensures '%' !in r && ',' !in r
  {
    var u := RemoveChar(RemoveChar(raw, '%'), ',');
    TrimChars(u);
    Trim(u)
  }

  /** The score a parsed number gives: a number in `[0, 1]` is a fraction
      and is scaled by 100 unless the cell had `%`; the result is clamped to
      `[0, 100]`. */
  function ScoreOf(hadPct: bool, n: Option<real>): (r: Option<real>)
    ensures r.Some? <==> n.Some?
    ensures r.Some? ==> 0.0 <= r.value <= 100.0
    ensures r.Some? && !hadPct && 0.0 <= n.value <= 1.0 ==> r.value == 100.0 * n.value
    ensures r.Some? && (hadPct || n.value > 1.0) ==> r.value == Clamp(n.value, 0.0, 100.0)
  {
    match n
    case None => None
    case Some(x) =>
      var out := if !hadPct && 0.0 <= x <= 1.0 then x * 100.0 else x;
      Some(Clamp(out, 0.0, 100.0))
  }

  /** Every number that is not an unmarked fraction of 1, negative numbers
      included, is only clamped to `[0, 100]`. */
  lemma ScoreOfClamped(hadPct: bool, x: real)
    requires hadPct || x < 0.0 || x > 1.0
    ensures ScoreOf(hadPct, Some(x)) == Some(Clamp(x, 0.0, 100.0))
    ensures x < 0.0 ==> ScoreOf(hadPct, Some(x)) == Some(0.0)
  {
  }

  /** `toIntMaybe`: a percentage score from a cell. `None` for a blank or
      non-numeric cell; otherwise a value in `[0, 100]`. */
  function ToIntMaybe(v: string): (r: Option<real>)
    ensures r.Some? ==> 0.0 <= r.value <= 100.0
    ensures Blank(v) ==> r.None?
  {
    var raw := Trim(v);
    if raw == "" then None
    else ScoreOf('%' in raw, ParseFloat(Clean(raw)))
  }

  /** For a cell with no white space at either end the conversion reads the
      cleaned cell, noting whether it had `%`. */
  lemma ToIntMaybeTrimmed(v: string)
    requires v != "" && Trimmed(v)
    ensures ToIntMaybe(v) == ScoreOf('%' in v, ParseFloat(Clean(v)))
  {
    TrimOfTrimmed(v);
  }

  /** A numeral without `%` or `,` is cleaned to itself. */
  lemma CleanPlain(s: string)
    requires Trimmed(s) && '%' !in s && ',' !in s
    ensures Clean(s) == s
  {
    TrimOfTrimmed(s);
  }

  lemma ShowNatTrimmed(p: nat)
    ensures Trimmed(ShowNat(p)) && '%' !in ShowNat(p) && ',' !in ShowNat(p)
  {
    var s := ShowNat(p);
    assert !IsSpace(s[0]) && !IsSpace(s[|s| - 1]);
    assert !IsDigit('%') && !IsDigit(',');
  }

  /** A whole number: 0 and 1 are fractions of 1 (0 and 100), anything above
      is a percentage capped at 100. */
  lemma ToIntMaybeWhole(p: nat)
    ensures ToIntMaybe(ShowNat(p)) == Some(if p == 1 then 100.0 else if p > 100 then 100.0 else p as real)
  {
    var s := ShowNat(p);
    ShowNatTrimmed(p);
    CleanPlain(s);
    ToIntMaybeTrimmed(s);
    ParseFloatNat(p);
    ScoreOfWhole(p);
  }

  lemma ScoreOfWhole(p: nat)
    ensures ScoreOf(false, Some(p as real)) == Some(if p == 1 then 100.0 else if p > 100 then 100.0 else p as real)
  {
  }

  /** A whole number followed by `%` is taken as a percentage as it stands. */
  lemma ToIntMaybePercent(p: nat)
    ensures ToIntMaybe(ShowNat(p) + "%") == Some(if p > 100 then 100.0 else p as real)
  {
    PercentCell(p);
    ToIntMaybeTrimmed(ShowNat(p) + "%");
    ParseFloatNat(p);
  }

  /** A whole number followed by `%` is a trimmed cell that cleans to the
      number. */
  lemma PercentCell(p: nat)
    ensures var s := ShowNat(p) + "%"; s != "" && Trimmed(s) && '%' in s && Clean(s) == ShowNat(p)
  {
    var d := ShowNat(p);
    var s := d + "%";
    ShowNatTrimmed(p);
    assert Trimmed(s) by { assert s[0] == d[0] && !IsSpace(s[|s| - 1]); }
    RemoveCharAppend(d, "%", '%');
    assert RemoveChar("%", '%') == "";
    assert RemoveChar(s, '%') == d;
    CleanPlain(d);
    assert '%' in s by { assert s[|s| - 1] == '%'; }
  }

  /** A negative whole number is below the range and becomes 0 (and `-0`
      is the fraction 0). */
  lemma ToIntMaybeNegative(p: nat)
    ensures ToIntMaybe("-" + ShowNat(p)) == Some(0.0)
  {
    var d := ShowNat(p);
    var s := "-" + d;
    NegativeCell(p);
    ToIntMaybeTrimmed(s);
    CleanPlain(s);
    ParseFloatNegate(d);
    ParseFloatNat(p);
    if p > 0 {
      ScoreOfClamped(false, -(p as real));
    }
  }

  /** `-p` is a trimmed cell without `%` or `,`. */
  lemma NegativeCell(p: nat)
    ensures var s := "-" + ShowNat(p); s != "" && Trimmed(s) && '%' !in s && ',' !in s
  {
    var d := ShowNat(p);
    var s := "-" + d;
    ShowNatTrimmed(p);
    assert !IsSpace(s[0]) && s[|s| - 1] == d[|d| - 1];
    assert s[1..] == d;
  }

  /** `0.f` is a fraction of 1 and becomes that many hundredths. */
  lemma ToIntMaybeFraction(f: string)
    requires AllDigits(f)
    ensures ToIntMaybe("0." + f) == Some(100.0 * Fraction(f))
  {
    var s := "0." + f;
    FractionTextPlain(f);
    CleanPlain(s);
    ToIntMaybeTrimmed(s);
    ParseFloatFraction(f);
  }

  lemma FractionTextPlain(f: string)
    requires AllDigits(f)
    ensures var s := "0." + f; s != "" && Trimmed(s) && '%' !in s && ',' !in s
  {
    var s := "0." + f;
    assert !IsSpace(s[0]);
    assert |f| == 0 ==> s[|s| - 1] == '.';
    assert |f| > 0 ==> s[|s| - 1] == f[|f| - 1];
    forall i | 0 <= i < |s| ensures s[i] != '%' && s[i] != ',' {
      if i >= 2 { assert s[i] == f[i - 2]; }
    }
  }

  lemma ParseFloatFraction(f: string)
    requires AllDigits(f)
    ensures ParseFloat("0." + f) == Some(Fraction(f))
  {
    assert "0." + f == "0" + "." + f;
    ParseFloatDecimal("0", f);
    DecimalZero(f);
  }

  lemma DecimalZero(f: string)
    requires AllDigits(f)
    ensures Decimal("0", f) == Fraction(f)
  {
    assert "0"[..0] == [];
  }

  /** A cell whose cleaned text (trimmed, `%` and `,` removed, trimmed
      again) is empty or starts with neither a digit, a point nor a sign is
      not a score; `,5` and `%50` are cleaned to numerals first. */
  lemma ToIntMaybeNonNumeric(v: string)
    requires var c := Clean(Trim(v));
             c == "" || (!IsDigit(c[0]) && c[0] != '.' && c[0] != '+' && c[0] != '-')
    ensures ToIntMaybe(v).None?
  {
    var c := Clean(Trim(v));
    if Trim(v) != "" {
      if c == "" {
        assert ParseFloat(c) == ParseUnsigned(c);
      } else {
        ParseFloatUnsigned(c);
      }
      assert Mantissa(c).None?;
    }
  }
}

=== FILE: seqs.dfy ===
/**
 * Sequence helpers shared by grouping and filtering: `Array.prototype.filter`
 * and the keys of a `Map` filled in roster order.
 */
module Seqs {

  /** `ys` is `xs` with some elements left out, the rest in their order. */
  predicate Subseq<T(==)>(ys: seq<T>, xs: seq<T>)
    decreases |xs|
  {
    if |ys| == 0 then true
    else if |xs| == 0 then false
    else if ys[|ys| - 1] == xs[|xs| - 1] then Subseq(ys[..|ys| - 1], xs[..|xs| - 1])
    else Subseq(ys, xs[..|xs| - 1])
  }

  /** A subsequence stays one when the sequence grows at the end. */
  lemma {:induction false} SubseqAppend<T>(ys: seq<T>, xs: seq<T>, x: T)
    requires Subseq(ys, xs)
    ensures Subseq(ys, xs + [x])
    decreases |xs|, 1
  {
    var xs' := xs + [x];
    assert xs'[..|xs'| - 1] == xs;
    if |ys| > 0 && ys[|ys| - 1] == x {
      SubseqShorter(ys, xs);
    }
  }

  /** Dropping the last element of a subsequence keeps it one. */
  lemma {:induction false} SubseqShorter<T>(ys: seq<T>, xs: seq<T>)
    requires |ys| > 0 && Subseq(ys, xs)
    ensures Subseq(ys[..|ys| - 1], xs)
    decreases |xs|, 0
  {
    var ys' := ys[..|ys| - 1];
    var xs' := xs[..|xs| - 1];
    if ys[|ys| - 1] != xs[|xs| - 1] {
      SubseqShorter(ys, xs');
    }
    SubseqAppend(ys', xs', xs[|xs| - 1]);
    assert xs' + [xs[|xs| - 1]] == xs;
  }

  lemma {:induction false} SubseqRefl<T>(xs: seq<T>)
    ensures Subseq(xs, xs)
    decreases |xs|
  {
    if |xs| > 0 {
      SubseqRefl(xs[..|xs| - 1]);
    }
  }

  /** `xs.filter(p)`: the elements satisfying `p`, in their order, each with
      all its copies. */
  function Select<T(==)>(xs: seq<T>, p: T -> bool): (ys: seq<T>)
    ensures |ys| <= |xs|
    ensures forall y :: y in ys ==> y in xs && p(y)
    ensures forall x :: x in xs && p(x) ==> multiset(ys)[x] == multiset(xs)[x]
    ensures (forall x :: x in xs ==> p(x)) ==> ys == xs
    decreases |xs|
  {
    if |xs| == 0 then []
    else
      var n := |xs| - 1;
      var r := Select(xs[..n], p);
      assert xs == xs[..n] + [xs[n]];
      assert forall x :: x in xs ==> x in xs[..n] || x == xs[n];
      if p(xs[n]) then r + [xs[n]] else r
  }

  lemma {:induction false} SelectSubseq<T>(xs: seq<T>, p: T -> bool)
    ensures Subseq(Select(xs, p), xs)
    decreases |xs|
  {
    if |xs| > 0 {
      var n := |xs| - 1;
      var r := Select(xs[..n], p);
      SelectSubseq(xs[..n], p);
      assert xs[..n] + [xs[n]] == xs;
      if p(xs[n]) {
        var ys := r + [xs[n]];
        assert ys[..|ys| - 1] == r;
      } else {
        SubseqAppend(r, xs[..n], xs[n]);
      }
    }
  }

  /** `xs.filter(p)`: the elements `p` keeps, in order, each as often as in
      `xs`. */
  function Filter<T(==,!new)>(xs: seq<T>, p: T -> bool): (ys: seq<T>)
    ensures Subseq(ys, xs)
    ensures forall x :: x in ys <==> x in xs && p(x)
    ensures forall x :: x in ys ==> multiset(ys)[x] == multiset(xs)[x]
    ensures (forall x :: x in xs ==> p(x)) ==> ys == xs
  {
    SelectSubseq(xs, p);
    Select(xs, p)
  }

  /** The distinct values of `ks` in order of first appearance: the keys of a
      `Map` after setting each of `ks` in turn. */
  function Distinct<K(==,!new)>(ks: seq<K>): (ds: seq<K>)
    ensures forall k :: k in ds <==> k in ks
    ensures forall i, j :: 0 <= i < j < |ds| ==> ds[i] != ds[j]
    decreases |ks|
  {
    if |ks| == 0 then []
    else
      var n := |ks| - 1;
      var r := Distinct(ks[..n]);
      assert ks == ks[..n] + [ks[n]];
      if ks[n] in r then r else r + [ks[n]]
  }

  /** Of two distinct values, the one listed first appears in `ks` before
      any occurrence of the other. */
  lemma {:induction false} DistinctFirstAppearance<K(!new)>(ks: seq<K>, i: nat, j: nat)
    requires i < j < |Distinct(ks)|
    ensures exists a :: 0 <= a < |ks| && ks[a] == Distinct(ks)[i]
                        && forall b :: 0 <= b <= a ==> ks[b] != Distinct(ks)[j]
    decreases |ks|
  {
    var n := |ks| - 1;
    var pre := ks[..n];
    var r := Distinct(pre);
    assert ks == pre + [ks[n]];
    var ds := Distinct(ks);
    if j < |r| {
      DistinctFirstAppearance(pre, i, j);
      var a :| 0 <= a < |pre| && pre[a] == r[i] && forall b :: 0 <= b <= a ==> pre[b] != r[j];
      assert ks[a] == ds[i];
      forall b | 0 <= b <= a ensures ks[b] != ds[j] {
        assert ks[b] == pre[b];
      }
    } else {
      assert ds == r + [ks[n]] && ds[j] == ks[n] && ks[n] !in pre;
      assert ds[i] in pre;
      var a :| 0 <= a < |pre| && pre[a] == ds[i];
      forall b | 0 <= b <= a ensures ks[b] != ds[j] {
        assert ks[b] == pre[b];
      }
      assert ks[a] == ds[i];
    }
  }

  /** `xs.map(f)`. */
  function Map<T, K>(xs: seq<T>, f: T -> K): (ks: seq<K>)
    ensures |ks| == |xs|
    ensures forall i :: 0 <= i < |xs| ==> ks[i] == f(xs[i])
  {
    seq(|xs|, i requires 0 <= i < |xs| => f(xs[i]))
  }

  /** `xs.slice(0, n).map(f)`: the first `n` elements, mapped. */
  function MapFirst<T, U>(xs: seq<T>, n: nat, f: T -> U): (ys: seq<U>)
    requires n <= |xs|
    ensures |ys| == n
    ensures forall k :: 0 <= k < n ==> ys[k] == f(xs[k])
  {
    Map(xs[..n], f)
  }

  /** `xs.reverse()`. */
  function Reverse<T>(xs: seq<T>): (r: seq<T>)
    ensures |r| == |xs|
    ensures forall k :: 0 <= k < |xs| ==> r[k] == xs[|xs| - 1 - k]
  {
    seq(|xs|, k requires 0 <= k < |xs| => xs[|xs| - 1 - k])
  }

  /** `xs.slice(-n).reverse().map(f)`: the last `n` elements, last first, mapped. */
  function MapLastReversed<T, U>(xs: seq<T>, n: nat, f: T -> U): (ys: seq<U>)
    requires n <= |xs|
    ensures |ys| == n
    ensures forall k :: 0 <= k < n ==> ys[k] == f(xs[|xs| - 1 - k])
  {
    var t := xs[|xs| - n..];
    var ys := Map(Reverse(t), f);
    assert forall k :: 0 <= k < n ==> Reverse(t)[k] == xs[|xs| - 1 - k];
    ys
  }

  /** The keys of a `Map` from `key(x)` to the bucket of `x`, filled in the
      order of `xs`: each key once, in order of first appearance, and nothing
      that is not some element's key. */
  function Keys<T, K(==,!new)>(xs: seq<T>, key: T -> K): (ks: seq<K>)
    ensures forall i, j :: 0 <= i < j < |ks| ==> ks[i] != ks[j]
    ensures forall x :: x in xs ==> key(x) in ks
    ensures forall k :: k in ks ==> k in Map(xs, key)
  {
    var ms := Map(xs, key);
    assert forall x :: x in xs ==> key(x) in ms by {
      forall x | x in xs ensures key(x) in ms {
        var j :| 0 <= j < |xs| && xs[j] == x;
        assert ms[j] == key(x);
      }
    }
    Distinct(ms)
  }

  /** The keys come in order of first appearance: an element with the
      earlier key comes before every element with the later one. */
  lemma KeysFirstAppearance<T, K(!new)>(xs: seq<T>, key: T -> K, i: nat, j: nat)
    requires i < j < |Keys(xs, key)|
    ensures exists a :: 0 <= a < |xs| && key(xs[a]) == Keys(xs, key)[i]
                        && forall b :: 0 <= b <= a ==> key(xs[b]) != Keys(xs, key)[j]
  {
    var ms := Map(xs, key);
    DistinctFirstAppearance(ms, i, j);
    var a :| 0 <= a < |ms| && ms[a] == Keys(xs, key)[i]
             && forall b :: 0 <= b <= a ==> ms[b] != Keys(xs, key)[j];
    assert key(xs[a]) == ms[a];
  }

  /** The bucket of key `k`: the elements of `xs` whose key is `k`, in their
      order, each with all its copies. */
  function Bucket<T(==), K(==)>(xs: seq<T>, key: T -> K, k: K): (ys: seq<T>)
    ensures forall y :: y in ys ==> y in xs && key(y) == k
    ensures forall x :: x in xs && key(x) == k ==> multiset(ys)[x] == multiset(xs)[x]
    ensures Subseq(ys, xs)
  {
    SelectSubseq(xs, x => key(x) == k);
    Select(xs, x => key(x) == k)
  }

  /** One bucket of a grouping: a key and what was built from its elements. */
  datatype Group<K, V> = Group(key: K, items: V)

  /** One group per key of `ks`, in that order, each built by `f` from the
      bucket of its key. */
  function Buckets<T(==), K(==), V>(xs: seq<T>, ks: seq<K>, key: T -> K, f: seq<T> -> V): (gs: seq<Group<K, V>>)
    ensures |gs| == |ks|
    ensures forall i :: 0 <= i < |gs| ==> gs[i].key == ks[i]
    ensures forall i :: 0 <= i < |gs| ==> gs[i].items == f(Bucket(xs, key, ks[i]))
  {
    seq(|ks|, i requires 0 <= i < |ks| => Group(ks[i], f(Bucket(xs, key, ks[i]))))
  }

  /** No element occurs twice. */
  predicate NoDups<T(==)>(s: seq<T>) {
    forall i, j :: 0 <= i < j < |s| ==> s[i] != s[j]
  }

  lemma {:induction false} NoDupsCount<T>(s: seq<T>, x: T)
    requires NoDups(s)
    ensures multiset(s)[x] <= 1
    decreases |s|
  {
    if |s| > 0 {
      var n := |s| - 1;
      assert s == s[..n] + [s[n]];
      assert NoDups(s[..n]);
      NoDupsCount(s[..n], x);
      if x == s[n] {
        assert x !in s[..n];
      }
    }
  }

  lemma TwoCopies<T>(s: seq<T>, i: nat, j: nat)
    requires i < j < |s| && s[i] == s[j]
    ensures multiset(s)[s[i]] >= 2
  {
    assert s == s[..i] + [s[i]] + s[i + 1..j] + [s[j]] + s[j + 1..];
  }

  /** A permutation of a sequence without duplicates has none either. */
  lemma NoDupsPermutation<T>(a: seq<T>, b: seq<T>)
    requires multiset(a) == multiset(b) && NoDups(b)
    ensures NoDups(a)
  {
    forall i, j | 0 <= i < j < |a| ensures a[i] != a[j] {
      if a[i] == a[j] {
        TwoCopies(a, i, j);
        NoDupsCount(b, a[i]);
      }
    }
  }
}

=== FILE: text.dfy ===
/**
 * String primitives of the JavaScript engine the dashboard runs on, as used by
 * its ingestion code: `trim`, the `\s+` class, ASCII case mapping, `includes`,
 * `split(' ')`, `join`, `padStart`, and decimal digit strings.
 */
module Text {

  /** ECMAScript WhiteSpace and LineTerminator code points: exactly what
      `String.prototype.trim` removes and what the regular expression `\s` matches. */
  predicate IsSpace(c: char) {
    || c in {' ', '\t', '\n', '\r', '\U{000B}', '\U{000C}', '\U{00A0}', '\U{FEFF}', '\U{1680}'}
    || ('\U{2000}' <= c <= '\U{200A}')
    || c in {'\U{2028}', '\U{2029}', '\U{202F}', '\U{205F}', '\U{3000}'}
  }

  /** The regular expression class `\d`. */
  predicate IsDigit(c: char) {
    '0' <= c <= '9'
  }

  predicate IsAsciiLetter(c: char) {
    ('a' <= c <= 'z') || ('A' <= c <= 'Z')
  }

  /** The regular expression class `\w`, used by the word boundary `\b`. */
  predicate IsWordChar(c: char) {
    IsAsciiLetter(c) || IsDigit(c) || c == '_'
  }

  predicate AllDigits(s: string) {
    forall i :: 0 <= i < |s| ==> IsDigit(s[i])
  }

  predicate NoSpace(s: string) {
    forall i :: 0 <= i < |s| ==> !IsSpace(s[i])
  }

  /** Neither the first nor the last character is white space. */
  predicate Trimmed(s: string) {
    |s| > 0 ==> !IsSpace(s[0]) && !IsSpace(s[|s| - 1])
  }

  /** Every white-space character is a plain space and no two of them are adjacent. */
  ghost predicate Collapsed(s: string) {
    && (forall i :: 0 <= i < |s| && IsSpace(s[i]) ==> s[i] == ' ')
    && (forall i :: !SpaceRun(s, i))
  }

  /** Positions `i - 1` and `i` both hold white space. */
  predicate SpaceRun(s: string, i: int) {
    0 < i < |s| && IsSpace(s[i - 1]) && IsSpace(s[i])
  }

  // ---------------------------------------------------------------------------
  // trim
  // ---------------------------------------------------------------------------

  /** Drops leading white space (the first half of `trim`). */
  function TrimStart(s: string): (r: string)
    ensures |r| <= |s| && r == s[|s| - |r|..]
    ensures |r| > 0 ==> !IsSpace(r[0])
    ensures forall i :: 0 <= i < |s| - |r| ==> IsSpace(s[i])
    decreases |s|
  {
    if |s| > 0 && IsSpace(s[0]) then TrimStart(s[1..]) else s
  }

  /** Drops trailing white space (the second half of `trim`). */
  function TrimEnd(s: string): (r: string)
    ensures |r| <= |s| && r == s[..|r|]
    ensures |r| > 0 ==> !IsSpace(r[|r| - 1])
    ensures forall i :: |r| <= i < |s| ==> IsSpace(s[i])
    decreases |s|
  {
    if |s| > 0 && IsSpace(s[|s| - 1]) then TrimEnd(s[..|s| - 1]) else s
  }

  /** `String.prototype.trim`: the longest slice of `s` that neither starts
      nor ends with white space, everything cut away being white space. */
  function Trim(s: string): (r: string)
    ensures Trimmed(r)
    ensures exists i :: 0 <= i <= |s| && r <= s[i..]
    ensures r == "" <==> Blank(s)
  {
    var t := TrimStart(s);
    var r := TrimEnd(t);
    assert r <= s[|s| - |t|..];
    if r == "" then
      r
    else
      assert !IsSpace(s[|s| - |t|]);
      r
  }

  /** `s` consists of white space only (the JavaScript test `s.trim() === ''`). */
  predicate Blank(s: string) {
    forall i :: 0 <= i < |s| ==> IsSpace(s[i])
  }

  lemma TrimStartOfTrimmed(s: string)
    requires Trimmed(s)
    ensures TrimStart(s) == s
  {
  }

  lemma TrimEndOfTrimmed(s: string)
    requires Trimmed(s)
    ensures TrimEnd(s) == s
  {
  }

  /** Trimming a string that has no white space at either end changes nothing;
      in particular `Trim` is idempotent. */
  lemma TrimOfTrimmed(s: string)
    requires Trimmed(s)
    ensures Trim(s) == s
  {
    TrimStartOfTrimmed(s);
    TrimEndOfTrimmed(s);
  }

  /** A single space before a trimmed, non-empty string is trimmed away. */
  lemma TrimLeadingSpace(t: string)
    requires t != "" && Trimmed(t)
    ensures Trim(" " + t) == t
  {
    assert (" " + t)[1..] == t;
    TrimStartOfTrimmed(t);
    TrimEndOfTrimmed(t);
  }

  lemma TrimIdempotent(s: string)
    ensures Trim(Trim(s)) == Trim(s)
  {
    TrimOfTrimmed(Trim(s));
  }

  // ---------------------------------------------------------------------------
  // replace(/\s+/g, ' ')
  // ---------------------------------------------------------------------------

  /** Replaces every maximal run of white space by one plain space. */
  function Collapse(s: string): (r: string)
    ensures Collapsed(r)
    ensures |s| > 0 <==> |r| > 0
    ensures |s| > 0 ==> (IsSpace(r[0]) <==> IsSpace(s[0]))
    ensures |s| > 0 ==> (IsSpace(r[|r| - 1]) <==> IsSpace(s[|s| - 1]))
    decreases |s|
  {
    if |s| == 0 then []
    else if IsSpace(s[0]) then
      var t := TrimStart(s[1..]);
      var rest := Collapse(t);
      assert |t| > 0 ==> t[|t| - 1] == s[|s| - 1];
      CollapsedCons(' ', rest);
      [' '] + rest
    else
      var rest := Collapse(s[1..]);
      CollapsedCons(s[0], rest);
      [s[0]] + rest
  }

  lemma CollapsedCons(c: char, rest: string)
    requires Collapsed(rest)
    requires IsSpace(c) ==> c == ' ' && (|rest| == 0 || !IsSpace(rest[0]))
    ensures Collapsed([c] + rest)
  {
    var r := [c] + rest;
    forall i | 1 <= i < |r| ensures r[i] == rest[i - 1] { }
    forall k ensures !SpaceRun(r, k) {
      if 1 < k < |r| { assert !SpaceRun(rest, k - 1); }
    }
  }

  /** A string whose white space is already single plain spaces is left alone. */
  lemma {:induction false} CollapseOfCollapsed(s: string)
    requires Collapsed(s)
    ensures Collapse(s) == s
    decreases |s|
  {
    if |s| > 0 {
      CollapsedTail(s);
      CollapseOfCollapsed(s[1..]);
      if IsSpace(s[0]) {
        assert s[0] == ' ';
        assert |s| > 1 ==> !SpaceRun(s, 1);
        CollapseSpaceStep(s);
      } else {
        CollapseCharStep(s);
      }
      HeadTail(s);
    }
  }

  lemma SuffixChars(s: string, n: nat)
    requires n <= |s|
    ensures forall x :: x in s[n..] ==> x in s
  {
  }

  lemma SplitAt(s: string, n: nat)
    requires n <= |s|
    ensures s[..n] + s[n..] == s
  {
  }

  lemma HeadTail(s: string)
    requires |s| > 0
    ensures [s[0]] + s[1..] == s
  {
  }

  /** One step of `Collapse` at a white-space character that no other white
      space follows. */
  lemma CollapseSpaceStep(s: string)
    requires |s| > 0 && IsSpace(s[0]) && (|s| > 1 ==> !IsSpace(s[1]))
    ensures Collapse(s) == [' '] + Collapse(s[1..])
  {
    assert TrimStart(s[1..]) == s[1..];
  }

  /** One step of `Collapse` at a leading character that is not white space. */
  lemma CollapseCharStep(s: string)
    requires |s| > 0 && !IsSpace(s[0])
    ensures Collapse(s) == [s[0]] + Collapse(s[1..])
  {
  }

  lemma CollapsedTail(s: string)
    requires |s| > 0 && Collapsed(s)
    ensures Collapsed(s[1..])
  {
    var t := s[1..];
    forall k ensures !SpaceRun(t, k) {
      if 0 < k < |t| { assert !SpaceRun(s, k + 1); }
    }
  }

  /** What `Trim` keeps is a slice of its input. */
  lemma TrimSlice(s: string) returns (i: nat)
    ensures i + |Trim(s)| <= |s|
    ensures forall k :: 0 <= k < |Trim(s)| ==> Trim(s)[k] == s[i + k]
  {
    var t := TrimStart(s);
    i := |s| - |t|;
    var r := TrimEnd(t);
    assert Trim(s) == r == t[..|r|];
    forall k | 0 <= k < |r| ensures r[k] == s[i + k] {
      assert r[k] == t[k];
    }
  }

  /** A numeral has no white space at either end and nothing but digits. */
  lemma DigitsPlain(m: string)
    requires AllDigits(m)
    ensures Trimmed(m)
    ensures forall c :: c in m ==> IsDigit(c)
  {
    assert |m| > 0 ==> IsDigit(m[0]) && IsDigit(m[|m| - 1]);
  }

  /** Trimming introduces no character. */
  lemma TrimChars(s: string)
    ensures forall x :: x in Trim(s) ==> x in s
  {
    var i := TrimSlice(s);
    var r := Trim(s);
    forall x | x in r ensures x in s {
      var k :| 0 <= k < |r| && r[k] == x;
      assert s[i + k] == x;
    }
  }

  /** Trimming keeps a collapsed string collapsed. */
  lemma TrimCollapsed(s: string)
    requires Collapsed(s)
    ensures Collapsed(Trim(s))
  {
    var i := TrimSlice(s);
    var r := Trim(s);
    forall k ensures !SpaceRun(r, k) {
      if 0 < k < |r| { assert !SpaceRun(s, i + k); }
    }
  }

  /** Collapsing introduces no character other than the plain space. */
  lemma {:induction false} CollapseChars(s: string)
    ensures forall i :: 0 <= i < |Collapse(s)| ==> Collapse(s)[i] == ' ' || Collapse(s)[i] in s
    decreases |s|
  {
    if |s| == 0 {
    } else if IsSpace(s[0]) {
      var t := TrimStart(s[1..]);
      CollapseChars(t);
      SuffixChars(s[1..], |s| - 1 - |t|);
      SuffixChars(s, 1);
    } else {
      CollapseChars(s[1..]);
      SuffixChars(s, 1);
    }
  }

  // ---------------------------------------------------------------------------
  // ASCII case mapping
  // ---------------------------------------------------------------------------

  function LowerChar(c: char): (r: char)
    ensures !('A' <= r <= 'Z')
    ensures IsSpace(r) <==> IsSpace(c)
    ensures IsDigit(r) <==> IsDigit(c)
  {
    if 'A' <= c <= 'Z' then (c as int + 32) as char else c
  }

  function UpperChar(c: char): (r: char)
    ensures !('a' <= r <= 'z')
    ensures IsSpace(r) <==> IsSpace(c)
    ensures IsDigit(r) <==> IsDigit(c)
  {
    if 'a' <= c <= 'z' then (c as int - 32) as char else c
  }

  /** `toLowerCase` restricted to ASCII letters. */
  function Lower(s: string): (r: string)
    ensures |r| == |s|
    ensures forall i {:trigger r[i]} :: 0 <= i < |s| ==> r[i] == LowerChar(s[i])
  {
    seq(|s|, i requires 0 <= i < |s| => LowerChar(s[i]))
  }

  /** Lower-casing a string without capital letters changes nothing. */
  lemma LowerOfLower(s: string)
    requires forall i :: 0 <= i < |s| ==> !('A' <= s[i] <= 'Z')
    ensures Lower(s) == s
  {
  }

  /** Lower-casing works character by character, so it distributes over
      concatenation. */
  lemma LowerAppend(a: string, b: string)
    ensures Lower(a + b) == Lower(a) + Lower(b)
  {
    var r := Lower(a) + Lower(b);
    forall i | 0 <= i < |a + b| ensures Lower(a + b)[i] == r[i] {
      if i >= |a| { assert (a + b)[i] == b[i - |a|]; }
    }
  }

  /** Lower-casing keeps a text trimmed. */
  lemma LowerTrimmed(s: string)
    requires Trimmed(s)
    ensures Trimmed(Lower(s))
  {
  }

  /** Trimmed and lower-cased; empty exactly for white space. */
  function LowerTrim(s: string): (r: string)
    ensures Trimmed(r)
    ensures forall i :: 0 <= i < |r| ==> !('A' <= r[i] <= 'Z')
    ensures r == "" <==> Blank(s)
  {
    LowerTrimmed(Trim(s));
    Lower(Trim(s))
  }

  /** Lower-casing around a single space: each side is lower-cased alone. */
  lemma LowerSpaced(a: string, b: string)
    ensures Lower(a + " " + b) == Lower(a) + " " + Lower(b)
  {
    LowerAppend(a + " ", b);
    LowerAppend(a, " ");
    assert Lower(" ") == " ";
  }

  lemma {:induction false} TrimStartLower(s: string)
    ensures TrimStart(Lower(s)) == Lower(TrimStart(s))
    decreases |s|
  {
    if |s| > 0 && IsSpace(s[0]) {
      assert Lower(s)[1..] == Lower(s[1..]);
      TrimStartLower(s[1..]);
    }
  }

  lemma {:induction false} TrimEndLower(s: string)
    ensures TrimEnd(Lower(s)) == Lower(TrimEnd(s))
    decreases |s|
  {
    if |s| > 0 && IsSpace(s[|s| - 1]) {
      assert Lower(s)[..|s| - 1] == Lower(s[..|s| - 1]);
      TrimEndLower(s[..|s| - 1]);
    }
  }

  /** Trimming and lower-casing commute: case mapping never touches white
      space. */
  lemma TrimLower(s: string)
    ensures Trim(Lower(s)) == Lower(Trim(s))
  {
    TrimStartLower(s);
    TrimEndLower(TrimStart(s));
  }

  /** Upper-casing first does not change the lower-cased form. */
  lemma LowerOfUpper(s: string)
    ensures Lower(Upper(s)) == Lower(s)
  {
    forall i | 0 <= i < |s| ensures Lower(Upper(s))[i] == Lower(s)[i] {
      assert Upper(s)[i] == UpperChar(s[i]);
    }
  }

  /** One space on each side of a trimmed, non-empty text is trimmed away. */
  lemma TrimPadded(t: string)
    requires t != "" && Trimmed(t)
    ensures Trim(" " + t + " ") == t
  {
    var p := " " + t + " ";
    assert p[1..] == t + " ";
    assert TrimStart(t + " ") == t + " ";
    assert (t + " ")[..|t|] == t;
    TrimEndOfTrimmed(t);
  }

  /** Lower-casing twice is lower-casing once. */
  lemma LowerIdempotent(s: string)
    ensures Lower(Lower(s)) == Lower(s)
  {
    LowerOfLower(Lower(s));
  }

  /** `toUpperCase` restricted to ASCII letters. */
  function Upper(s: string): (r: string)
    ensures |r| == |s|
    ensures forall i {:trigger r[i]} :: 0 <= i < |s| ==> r[i] == UpperChar(s[i])
  {
    seq(|s|, i requires 0 <= i < |s| => UpperChar(s[i]))
  }

  // ---------------------------------------------------------------------------
  // includes, startsWith, character removal
  // ---------------------------------------------------------------------------

  /** `hay.includes(needle)`: some slice of `hay` equals `needle`. */
  predicate Contains(hay: string, needle: string)
    decreases |hay|
  {
    needle <= hay || (|hay| > 0 && Contains(hay[1..], needle))
  }

  lemma {:induction false} ContainsAt(hay: string, needle: string, i: nat)
    requires i + |needle| <= |hay| && hay[i..i + |needle|] == needle
    ensures Contains(hay, needle)
    decreases i
  {
    if i == 0 {
      assert needle <= hay;
    } else {
      assert hay[1..][i - 1..i - 1 + |needle|] == needle;
      ContainsAt(hay[1..], needle, i - 1);
    }
  }

  lemma {:induction false} ContainsWitness(hay: string, needle: string) returns (i: nat)
    requires Contains(hay, needle)
    ensures i + |needle| <= |hay| && hay[i..i + |needle|] == needle
    decreases |hay|
  {
    if needle <= hay {
      i := 0;
    } else {
      var j := ContainsWitness(hay[1..], needle);
      assert hay[1..][j..j + |needle|] == hay[j + 1..j + 1 + |needle|];
      i := j + 1;
    }
  }

  /** A text lacking one of the needle's characters does not contain it. */
  lemma {:induction false} NotContainsChar(hay: string, needle: string, c: char)
    requires c in needle && c !in hay
    ensures !Contains(hay, needle)
    decreases |hay|
  {
    if |hay| > 0 {
      NotContainsChar(hay[1..], needle, c);
    }
  }

  /** A text that contains `pre + needle` contains `needle`. */
  lemma ContainsSuffix(hay: string, pre: string, needle: string)
    requires Contains(hay, pre + needle)
    ensures Contains(hay, needle)
  {
    var i := ContainsWitness(hay, pre + needle);
    var w := hay[i..i + |pre| + |needle|];
    assert w == pre + needle;
    assert hay[i + |pre|..i + |pre| + |needle|] == w[|pre|..];
    ContainsAt(hay, needle, i + |pre|);
  }

  /** A text contains its trimmed form. */
  lemma ContainsTrim(s: string)
    ensures Contains(s, Trim(s))
  {
    var t := Trim(s);
    var i :| 0 <= i <= |s| && t <= s[i..];
    PrefixSlice(s, t, i);
    ContainsAt(s, t, i);
  }

  lemma PrefixSlice(s: string, t: string, i: nat)
    requires i <= |s| && t <= s[i..]
    ensures i + |t| <= |s| && s[i..i + |t|] == t
  {
    assert forall k :: 0 <= k < |t| ==> t[k] == s[i + k];
  }

  /** `s.replace(/c/g, '')`. */
  function RemoveChar(s: string, c: char): (r: string)
    ensures c !in r
    ensures |r| <= |s|
    ensures forall x :: x in r ==> x in s
    ensures c !in s ==> r == s
  {
    if |s| == 0 then []
    else if s[0] == c then RemoveChar(s[1..], c)
    else [s[0]] + RemoveChar(s[1..], c)
  }

  /** Removing a character distributes over concatenation. */
  lemma {:induction false} RemoveCharAppend(a: string, b: string, c: char)
    ensures RemoveChar(a + b, c) == RemoveChar(a, c) + RemoveChar(b, c)
    decreases |a|
  {
    if |a| == 0 {
      assert a + b == b;
    } else {
      assert (a + b)[0] == a[0] && (a + b)[1..] == a[1..] + b;
      RemoveCharAppend(a[1..], b, c);
    }
  }

  predicate AllLetters(s: string) {
    forall i :: 0 <= i < |s| ==> IsAsciiLetter(s[i])
  }

  /** Length of the run of ASCII letters at the start of `s` (`[A-Za-z]+`). */
  function LetterRun(s: string): (n: nat)
    ensures n <= |s|
    ensures AllLetters(s[..n])
    ensures n < |s| ==> !IsAsciiLetter(s[n])
  {
    if |s| == 0 || !IsAsciiLetter(s[0]) then 0
    else
      var m := LetterRun(s[1..]);
      assert forall i :: 1 <= i < 1 + m ==> s[i] == s[1..][i - 1];
      1 + m
  }

  lemma {:induction false} LetterRunOf(w: string, rest: string)
    requires AllLetters(w)
    requires |rest| == 0 || !IsAsciiLetter(rest[0])
    ensures LetterRun(w + rest) == |w|
    decreases |w|
  {
    if |w| == 0 {
      assert w + rest == rest;
    } else {
      assert (w + rest)[1..] == w[1..] + rest;
      LetterRunOf(w[1..], rest);
    }
  }

  /** A letter run that ends at a non-letter has exactly that length. */
  lemma LetterRunAt(s: string, n: nat)
    requires n < |s| && AllLetters(s[..n]) && !IsAsciiLetter(s[n])
    ensures LetterRun(s) == n
  {
  }

  /** Length of the run of ASCII digits at the start of `s`. */
  function DigitRun(s: string): (n: nat)
    ensures n <= |s|
    ensures AllDigits(s[..n])
    ensures n < |s| ==> !IsDigit(s[n])
  {
    if |s| == 0 || !IsDigit(s[0]) then 0
    else
      var m := DigitRun(s[1..]);
      assert forall i :: 1 <= i < 1 + m ==> s[i] == s[1..][i - 1];
      1 + m
  }

  /** A digit run is read in full up to the first character that is not a
      digit. */
  lemma {:induction false} DigitRunOf(w: string, rest: string)
    requires AllDigits(w)
    requires |rest| == 0 || !IsDigit(rest[0])
    ensures DigitRun(w + rest) == |w|
    decreases |w|
  {
    if |w| == 0 {
      assert w + rest == rest;
    } else {
      assert (w + rest)[1..] == w[1..] + rest;
      DigitRunOf(w[1..], rest);
    }
  }

  /** `s.replace(/\D/g, '')`: the ASCII digits of `s`, in order. */
  function OnlyDigits(s: string): (r: string)
    ensures AllDigits(r)
    ensures |r| <= |s|
    ensures AllDigits(s) ==> r == s
    ensures r == [] <==> (forall i :: 0 <= i < |s| ==> !IsDigit(s[i]))
  {
    if |s| == 0 then []
    else if IsDigit(s[0]) then [s[0]] + OnlyDigits(s[1..])
    else
      var r := OnlyDigits(s[1..]);
      assert forall i :: 1 <= i < |s| ==> s[i] == s[1..][i - 1];
      r
  }

  // ---------------------------------------------------------------------------
  // join / split(' ')
  // ---------------------------------------------------------------------------

  /** `parts.join(sep)`. */
  function Join(parts: seq<string>, sep: string): string
    decreases |parts|
  {
    if |parts| == 0 then ""
    else if |parts| == 1 then parts[0]
    else parts[0] + sep + Join(parts[1..], sep)
  }

  lemma {:induction false} JoinSnoc(parts: seq<string>, x: string, sep: string)
    requires |parts| > 0
    ensures Join(parts + [x], sep) == Join(parts, sep) + sep + x
    decreases |parts|
  {
    if |parts| == 1 {
      assert parts + [x] == [parts[0], x];
    } else {
      assert (parts + [x])[1..] == parts[1..] + [x];
      JoinSnoc(parts[1..], x, sep);
    }
  }

  /** A join with a part in front of at least one other. */
  lemma JoinCons(x: string, parts: seq<string>, sep: string)
    requires |parts| > 0
    ensures Join([x] + parts, sep) == x + (sep + Join(parts, sep))
  {
    assert ([x] + parts)[0] == x && ([x] + parts)[1..] == parts;
    assert x + sep + Join(parts, sep) == x + (sep + Join(parts, sep));
  }

  /** A join of two or more parts ends with the separator and the last part. */
  lemma JoinLast(parts: seq<string>, sep: string)
    requires |parts| >= 2
    ensures Join(parts, sep) == Join(parts[..|parts| - 1], sep) + sep + parts[|parts| - 1]
  {
    var n := |parts| - 1;
    assert parts[..n] + [parts[n]] == parts;
    JoinSnoc(parts[..n], parts[n], sep);
  }

  /** Position of the first `c` in `s`. */
  function IndexOf(s: string, c: char): (i: nat)
    requires c in s
    ensures i < |s| && s[i] == c && c !in s[..i]
  {
    if s[0] == c then 0
    else
      var j := IndexOf(s[1..], c);
      assert s[..j + 1] == [s[0]] + s[1..][..j];
      j + 1
  }

  /** `s.split(c)` for a one-character separator: the pieces between the
      separators, which joined back with `c` give `s` again. */
  function SplitOn(s: string, c: char): (r: seq<string>)
    ensures |r| >= 1
    ensures forall k :: 0 <= k < |r| ==> c !in r[k]
    ensures Join(r, [c]) == s
    decreases |s|
  {
    if c !in s then [s]
    else
      var i := IndexOf(s, c);
      var rest := SplitOn(s[i + 1..], c);
      assert s == s[..i] + [c] + s[i + 1..];
      [s[..i]] + rest
  }

  /** Splitting a non-empty collapsed, trimmed string at its spaces gives
      non-empty pieces without white space: the words of the string. */
  lemma {:induction false} SplitWords(s: string)
    requires |s| > 0 && Trimmed(s) && Collapsed(s)
    ensures forall k :: 0 <= k < |SplitOn(s, ' ')| ==> |SplitOn(s, ' ')[k]| > 0 && NoSpace(SplitOn(s, ' ')[k])
    decreases |s|
  {
    if ' ' in s {
      var i := IndexOf(s, ' ');
      assert i > 0;
      assert i + 1 < |s|;
      assert !IsSpace(s[i + 1]) by { assert !SpaceRun(s, i + 1); }
      var t := s[i + 1..];
      assert Trimmed(t) && Collapsed(t) by {
        assert forall k :: 0 <= k < |t| ==> t[k] == s[i + 1 + k];
        forall k ensures !SpaceRun(t, k) {
          if 0 < k < |t| { assert !SpaceRun(s, i + 1 + k); }
        }
      }
      SplitWords(t);
      forall k | 0 <= k < i ensures !IsSpace(s[k]) {
        assert s[..i][k] == s[k];
      }
    } else {
      forall k | 0 <= k < |s| ensures !IsSpace(s[k]) {
        assert s[k] in s;
      }
    }
  }

  // ---------------------------------------------------------------------------
  // decimal digit strings
  // ---------------------------------------------------------------------------

  function DigitValue(c: char): (d: nat)
    requires IsDigit(c)
    ensures d < 10
  {
    c as int - '0' as int
  }

  function DigitChar(d: nat): (c: char)
    requires d < 10
    ensures IsDigit(c) && DigitValue(c) == d
  {
    ('0' as int + d) as char
  }

  /** The number a string of decimal digits denotes (leading zeros allowed). */
  function DigitsValue(s: string): nat
    requires AllDigits(s)
  {
    if |s| == 0 then 0 else DigitsValue(s[..|s| - 1]) * 10 + DigitValue(s[|s| - 1])
  }

  /** `String(n)` for a non-negative integer: its shortest decimal numeral,
      which denotes `n` again. */
  function ShowNat(n: nat): (r: string)
    ensures |r| > 0 && AllDigits(r)
    ensures DigitsValue(r) == n
    ensures |r| > 1 ==> r[0] != '0'
  {
    if n < 10 then [DigitChar(n)]
    else
      var r := ShowNat(n / 10) + [DigitChar(n % 10)];
      assert r[..|r| - 1] == ShowNat(n / 10);
      r
  }

  lemma {:induction false} DigitsValueConcat(a: string, b: string)
    requires AllDigits(a) && AllDigits(b)
    ensures AllDigits(a + b)
    ensures DigitsValue(a + b) == DigitsValue(a) * Pow10(|b|) + DigitsValue(b)
    decreases |b|
  {
    assert AllDigits(a + b) by {
      forall i | 0 <= i < |a + b| ensures IsDigit((a + b)[i]) {
        if i < |a| { assert (a + b)[i] == a[i]; } else { assert (a + b)[i] == b[i - |a|]; }
      }
    }
    if |b| == 0 {
      assert a + b == a;
    } else {
      var b' := b[..|b| - 1];
      assert (a + b)[..|a + b| - 1] == a + b';
      assert (a + b)[|a + b| - 1] == b[|b| - 1];
      DigitsValueConcat(a, b');
      var x, p, y, d := DigitsValue(a), Pow10(|b'|), DigitsValue(b'), DigitValue(b[|b| - 1]);
      assert DigitsValue(a + b) == (x * p + y) * 10 + d;
      assert DigitsValue(b) == y * 10 + d;
      assert Pow10(|b|) == 10 * p;
      ShiftDigit(x, p, y, d);
    }
  }

  /** Appending a digit to `x` followed by `y`: `(x·p + y)·10 + d = x·(10p) + (10y + d)`. */
  lemma ShiftDigit(x: int, p: int, y: int, d: int)
    ensures (x * p + y) * 10 + d == x * (10 * p) + (y * 10 + d)
  {
  }

  function Pow10(n: nat): (p: nat)
    ensures p >= 1
  {
    if n == 0 then 1 else 10 * Pow10(n - 1)
  }

  /** A numeral of `k` digits denotes less than `10^k`. */
  lemma {:induction false} DigitsValueBound(s: string)
    requires AllDigits(s)
    ensures DigitsValue(s) < Pow10(|s|)
    decreases |s|
  {
    if |s| > 0 {
      DigitsValueBound(s[..|s| - 1]);
    }
  }

  /** Zeros in front of a numeral do not change the number it denotes. */
  lemma {:induction false} LeadingZeros(k: nat, s: string)
    requires AllDigits(s)
    ensures AllDigits(seq(k, _ => '0') + s)
    ensures DigitsValue(seq(k, _ => '0') + s) == DigitsValue(s)
    decreases k
  {
    var z := seq(k, _ => '0');
    if k == 0 {
      assert z + s == s;
    } else {
      var z' := seq(k - 1, _ => '0');
      assert z == ['0'] + z';
      assert z + s == ['0'] + (z' + s);
      LeadingZeros(k - 1, s);
      DigitsValueConcat(['0'], z' + s);
      assert DigitsValue(['0']) == 0 by {
        assert ['0'][..0] == [];
      }
    }
  }

  /** Two numerals of the same length that denote the same number are equal. */
  lemma {:induction false} DigitsValueInjective(a: string, b: string)
    requires AllDigits(a) && AllDigits(b) && |a| == |b|
    requires DigitsValue(a) == DigitsValue(b)
    ensures a == b
    decreases |a|
  {
    if |a| > 0 {
      var n := |a| - 1;
      assert DigitValue(a[n]) == DigitsValue(a) % 10 == DigitValue(b[n]);
      assert DigitsValue(a[..n]) == DigitsValue(a) / 10 == DigitsValue(b[..n]);
      DigitsValueInjective(a[..n], b[..n]);
      assert a == a[..n] + [a[n]] && b == b[..n] + [b[n]];
    }
  }

  /** A number below `10^k` is written with at most `k` digits. */
  lemma {:induction false} ShowNatLength(n: nat, k: nat)
    requires k >= 1 && n < Pow10(k)
    ensures |ShowNat(n)| <= k
    decreases n
  {
    if n >= 10 {
      assert k >= 2;
      ShowNatLength(n / 10, k - 1);
    }
  }

  /** A numeral that starts with a non-zero digit denotes a positive number. */
  lemma DigitsValuePositive(p: string)
    requires |p| > 0 && AllDigits(p) && p[0] != '0'
    ensures DigitsValue(p) >= 1
  {
    DigitsValueConcat([p[0]], p[1..]);
    assert [p[0]] + p[1..] == p;
    assert DigitsValue([p[0]]) == DigitValue(p[0]) by { assert [p[0]][..0] == []; }
  }

  /** A numeral without a leading zero is the one `String` writes for its
      number. */
  lemma {:induction false} ShowNatOfDigits(s: string)
    requires |s| > 0 && AllDigits(s) && (|s| > 1 ==> s[0] != '0')
    ensures ShowNat(DigitsValue(s)) == s
    decreases |s|
  {
    var n := |s| - 1;
    if n > 0 {
      var p := s[..n];
      DigitsValuePositive(p);
      var v, d := DigitsValue(p), DigitValue(s[n]);
      assert s[..n] == p;
      assert DigitsValue(s) == v * 10 + d;
      assert DigitChar(d) == s[n];
      ShowNatOfDigits(p);
      ShowNatStep(v, d);
      assert s == p + [s[n]];
    }
  }

  /** Appending a digit to a positive number appends its character. */
  lemma ShowNatStep(v: nat, d: nat)
    requires v > 0 && d < 10
    ensures ShowNat(v * 10 + d) == ShowNat(v) + [DigitChar(d)]
  {
    assert (v * 10 + d) / 10 == v && (v * 10 + d) % 10 == d;
  }

  /** The digits of a concatenation are the digits of its parts. */
  lemma {:induction false} OnlyDigitsAppend(a: string, b: string)
    ensures OnlyDigits(a + b) == OnlyDigits(a) + OnlyDigits(b)
    decreases |a|
  {
    if |a| == 0 {
      assert a + b == b;
    } else {
      assert (a + b)[0] == a[0] && (a + b)[1..] == a[1..] + b;
      OnlyDigitsAppend(a[1..], b);
    }
  }

  /** White space holds no digit. */
  lemma OnlyDigitsBlank(s: string)
    requires Blank(s)
    ensures OnlyDigits(s) == []
  {
    forall i | 0 <= i < |s| ensures !IsDigit(s[i]) {
      assert IsSpace(s[i]);
    }
  }

  lemma OnlyDigitsTrimStart(s: string)
    ensures OnlyDigits(TrimStart(s)) == OnlyDigits(s)
  {
    var t := TrimStart(s);
    var pre := s[..|s| - |t|];
    SplitAt(s, |s| - |t|);
    assert Blank(pre) by {
      forall i | 0 <= i < |pre| ensures IsSpace(pre[i]) { assert pre[i] == s[i]; }
    }
    OnlyDigitsBlank(pre);
    OnlyDigitsAppend(pre, t);
  }

  lemma OnlyDigitsTrimEnd(t: string)
    ensures OnlyDigits(TrimEnd(t)) == OnlyDigits(t)
  {
    var r := TrimEnd(t);
    var post := t[|r|..];
    assert t == r + post;
    assert Blank(post) by {
      forall i | 0 <= i < |post| ensures IsSpace(post[i]) { assert post[i] == t[|r| + i]; }
    }
    OnlyDigitsBlank(post);
    OnlyDigitsAppend(r, post);
  }

  /** Trimming removes no digit. */
  lemma OnlyDigitsTrim(s: string)
    ensures OnlyDigits(Trim(s)) == OnlyDigits(s)
  {
    OnlyDigitsTrimStart(s);
    OnlyDigitsTrimEnd(TrimStart(s));
  }

  /** Removing a non-digit character removes no digit. */
  lemma {:induction false} OnlyDigitsRemove(s: string, c: char)
    requires !IsDigit(c)
    ensures OnlyDigits(RemoveChar(s, c)) == OnlyDigits(s)
    decreases |s|
  {
    if |s| > 0 {
      OnlyDigitsRemove(s[1..], c);
      if s[0] != c {
        assert ([s[0]] + RemoveChar(s[1..], c))[1..] == RemoveChar(s[1..], c);
      }
    }
  }

  /** `s.padStart(n, '0')`. */
  function PadZeros(s: string, n: nat): (r: string)
    ensures |r| == if |s| >= n then |s| else n
    ensures r[|r| - |s|..] == s
    ensures forall i :: 0 <= i < |r| - |s| ==> r[i] == '0'
    ensures AllDigits(s) ==> AllDigits(r) && DigitsValue(r) == DigitsValue(s)
  {
    if |s| >= n then s
    else
      var r := seq(n - |s|, _ => '0') + s;
      assert AllDigits(s) ==> AllDigits(r) && DigitsValue(r) == DigitsValue(s) by {
        if AllDigits(s) { LeadingZeros(n - |s|, s); }
      }
      r
  }
}
